=== FILE: README.md ===
# SmartGifter ledger and pages, modelled in Dafny

This project models the behaviour of SmartGifter (joy-wish-bloom), a gifting web application. It covers:

- **The application context**: an in-memory ledger of users, events and gift items. It handles login, logout, event creation, gift creation, contributions that debit a wallet, RSVPs and lookups.
- **Gift funding**: the gift card's contribution flow and the progress bar derived from a gift's contributions.
- **The pages**: create event, event details, profile, community, home (index), calendar and wallet.
- **The components**: the invite-guests dialog, the notification dropdown and the user avatar.
- **Two services**: the birthday-savings and recurring-gift service, and the reminder service that scans savings plans and recurring gifts.

Everything is pure functions over immutable datatypes, with these conventions:

- Money is in integer cents.
- Calendar dates are `(year, month, day)` triples ordered lexicographically.
- "Now" is a `Moment`: a date plus milliseconds into the day, in one fixed time zone.
- The reminder service works on millisecond timestamps.
- Adding a month or a year to a timestamp is a parameter of the model (`Calendar`), because it depends on the JavaScript date library.

React's event handling is modelled explicitly where it changes the outcome:

- Every state update issued in one event handler starts from the same render snapshot, so only the last update of a list survives (`StaleAddAll`, `Apply`).
- A click on a button inside a clickable row runs the button's handler and then the row's handler.

Modules:

| file | module | models |
|---|---|---|
| option.dfy | `Opt` | optional values |
| seqs.dfy | `Seqs` | order-keeping filter, counting, find-first |
| text.dfy | `Text` | decimal rendering and parsing, trimming, splitting, lower-casing |
| model.dfy | `Model` | users, events, gift items, contributions, wallet transactions, savings plans, recurring gifts, dates and moments |
| app_context.dfy | `AppContext` | `src/context/AppContext.tsx` |
| funding.dfy | `Funding` | totals shared by the gift card and the progress bar |
| gift_card.dfy | `GiftCard` | `src/components/GiftCard.tsx` |
| gift_progress.dfy | `GiftProgress` | `src/components/GiftProgress.tsx` |
| create_event.dfy | `CreateEventPage` | `src/pages/CreateEvent.tsx` and the suggestion table of `src/data/mockData.ts` |
| event_details.dfy | `EventDetailsPage` | `src/pages/EventDetails.tsx` |
| profile.dfy | `ProfilePage` | `src/pages/Profile.tsx` |
| community.dfy | `CommunityPage` | `src/pages/Community.tsx` |
| index_page.dfy | `IndexPage` | `src/pages/Index.tsx` |
| calendar.dfy | `CalendarPage` | `src/pages/Calendar.tsx` |
| sorting.dfy | `EventOrder` | the date sort used by the home page and the calendar |
| grouping.dfy | `Grouping` | grouping a list into buckets keyed in order of first appearance |
| wallet.dfy | `WalletPage` | `src/pages/Wallet.tsx` |
| invite_guests.dfy | `InviteGuests` | `src/components/InviteGuestsModal.tsx` |
| notification_dropdown.dfy | `NotificationDropdown` | `src/components/NotificationDropdown.tsx` |
| user_avatar.dfy | `UserAvatar` | `src/components/UserAvatar.tsx` |
| savings_service.dfy | `SavingsService` | `src/services/savingsService.ts` |
| notification_service.dfy | `NotificationService` | `src/services/notificationService.ts` |

Where the code does something other than what its comments, names or toasts suggest, the model follows the code:

- **Suggested gifts on event creation.** Creating an event is meant to seed one gift per suggestion. Only the last suggestion survives, and it points at a random event id (Findings 1 and 2).
- **Contributing from the wallet.** The gift card's confirm button is meant to refuse an amount larger than the wallet holds. It reads the signed-in user's balance as it was at login, which contributions never update, so repeated contributions can take the wallet below zero (Finding 3).
- **Accepting and declining an invitation.** Accepting is meant to clear the pending action, and declining to remove the notification. A click on either button only marks the notification read (Finding 4).
- **Adding funds.** The wallet's "add funds" is meant to top the wallet up. The context never provides the function, so every valid amount ends in the payment-error toast (Finding 5).

## Model

| member | source | states |
|---|---|---|
| AppContext.Login | src/context/AppContext.tsx:31-51 | A known email logs in the first user with that email and leaves the user list alone. An unknown email appends exactly one user with id `user<n+1>`, the given name and email, no birthday, no friends and a 100-dollar welcome balance, and makes that user current |
| AppContext.Logout | src/context/AppContext.tsx:53-56 | Logging out clears the current user and nothing else |
| AppContext.CreateEvent | src/context/AppContext.tsx:58-65 | Exactly one event is appended, carrying the draft's fields and the id `event<n+1>`; earlier events are untouched |
| AppContext.AddGiftItem | src/context/AppContext.tsx:67-75 | Exactly one gift is appended with id `item<n+1>`, no contributors and the draft's other fields |
| AppContext.AppendContribution | src/context/AppContext.tsx:78-108 | Every gift with the id gets the contribution at the end of its list; all other gifts are unchanged; the list keeps its length |
| AppContext.Debit | src/context/AppContext.tsx:82-92 | Every user with the contributor's id loses the amount; all other users are unchanged |
| AppContext.ContributeToGift | src/context/AppContext.tsx:77-110 | A contribution to an existing gift is recorded on it and the contributor is debited once per gift carrying that id; a contribution to an unknown gift changes nothing, not even the wallet |
| AppContext.DebitNothing | src/context/AppContext.tsx:82-92 | A debit of nothing leaves every balance as it was |
| AppContext.AppendNowhere | src/context/AppContext.tsx:78-108 | A contribution to a gift id that no gift has leaves the gifts as they were |
| AppContext.UpdateRsvp | src/context/AppContext.tsx:112-128 | The events with the id record the user's answer, replacing any earlier one; every other answer and every other event are kept |
| AppContext.UpdateRsvpIdempotent | src/context/AppContext.tsx:112-128 | Recording the same answer twice is the same as recording it once |
| AppContext.GetUserById | src/context/AppContext.tsx:130-132 | The lookup fails exactly when no user has the id; otherwise it returns the first listed user with that id |
| AppContext.GetEventById | src/context/AppContext.tsx:134-136 | The lookup fails exactly when no event has the id; otherwise it returns the first listed event with that id |
| AppContext.GetGiftsByEventId | src/context/AppContext.tsx:138-140 | The result is exactly the gifts of that event; GiftsByEventKeepOrder fixes their order |
| AppContext.GiftsByEventKeepOrder | src/context/AppContext.tsx:138-140 | Each gift is kept or dropped on its own and the kept ones keep the gift list's order |
| AppContext.UsersByIds | src/pages/EventDetails.tsx:56-58 | Resolving a list of ids gives at most one user per id, each a listed user holding one of the ids |
| AppContext.UsersByIdsAreKnown | src/pages/EventDetails.tsx:56-58 | The resolved list is the lookup of each id that belongs to a user, in the order of the ids |
| AppContext.DebitSum | src/context/AppContext.tsx:82-92 | The sum of all balances drops by the amount times the number of users holding the id |
| AppContext.AppendSum | src/context/AppContext.tsx:78-108 | The sum of everything contributed rises by the amount times the number of gifts holding the id |
| AppContext.ContributionMovesMoney | src/context/AppContext.tsx:77-110 | The gifts gain the amount once per gift carrying the id; the wallets lose that much once per user carrying the contributor's id |
| AppContext.ContributionConservesMoney | src/context/AppContext.tsx:77-110 | With one user per id, wallet balances plus contributed amounts are the same before and after a contribution |
| Funding.TotalContributed | src/components/GiftCard.tsx:35 | The sum of a gift's contributions; TotalContributedBounds and AppContext.AppendSum characterise it |
| Funding.TotalContributedBounds | src/components/GiftCard.tsx:35 | With non-negative contributions the total is non-negative and at least each single contribution |
| Funding.AmountRemaining | src/components/GiftCard.tsx:36 | What is still needed is never negative; it is zero exactly when the contributions reach the price; otherwise it closes the gap to the price exactly |
| Funding.IsFullyFunded | src/components/GiftCard.tsx:37 | A gift is fully funded exactly when its contributions reach its price |
| GiftCard.CanContribute | src/components/GiftCard.tsx:39 | The contribute button is offered exactly to a signed-in user on a gift that still needs money |
| GiftCard.MessageOf | src/components/GiftCard.tsx:50 | An empty message is sent as no message; any other text is sent unchanged |
| GiftCard.HandleContribute | src/components/GiftCard.tsx:41-55 | Without a user, or with an amount that is empty, not a number or not positive, nothing changes. Otherwise the contribution is recorded, the user is debited and the form is cleared, and events and the current user stay as they were |
| GiftCard.ConfirmEnabled | src/components/GiftCard.tsx:186-187 | Confirm is enabled only for a positive amount, for a signed-in user only up to the balance in the session snapshot, and for a signed-out visitor whatever the amount |
| GiftCard.ConfirmAllowsOverfunding | src/components/GiftCard.tsx:186-187 | Confirm never compares the amount with what the gift still needs, so more than the remainder can be paid |
| GiftCard.ConfirmAsWritten | src/components/GiftCard.tsx:184-187 | A click on confirm as written: disabled, nothing happens; enabled, the contribution handler runs |
| GiftCard.LiveBalance | src/context/AppContext.tsx:82-92 | The balance read from the live user list: absent when signed out; when present, it belongs to a listed user with the current user's id |
| GiftCard.Confirm | src/components/GiftCard.tsx:184-187 | The corrected confirm: it checks the amount against the live balance, not the stale snapshot |
| GiftCard.ConfirmKeepsBalanceNonNegative | src/components/GiftCard.tsx:184-187 | With unique user and gift ids, a corrected confirm never takes a non-negative wallet below zero |
| GiftCard.OneGiftOneDebit | src/context/AppContext.tsx:77-110 | With one user and one gift, a contribution debits the wallet by exactly the amount |
| GiftCard.StaleSnapshotOverdraws | src/components/GiftCard.tsx:186-187 | After one confirm the snapshot still shows the old balance, so confirm stays enabled and a second one takes the wallet below zero; the live check would have refused it |
| GiftCard.StaleSnapshotExample | src/components/GiftCard.tsx:186-187 | Concretely, a 100-dollar wallet giving 100 dollars twice to a 500-dollar gift ends at minus 100 dollars |
| GiftProgress.PercentComplete | src/components/GiftProgress.tsx:12 | The percentage is capped at 100. It is exact below the price, exactly 100 at or above a positive price, and never negative for a positive price and total. At price zero it is 100 for a positive total (the infinite ratio is capped), NaN for a zero total and minus infinity for a negative one |
| GiftProgress.IsComplete | src/components/GiftProgress.tsx:13 | The bar reads complete; CompleteIffFullyFunded, FreeGiftWithMoneyComplete and ZeroPriceDisagreement characterise it |
| GiftProgress.IsNearlyComplete | src/components/GiftProgress.tsx:14 | The bar reads nearly complete; NearlyCompleteIff and CompleteExcludesNearly characterise it |
| GiftProgress.CompleteExcludesNearly | src/components/GiftProgress.tsx:13-14 | A gift is never both complete and nearly complete |
| GiftProgress.CompleteIffFullyFunded | src/components/GiftProgress.tsx:13 | For a positive price, the progress bar's "complete" agrees with the card's "fully funded" |
| GiftProgress.NearlyCompleteIff | src/components/GiftProgress.tsx:14 | For a positive price, "nearly complete" means at least 85 percent funded and not yet fully funded |
| GiftProgress.FreeGiftWithMoneyComplete | src/components/GiftProgress.tsx:12-14 | A free gift that has received money is complete on the progress bar and fully funded on the card, and not nearly complete |
| GiftProgress.ZeroPriceDisagreement | src/components/GiftProgress.tsx:12-14 | A free gift with no contributions is fully funded for the card but neither complete nor nearly complete for the progress bar |
| GiftProgress.BadgeLabel | src/components/GiftProgress.tsx:44 | A contributor badge shows the user id without its first four characters, or nothing for a shorter id |
| GiftProgress.Badges | src/components/GiftProgress.tsx:42-46 | At most five badges are shown, the first contributors in order |
| GiftProgress.Overflow | src/components/GiftProgress.tsx:47-51 | The "+n" bubble appears exactly when there are more than five contributors, with a positive count |
| GiftProgress.BadgesAccountForAll | src/components/GiftProgress.tsx:42-51 | Badges plus the overflow count account for every contributor |
| GiftProgress.FooterOf | src/components/GiftProgress.tsx:36-59 | The footer appears exactly when contributions are shown and there are any; its message matches the complete, nearly complete or neither state |
| GiftProgress.Headline | src/components/GiftProgress.tsx:20 | The celebratory headline shows exactly for a complete gift |
| CreateEventPage.Suggestions | src/data/mockData.ts:170-195 | Every event kind except "other" has four suggestions, all with positive prices; "other" has none |
| CreateEventPage.SeedDraft | src/pages/CreateEvent.tsx:55-65 | A seeded gift copies the suggestion's title, price and category, describes itself after the event kind, points at the given event, has no contributors, is available and has medium priority |
| CreateEventPage.EventIdInjective | src/context/AppContext.tsx:61 | Different event counts give different event ids |
| CreateEventPage.SeedDrafts | src/pages/CreateEvent.tsx:52-67 | One draft per suggestion, in order |
| CreateEventPage.StaleAddAllKeepsLast | src/pages/CreateEvent.tsx:52-67 | Adding several gifts from one stale snapshot leaves only the last one added |
| CreateEventPage.SubmitAsWritten | src/pages/CreateEvent.tsx:35-70 | As written, without a user or a complete form nothing changes. Otherwise the event is created, users stay as they were, and exactly one gift is added, the last suggestion, pointing at a random event id |
| CreateEventPage.AsWrittenSeedsOneOfFour | src/pages/CreateEvent.tsx:52-67 | A birthday event has four suggestions but gains only one gift |
| CreateEventPage.AsWrittenSeedIsOrphaned | src/pages/CreateEvent.tsx:63 | When the random id misses the new event, the new event has no gifts at all |
| CreateEventPage.AddAll | src/pages/CreateEvent.tsx:52-67 | Adding a list of gifts one after another from the live state appends every one of them, in order, with consecutive ids |
| CreateEventPage.Submit | src/pages/CreateEvent.tsx:35-70 | The corrected submit creates the event and one gift per suggestion, every one pointing at the new event; with no user or an incomplete form nothing changes |
| CreateEventPage.SubmitCreatesEvent | src/pages/CreateEvent.tsx:41-49 | A submit appends one event with the next event id, the signed-in user as creator, no participants and no answers, and the form's title, date, kind and privacy |
| CreateEventPage.SubmitSeedsAttachToEvent | src/pages/CreateEvent.tsx:52-67 | After a corrected submit, the new event's gift list is exactly the seeded gifts, one per suggestion |
| CreateEventPage.SubmitSeedIdsDistinct | src/pages/CreateEvent.tsx:52-67 | The seeded gifts all have different ids |
| EventDetailsPage.PageSubject | src/pages/EventDetails.tsx:27-42 | With no id, an unknown event or an unknown creator the page shows nothing. Otherwise it shows the first event with the requested id together with the first user whose id is that event's creator |
| EventDetailsPage.RsvpOffered | src/pages/EventDetails.tsx:44-105 | RSVP buttons are offered to anyone but the creator, signed in or not and participant or not, before the event's day has started |
| EventDetailsPage.IsPastEvent | src/pages/EventDetails.tsx:46-47 | The event's day started before now; TodayIsPastAfterMidnight characterises today's events |
| EventDetailsPage.TodayIsPastAfterMidnight | src/pages/EventDetails.tsx:46-47 | An event dated today counts as past once the day has begun, so no RSVP is offered for it |
| EventDetailsPage.HandleRsvpChange | src/pages/EventDetails.tsx:49-54 | A signed-in user's answer is recorded on the event and becomes the selection; a signed-out click changes nothing |
| EventDetailsPage.InitialSelection | src/pages/EventDetails.tsx:33-37 | The preselected answer is the viewer's recorded one, or none for a signed-out viewer or one who has not answered |
| EventDetailsPage.ChoiceIsRemembered | src/pages/EventDetails.tsx:33-54 | After answering, reopening the page preselects that answer |
| EventDetailsPage.NoGuestsIffNoneKnown | src/pages/EventDetails.tsx:56-58 | "No guests yet" shows exactly when no participant id belongs to a known user |
| EventDetailsPage.GuestLabel | src/pages/EventDetails.tsx:243 | A guest's label is the recorded answer, or "invited" when there is none |
| EventDetailsPage.RsvpCounts | src/pages/EventDetails.tsx:60-64 | Each count is the number of users who gave that answer |
| EventDetailsPage.StatusPartition | src/pages/EventDetails.tsx:60-64 | The three counts add up to the number of answers |
| EventDetailsPage.FirstRsvpCountsOnce | src/pages/EventDetails.tsx:49-64 | A first answer raises the total count by exactly one |
| EventDetailsPage.WithStatusAdd | src/pages/EventDetails.tsx:60-64 | A first answer puts the user into that answer's group and leaves the other groups as they were |
| EventDetailsPage.SuggestionsShown | src/pages/EventDetails.tsx:193 | Gift suggestions are shown exactly when the viewer created the event and the suggestion table has an entry for its type |
| ProfilePage.RelationshipsOf | src/pages/Profile.tsx:19-23 | The first two friends are family and the rest are friends; the groups together are the friend list in order, and there are never colleagues |
| ProfilePage.NoConnectionsIffNoFriends | src/pages/Profile.tsx:83-88 | "No connections yet" shows exactly when the user has no friends |
| ProfilePage.UserEvents | src/pages/Profile.tsx:99-101 | The events listed are exactly those the user created or takes part in |
| ProfilePage.UserEventsKeepsOrder | src/pages/Profile.tsx:99-101 | Each event is kept or dropped on its own and the kept ones keep their order |
| ProfilePage.HostedEvents | src/pages/Profile.tsx:103 | The user's events they created; HostedAttendingPartition and HostedAttendingDisjoint characterise it |
| ProfilePage.AttendingEvents | src/pages/Profile.tsx:104-106 | The user's events they did not create; AttendsIsNotHosts characterises it |
| ProfilePage.HostedAttendingDisjoint | src/pages/Profile.tsx:103-106 | No event is both hosted and attended |
| ProfilePage.AttendsIsNotHosts | src/pages/Profile.tsx:103-106 | The attending list is the user's events minus the hosted ones |
| ProfilePage.HostedAttendingPartition | src/pages/Profile.tsx:99-106 | Hosted and attending events together are the user's events, each once |
| ProfilePage.ProfileOf | src/pages/Profile.tsx:199-286 | A signed-out visitor sees "sign in required", and an unknown profile id shows "user not found". Without an id, the visitor's own profile shows. A shown profile belongs to a listed user with the requested id, and is marked as the visitor's own exactly when the ids agree |
| CommunityPage.AccessibleEvents | src/pages/Community.tsx:18-21 | The events shown are exactly the public ones plus those the viewer created or takes part in; AccessibleKeepsOrder fixes their order |
| CommunityPage.AccessibleKeepsOrder | src/pages/Community.tsx:18-21 | Each event is kept or dropped on its own and the accessible ones keep the event list's order |
| CommunityPage.SignedOutSeesPublic | src/pages/Community.tsx:18-21 | A signed-out visitor sees exactly the public events |
| CommunityPage.Upcoming | src/pages/Community.tsx:25 | The upcoming events are exactly the accessible ones whose day does not start before now; UpcomingKeepsOrder fixes their order |
| CommunityPage.UpcomingKeepsOrder | src/pages/Community.tsx:18-25 | Each event is kept or dropped on its own and the upcoming ones keep the event list's order |
| CommunityPage.EventsByMonth | src/pages/Community.tsx:27-33 | The upcoming events bucketed by month; MonthBuckets characterises the buckets |
| CommunityPage.MonthBuckets | src/pages/Community.tsx:27-33 | Months are distinct, and each holds exactly that month's upcoming events in order. Every upcoming event's month has a bucket, and the buckets hold every upcoming event once |
| CommunityPage.NoMonthsIffNothingUpcoming | src/pages/Community.tsx:27-33 | There are no month buckets exactly when nothing is upcoming |
| CommunityPage.TabEvents | src/pages/Community.tsx:78-146 | A tab shows exactly the bucket's events of its kind |
| CommunityPage.TabsPartitionBucket | src/pages/Community.tsx:78-146 | The birthday, wedding and other tabs together show each event of a month once |
| CommunityPage.TabEmptyIff | src/pages/Community.tsx:97-103 | A tab's empty notice shows exactly when no upcoming event is of its kind |
| CommunityPage.TabEventIsUpcoming | src/pages/Community.tsx:97-99 | A tab that is not empty has an upcoming event of its kind |
| CommunityPage.UpcomingEventIsInTab | src/pages/Community.tsx:97-99 | An upcoming event of a tab's kind makes that tab non-empty |
| IndexPage.UpcomingEvents | src/pages/Index.tsx:74-76 | The home page's upcoming list is a date-ordered rearrangement of the events after now |
| IndexPage.UpcomingIffFuture | src/pages/Index.tsx:74-76 | An event is listed as upcoming exactly when it starts after now, whoever may see it |
| IndexPage.TodayIsNotUpcoming | src/pages/Index.tsx:75 | An event dated today is never upcoming on the home page |
| IndexPage.YourEvents | src/pages/Index.tsx:78-81 | "Your events" are exactly the ones the user created or takes part in |
| IndexPage.YourEventsKeepsOrder | src/pages/Index.tsx:78-81 | "Your events" keep the order of the event list |
| EventOrder.SortByDate | src/pages/Calendar.tsx:47-49 | Sorting keeps exactly the same events |
| EventOrder.SortByDateSorted | src/pages/Index.tsx:76 | The sorted list is in date order |
| Grouping.GroupByBuckets | src/pages/Community.tsx:27-33 | Each bucket holds exactly the items with its key, in order, and keys are distinct |
| Grouping.GroupBySize | src/pages/Community.tsx:27-33 | The buckets together hold every item once |
| CalendarPage.NextOccurrence | src/pages/Calendar.tsx:22-32 | A birthday is shown on its month and day, this year or next. It is never before now, and it moves to next year exactly when this year's date has started before now |
| CalendarPage.BirthdayTodayMovesToNextYear | src/pages/Calendar.tsx:30-32 | A birthday falling today is shown for next year once the day has begun |
| CalendarPage.BirthdayEvent | src/pages/Calendar.tsx:34-43 | A birthday entry is a public birthday event hosted by the user, with the user and their friends as participants, on the next occurrence |
| CalendarPage.BirthdayEvents | src/pages/Calendar.tsx:19-44 | There is at most one entry per user, and every entry is a public birthday |
| CalendarPage.BirthdayEventsOfFiltered | src/pages/Calendar.tsx:19-44 | The entries are exactly the users with a birthday, each turned into its entry, in user order |
| CalendarPage.NoBirthdayNoEntry | src/pages/Calendar.tsx:20 | Users without birthdays produce no entries |
| CalendarPage.AllEvents | src/pages/Calendar.tsx:47-49 | The calendar lists the events and birthday entries, each once, in date order |
| CalendarPage.SelectedDateEvents | src/pages/Calendar.tsx:51-56 | With no day selected nothing is listed; otherwise exactly the events on that day; SelectedDateKeepsOrder fixes their order |
| CalendarPage.SelectedDateKeepsOrder | src/pages/Calendar.tsx:51-56 | Each event is kept or dropped on its own and the day's events keep the event list's order |
| CalendarPage.UpcomingList | src/pages/Calendar.tsx:58-64 | The earliest ten events whose day does not start before now (all of them when fewer), in date order, each taken from the upcoming ones; every upcoming event left out is dated no earlier than the last one listed |
| CalendarPage.FewUpcomingAllShown | src/pages/Calendar.tsx:58-64 | With at most ten events ahead, all of them are listed |
| CalendarPage.DayCounts | src/pages/Calendar.tsx:66-75 | Every recorded day has a positive count; DayCountAt, DayMarkedIff and DayCountsSum give the exact counts |
| CalendarPage.DayCountAt | src/pages/Calendar.tsx:66-75 | A day's count is the number of events on it; a day without an entry has none |
| CalendarPage.DayMarkedIff | src/pages/Calendar.tsx:81-84 | A day is marked exactly when some event falls on it |
| CalendarPage.DayCountsSum | src/pages/Calendar.tsx:66-75 | The per-day counts add up to the number of events |
| WalletPage.HandleAddFunds | src/pages/Wallet.tsx:29-50 | An empty, non-numeric or non-positive amount is refused with no call. Success alone clears the field and reports the amount as typed. A declined top-up shows its error or the fallback text. A throwing call shows the payment error |
| WalletPage.ErrorText | src/pages/Wallet.tsx:42 | A declined top-up's message is its own error if present and non-empty, else the fallback text |
| WalletPage.AddFundsNeverSucceeds | src/pages/Wallet.tsx:18 | Without a top-up function in the context, no amount is ever added and the field is never cleared |
| WalletPage.Deposits | src/pages/Wallet.tsx:180 | The deposits tab; DepositsIff and TabsKeepOrder characterise it |
| WalletPage.Spent | src/pages/Wallet.tsx:187 | The spent tab; SpentIff and TabsKeepOrder characterise it |
| WalletPage.TabsKeepOrder | src/pages/Wallet.tsx:178-189 | Each transaction goes to its tab on its own and both tabs keep the history's order |
| WalletPage.TabsPartitionHistory | src/pages/Wallet.tsx:178-189 | The deposits and spent tabs together hold every transaction once |
| WalletPage.SpentIff | src/pages/Wallet.tsx:186-189 | The spent tab holds exactly the transactions that are not deposits |
| WalletPage.DepositsIff | src/pages/Wallet.tsx:178-182 | The deposits tab holds exactly the deposits |
| WalletPage.FormatCents | src/pages/Wallet.tsx:242 | Dollars, a point and two cent digits; FormatCentsRoundTrip shows the text reads back to the cents |
| WalletPage.FormatCentsRoundTrip | src/pages/Wallet.tsx:242 | The two-decimal dollar text reads back to the same number of cents |
| WalletPage.AmountLabel | src/pages/Wallet.tsx:241-242 | A label starts with "+" exactly for a deposit and "-" otherwise, then the magnitude in dollars |
| WalletPage.LabelShowsMagnitude | src/pages/Wallet.tsx:241-242 | Two transactions of the same magnitude differ in label only by sign, and only when one is a deposit and the other is not |
| WalletPage.TransactionList | src/pages/Wallet.tsx:200-253 | A spinner while loading, a notice for an empty list, otherwise one label per transaction in order |
| InviteGuests.Open | src/components/InviteGuestsModal.tsx:34-36 | The dialog renders only when the event exists and someone is signed in, and then shows the first event with that id |
| InviteGuests.Available | src/components/InviteGuestsModal.tsx:39-41 | The invitable users; AvailableIff characterises them |
| InviteGuests.AvailableIff | src/components/InviteGuestsModal.tsx:39-41 | A user can be invited exactly when they are listed, are not the inviter and are not already a participant |
| InviteGuests.Friends | src/components/InviteGuestsModal.tsx:43-45 | The invitable friends; FriendsInUserOrder characterises them |
| InviteGuests.FriendsInUserOrder | src/components/InviteGuestsModal.tsx:43-45 | The friends tab lists the invitable users who are the inviter's friends, in user order |
| InviteGuests.Searched | src/components/InviteGuestsModal.tsx:47-49 | The search results; SearchedIff and EmptyTermKeepsAll characterise them |
| InviteGuests.EmptyTermKeepsAll | src/components/InviteGuestsModal.tsx:47-49 | An empty search shows every invitable user |
| InviteGuests.SearchedIff | src/components/InviteGuestsModal.tsx:47-49 | A user is found exactly when invitable and the lower-cased term occurs in the lower-cased name |
| InviteGuests.Toggle | src/components/InviteGuestsModal.tsx:51-57 | Toggling flips the user's membership in the selection and leaves every other user's membership as it was |
| InviteGuests.ToggleKeepsNoDuplicates | src/components/InviteGuestsModal.tsx:51-57 | Toggling never puts a user in the selection twice |
| InviteGuests.ToggleTwiceRestores | src/components/InviteGuestsModal.tsx:51-57 | Selecting and then deselecting a user restores the selection exactly |
| InviteGuests.HandleEmailInvite | src/components/InviteGuestsModal.tsx:80-101 | An address is refused exactly when it is blank after trimming or has no "@"; otherwise the invitation goes to the address as typed |
| InviteGuests.EmailButtonEnabled | src/components/InviteGuestsModal.tsx:208 | The email button is enabled exactly when nothing is being sent and the field is not empty |
| InviteGuests.BlankEmailEnabledButRefused | src/components/InviteGuestsModal.tsx:80-208 | The button checks the untrimmed field and the handler the trimmed one, so an address of two blanks enables the button and is refused on click |
| InviteGuests.SendEnabled | src/components/InviteGuestsModal.tsx:234 | Send is enabled exactly when nothing is in flight and at least one guest is selected, in both directions |
| InviteGuests.InvitationsSent | src/components/InviteGuestsModal.tsx:59-78 | After sending, the toast counts the selected users, and the selection and email are cleared while the search is kept |
| NotificationDropdown.UnreadCount | src/components/NotificationDropdown.tsx:60 | The badge count is zero exactly when everything is read |
| NotificationDropdown.SenderName | src/components/NotificationDropdown.tsx:62-66 | A missing or empty sender is "System", an unknown one "Unknown User", and a known one the name of the first user with that id |
| NotificationDropdown.MarkAsRead | src/components/NotificationDropdown.tsx:68-72 | The notifications with the id become read and nothing else changes |
| NotificationDropdown.MarkAsReadUnread | src/components/NotificationDropdown.tsx:60-72 | Marking read lowers the unread count by the number of unread notifications with that id |
| NotificationDropdown.Dismiss | src/components/NotificationDropdown.tsx:74-76 | The list after dismissing; DismissIff and DismissKeepsOrder characterise it |
| NotificationDropdown.DismissIff | src/components/NotificationDropdown.tsx:74-76 | Dismissing keeps exactly the notifications with other ids |
| NotificationDropdown.DismissKeepsOrder | src/components/NotificationDropdown.tsx:74-76 | Each notification is kept or dropped on its own and the rest keep their order |
| NotificationDropdown.DismissAbsent | src/components/NotificationDropdown.tsx:74-76 | Dismissing an id no notification has changes nothing |
| NotificationDropdown.ClearAction | src/components/NotificationDropdown.tsx:80-82 | The notifications with the id no longer need action and nothing else changes |
| NotificationDropdown.ApplyKeepsLast | src/components/NotificationDropdown.tsx:78-90 | Several updates computed from the same snapshot leave only the last one |
| NotificationDropdown.AcceptHandlerLosesRead | src/components/NotificationDropdown.tsx:78-84 | On its own, the accept handler clears the action but drops its own read mark |
| NotificationDropdown.DeclineHandlerDismisses | src/components/NotificationDropdown.tsx:86-90 | On its own, the decline handler removes the notification |
| NotificationDropdown.AcceptClickAsWritten | src/components/NotificationDropdown.tsx:131-177 | As written, a click on Accept ends with the row's update: the notification is only marked read |
| NotificationDropdown.DeclineClickAsWritten | src/components/NotificationDropdown.tsx:131-177 | As written, a click on Decline also ends with the row's update: the notification is only marked read |
| NotificationDropdown.ClickAsWrittenKeepsInvitation | src/components/NotificationDropdown.tsx:131-177 | After either click the invitation is still there; after Accept it still asks for action |
| NotificationDropdown.Accept | src/components/NotificationDropdown.tsx:78-84 | The corrected accept marks the notification read and clears its action, and changes nothing else |
| NotificationDropdown.Decline | src/components/NotificationDropdown.tsx:86-90 | The corrected decline removes exactly the notifications with that id and equals dismissing it, so the rest keep their order |
| NotificationDropdown.DismissMarked | src/components/NotificationDropdown.tsx:68-76 | Marking read before dismissing makes no difference to the result |
| SavingsService.Step | src/services/savingsService.ts:84-97 | Known frequencies move the date forward by a day, a week, a month or a year; an unknown one leaves it |
| SavingsService.StepsIncrease | src/services/savingsService.ts:83-98 | Repeated steps of a known frequency give strictly later dates |
| SavingsService.NextDeliveryDate | src/services/savingsService.ts:79-101 | The next delivery is the first step from the start date that lies after now; a start in the future is kept unchanged |
| SavingsService.UnknownFrequencyNeverAdvances | src/services/savingsService.ts:83-98 | With an unknown frequency the date never moves, so the loop cannot end once the start is not in the future |
| SavingsService.DailyStepsAreDays | src/services/savingsService.ts:85-87 | n daily steps are exactly n days |
| SavingsService.NewBirthdaySavings | src/services/savingsService.ts:4-18 | A new savings plan starts with a zero balance, active, last reminded now, the other fields as given |
| SavingsService.NewRecurringGift | src/services/savingsService.ts:42-55 | A new recurring gift is scheduled for its first delivery after now, the other fields as given |
| NotificationService.WholeDays | src/services/notificationService.ts:18 | The day count is the number of whole days between two instants, rounded down |
| NotificationService.SavingsDueIff | src/services/notificationService.ts:18-20 | A plan is due exactly when at least thirty whole days have passed since its last reminder |
| NotificationService.NewPlanNotDue | src/services/savingsService.ts:9-11 | A plan created now is not due |
| NotificationService.GiftDueIff | src/services/notificationService.ts:53-55 | A recurring gift is due exactly when its next delivery is less than two days ahead, or already past |
| NotificationService.DollarText | src/services/notificationService.ts:24 | The dollar text is never empty, starts with a minus sign exactly for a negative amount, is the plain whole number for whole non-negative dollars, and never ends a fraction in zero |
| NotificationService.DollarTextRoundTrip | src/services/notificationService.ts:24 | Reading the dollar text back as a decimal number gives the amount in cents again, so no two amounts print alike |
| NotificationService.SavingsMessage | src/services/notificationService.ts:24 | The savings reminder's text: the monthly amount as DollarText prints it and the friend id |
| NotificationService.SavingsReminder | src/services/notificationService.ts:21-26 | A savings reminder carries the savings title and refers to its plan |
| NotificationService.GiftMessage | src/services/notificationService.ts:59 | The gift reminder's text: the gift type and the recipient id |
| NotificationService.GiftReminder | src/services/notificationService.ts:56-61 | A gift reminder carries the delivery title and refers to its gift |
| NotificationService.SavingsReminders | src/services/notificationService.ts:16-27 | At most one reminder per plan, each about a due plan of the table |
| NotificationService.SavingsRemindersAreDuePlans | src/services/notificationService.ts:16-27 | The reminders are exactly those of the due plans, in order |
| NotificationService.MarkReminded | src/services/notificationService.ts:28-32 | Reminded plans get a last reminder of now; the others are untouched |
| NotificationService.CheckSavings | src/services/notificationService.ts:4-37 | Every reminder is about an active, due plan of that user from the table |
| NotificationService.DuePlanIsReminded | src/services/notificationService.ts:4-37 | Every due, active plan of the user gets a reminder |
| NotificationService.RemindedPlanNotDueAgain | src/services/notificationService.ts:28-32 | A reminded plan is not due again straight away |
| NotificationService.AdvanceOnce | src/services/notificationService.ts:63-83 | A reminded gift's next delivery moves one step of its frequency |
| NotificationService.OverdueStaysOverdue | src/services/notificationService.ts:63-83 | A delivery that is far overdue is still due after one step, so it is reminded again on the next check |
| NotificationService.CheckGifts | src/services/notificationService.ts:39-88 | Every reminder is about a due gift of the rows read, and comes with that gift advanced by one step |
| NotificationService.DueGiftIsReminded | src/services/notificationService.ts:39-88 | Every due gift gets a reminder |
| NotificationService.GiftRemindersAreDueGifts | src/services/notificationService.ts:39-88 | The gift reminders are exactly those of the due gifts, one each, in order |
| NotificationService.CheckAll | src/services/notificationService.ts:90-95 | The combined list is the savings check's reminders, unchanged, followed by the gift check's reminders, unchanged |
| NotificationService.CheckAllInSourceOrder | src/services/notificationService.ts:90-95 | The combined list holds one reminder per due active plan of the user in table order, then one per due active gift of the user in table order, and nothing else |
| UserAvatar.Initials | src/components/UserAvatar.tsx:28 | Initials are never longer than the name and contain no spaces |
| UserAvatar.InitialsAreWordStarts | src/components/UserAvatar.tsx:28 | Initials are exactly the first character of every word, where runs of spaces produce nothing |
| UserAvatar.InitialsExamples | src/components/UserAvatar.tsx:28 | "Al Bo" gives "AB", " A  B" gives "AB", and an empty name gives nothing |
| UserAvatar.FriendAvatars | src/components/UserAvatar.tsx:58-68 | At most five friend avatars, each a known user among the friends |
| UserAvatar.Overflow | src/components/UserAvatar.tsx:69-73 | The "+n" bubble appears exactly beyond five friends and counts the rest |
| UserAvatar.OverflowLabel | src/components/UserAvatar.tsx:71 | The bubble reads "+" followed by the decimal count, which parses back to the count |
| UserAvatar.Render | src/components/UserAvatar.tsx:24-79 | The hover card appears exactly when requested; the initials are always the user's |
| UserAvatar.FriendsAccountedFor | src/components/UserAvatar.tsx:58-73 | When the first five friends are known, they are shown in order, and shown avatars plus the overflow count every friend |
| UserAvatar.AllKnownResolved | src/components/UserAvatar.tsx:58-68 | Ids that all belong to users resolve to those users, one each, in order |

## Left out

- Network, storage and the database client: the services' queries and updates become inputs and outputs (a table in, reminders and an updated table out).
- `updateBirthdaySavings`, `getBirthdaySavings`, `updateRecurringGift`, `getRecurringGifts` in `src/services/savingsService.ts`: each is only a database call with no logic of its own.
- Toasts and console output are dropped, except where a message's text carries logic: the invitation count, the wallet errors and the reminder texts.
- Timers (`setTimeout`), loading flags and the dialog's close callback are dropped. A send is modelled as if the timer fired at once with the values the handler captured.
- JSX layout, styling, icons, navigation and routing are left out. Redirects and "not found" views are modelled as datatype cases.
- `toLowerCase` is modelled on ASCII letters only (`Text.ToLower`); other characters are left as they are.
- JavaScript date parsing, time zones, month overflow in `setMonth` and `setFullYear`: dates are already-parsed calendar triples in one time zone, and month or year steps are the parameter `Calendar`.
- Floating point: money is in integer cents, and `toFixed(2)` is exact two-decimal rendering. `GiftProgress.PercentComplete` uses reals, with NaN and minus infinity as explicit cases.
- Birthday as empty string: the source stores a new user's birthday as `""`, which every page treats as absent. The model uses `None`.
- The mock fixtures (users, events, gifts, the initial notification list) are left out. Only the suggestion table is modelled, because it decides how many gifts an event gets.
- `src/services/walletService.ts` is not part of this model. The wallet page's top-up is a parameter, and the transaction history is an input list.
- React StrictMode double invocation is not modelled.
- Layout, Auth, EventCard, Confetti and the login and sign-up pages are not part of this model.
- SavingsService.NextDeliveryDate: requires that an unknown frequency only comes with a start in the future, because otherwise the source loops forever (`UnknownFrequencyNeverAdvances` shows why).
- SavingsService.NewRecurringGift: carries the same precondition as `NextDeliveryDate`.
- EventOrder.SortByDate: promises the order and the contents, not the stability of JavaScript's sort among events of the same day.
- CalendarPage.UpcomingList: when several events share the day of the tenth place, which of them are listed follows the sort, whose stability is not stated (see `EventOrder.SortByDate`).
- CalendarPage.BirthdayEvents: its own contract states only the size bound and the kind; the exact entries are stated by `BirthdayEventsOfFiltered`.
- UserAvatar.Initials: its own contract states only the length bound and the absence of spaces; the exact result is stated by `InitialsAreWordStarts`.
- AppContext.ContributionConservesMoney: assumes user ids are unique, which the source never enforces; `ContributionMovesMoney` states the general case.
- GiftProgress.CompleteIffFullyFunded: holds for positive prices only. For price zero, `FreeGiftWithMoneyComplete` covers a positive total and `ZeroPriceDisagreement` a zero total.

## Findings

| source | as written | input that shows it | evidently intended | confidence | as-written member | corrected member |
|---|---|---|---|---|---|---|
| src/pages/CreateEvent.tsx:52-67 | each suggestion's `addGiftItem` call starts from the same stale gift list, so only the last call's list survives | creating a birthday event with four suggestions adds one gift | one gift per suggestion | high (not executed) | CreateEventPage.AsWrittenSeedsOneOfFour | CreateEventPage.SubmitSeedsAttachToEvent |
| src/pages/CreateEvent.tsx:63 | seeded gifts get a random `event<n>` id, not the new event's id | a new event with id `event4` and a seed pointing at `event2` | seeded gifts belong to the new event | high (not executed) | CreateEventPage.AsWrittenSeedIsOrphaned | CreateEventPage.SubmitSeedsAttachToEvent |
| src/components/GiftCard.tsx:186-187 | the confirm guard reads the session snapshot of the current user, which debits never update | a 100-dollar wallet confirming 100 dollars twice ends at minus 100 dollars | a contribution cannot exceed the live balance | high (not executed) | GiftCard.StaleSnapshotOverdraws | GiftCard.ConfirmKeepsBalanceNonNegative |
| src/components/NotificationDropdown.tsx:131-177 | the Accept and Decline buttons sit in a row whose click marks the notification read; that later update replaces theirs | clicking Decline on an unread invitation leaves it listed, marked read | Accept clears the action; Decline removes the notification | medium (not executed) | NotificationDropdown.ClickAsWrittenKeepsInvitation | NotificationDropdown.Decline |
| src/pages/Wallet.tsx:18 | `addFunds` is read from the context, which does not provide it, so the call throws | any valid amount, such as "25" | a successful top-up adds the funds and clears the field | high (not executed) | WalletPage.AddFundsNeverSucceeds | WalletPage.HandleAddFunds |

=== FILE: app_context.dfy ===
/** The application state held by the context provider
    (src/context/AppContext.tsx) and its transitions. Each transition is a
    pure function from the state before to the state after; toasts are not
    modelled. Money is in cents, so the welcome bonus of 100.00 is 10000. */
module AppContext {
  import opened Opt
  import opened Model
  import opened Seqs
  import opened Text
  import opened Funding

  datatype State = State(
    currentUser: Option<User>,
    users: seq<User>,
    events: seq<Event>,
    giftItems: seq<GiftItem>)

  const WelcomeBonus: Cents := 10000

  function HasEmail(email: string): User -> bool {
    (u: User) => u.email == email
  }

  /** The account `login` creates for the n-th user, counting from 1. */
  function NewUser(n: nat, email: string, name: string): User {
    User("user" + NatToString(n),
         name,
         email,
         "https://randomuser.me/api/portraits/men/" + NatToString(n) + ".jpg",
         None,
         [],
         WelcomeBonus)
  }

  /** `login(email, name)`: sign in as the first user with that email, or
      register a new one. */
  function Login(s: State, email: string, name: string): (r: State)
    ensures r.events == s.events && r.giftItems == s.giftItems
    ensures (exists i :: 0 <= i < |s.users| && s.users[i].email == email) ==>
      && r.users == s.users
      && exists i :: (0 <= i < |s.users| && r.currentUser == Some(s.users[i])
           && s.users[i].email == email
           && forall j :: 0 <= j < i ==> s.users[j].email != email)
    ensures (forall i :: 0 <= i < |s.users| ==> s.users[i].email != email) ==>
      && |r.users| == |s.users| + 1
      && r.users[..|s.users|] == s.users
      && var u := r.users[|s.users|];
      && u.id == "user" + NatToString(|s.users| + 1)
      && u.name == name && u.email == email
      && u.birthday.None? && u.friends == []
      && u.walletBalance == WelcomeBonus
      && r.currentUser == Some(u)
  {
    match Find(s.users, HasEmail(email))
    case Some(u) => s.(currentUser := Some(u))
    case None =>
      var u := NewUser(|s.users| + 1, email, name);
      assert (s.users + [u])[..|s.users|] == s.users;
      s.(users := s.users + [u], currentUser := Some(u))
  }

  /** `logout()`: only the signed-in user is forgotten. */
  function Logout(s: State): (r: State)
    ensures r.currentUser.None?
    ensures r.users == s.users && r.events == s.events && r.giftItems == s.giftItems
  {
    s.(currentUser := None)
  }

  /** `createEvent(data)`: the draft's own id, if any, is overwritten by
      "event" + (number of events + 1). */
  function CreateEvent(s: State, draft: Event): (r: State)
    ensures |r.events| == |s.events| + 1
    ensures r.events[..|s.events|] == s.events
    ensures r.events[|s.events|] == draft.(id := "event" + NatToString(|s.events| + 1))
    ensures r.users == s.users && r.giftItems == s.giftItems && r.currentUser == s.currentUser
  {
    var e := draft.(id := "event" + NatToString(|s.events| + 1));
    assert (s.events + [e])[..|s.events|] == s.events;
    s.(events := s.events + [e])
  }

  /** The item `addGiftItem` stores for a draft, given the number of items
      already present. */
  function NewGiftItem(n: nat, draft: GiftItem): GiftItem {
    draft.(id := "item" + NatToString(n + 1), contributors := [])
  }

  /** `addGiftItem(data)`: appends the draft under the id "item" + (n + 1)
      with an empty contributor log, whatever log the draft carried. */
  function AddGiftItem(s: State, draft: GiftItem): (r: State)
    ensures |r.giftItems| == |s.giftItems| + 1
    ensures r.giftItems[..|s.giftItems|] == s.giftItems
    ensures var g := r.giftItems[|s.giftItems|];
      && g.id == "item" + NatToString(|s.giftItems| + 1)
      && g.contributors == []
      && g.eventId == draft.eventId && g.title == draft.title && g.price == draft.price
      && g.description == draft.description && g.category == draft.category
      && g.url == draft.url && g.status == draft.status && g.priority == draft.priority
      && g.imageUrl == draft.imageUrl
    ensures r.users == s.users && r.events == s.events && r.currentUser == s.currentUser
  {
    var g := NewGiftItem(|s.giftItems|, draft);
    assert (s.giftItems + [g])[..|s.giftItems|] == s.giftItems;
    s.(giftItems := s.giftItems + [g])
  }

  /** The gift log update of `contributeToGift`: every item with the id gets
      the entry appended; the others are returned as they were. */
  function AppendContribution(gs: seq<GiftItem>, giftId: string, c: Contribution): (r: seq<GiftItem>)
    ensures |r| == |gs|
    ensures forall i :: 0 <= i < |gs| && gs[i].id == giftId ==>
      r[i] == gs[i].(contributors := gs[i].contributors + [c])
    ensures forall i :: 0 <= i < |gs| && gs[i].id != giftId ==> r[i] == gs[i]
    decreases |gs|
  {
    if gs == [] then []
    else
      var g := gs[|gs| - 1];
      AppendContribution(gs[..|gs| - 1], giftId, c)
        + [if g.id == giftId then g.(contributors := g.contributors + [c]) else g]
  }

  /** The wallet update: every user with the id loses `amount`; there is no
      balance check, so a balance may go negative. */
  function Debit(us: seq<User>, userId: string, amount: Cents): (r: seq<User>)
    ensures |r| == |us|
    ensures forall i :: 0 <= i < |us| && us[i].id == userId ==>
      r[i] == us[i].(walletBalance := us[i].walletBalance - amount)
    ensures forall i :: 0 <= i < |us| && us[i].id != userId ==> r[i] == us[i]
    decreases |us|
  {
    if us == [] then []
    else
      var u := us[|us| - 1];
      Debit(us[..|us| - 1], userId, amount)
        + [if u.id == userId then u.(walletBalance := u.walletBalance - amount) else u]
  }

  /** `contributeToGift(giftId, {userId, amount, message})` dated `today`.
      The wallet update is issued from inside the gift map, once per item
      whose id matches, so `k` matching items debit `k * amount`. An
      unknown gift id changes nothing. The separately held signed-in user
      record is not refreshed. */
  function ContributeToGift(s: State, giftId: string, userId: string, amount: Cents,
                            message: Option<string>, today: CalDate): (r: State)
    ensures var c := Contribution(userId, amount, today, message);
      r.giftItems == AppendContribution(s.giftItems, giftId, c)
    ensures r.users == Debit(s.users, userId, Count(s.giftItems, HasGiftId(giftId)) * amount)
    ensures r.events == s.events && r.currentUser == s.currentUser
    ensures Count(s.giftItems, HasGiftId(giftId)) == 0 ==> r == s
  {
    var k := Count(s.giftItems, HasGiftId(giftId));
    var c := Contribution(userId, amount, today, message);
    if k == 0 then
      DebitNothing(s.users, userId);
      AppendNowhere(s.giftItems, giftId, c);
      s
    else
      s.(giftItems := AppendContribution(s.giftItems, giftId, c),
         users := Debit(s.users, userId, k * amount))
  }

  lemma DebitNothing(us: seq<User>, userId: string)
    ensures Debit(us, userId, 0) == us
  {
  }

  lemma AppendNowhere(gs: seq<GiftItem>, giftId: string, c: Contribution)
    requires Count(gs, HasGiftId(giftId)) == 0
    ensures AppendContribution(gs, giftId, c) == gs
  {
    assert forall i :: 0 <= i < |gs| ==> gs[i].id != giftId by {
      forall i | 0 <= i < |gs|
        ensures gs[i].id != giftId
      {
        assert !HasGiftId(giftId)(gs[i]);
      }
    }
  }

  /** `updateRSVP(eventId, userId, status)`: the matching event records the
      status for that user; every other entry and event is unchanged. */
  function UpdateRsvp(s: State, eventId: string, userId: string, status: Rsvp): (r: State)
    ensures |r.events| == |s.events|
    ensures forall i :: 0 <= i < |s.events| && s.events[i].id == eventId ==>
      r.events[i] == s.events[i].(rsvp := s.events[i].rsvp[userId := status])
    ensures forall i :: 0 <= i < |s.events| && s.events[i].id != eventId ==> r.events[i] == s.events[i]
    ensures r.users == s.users && r.giftItems == s.giftItems && r.currentUser == s.currentUser
  {
    var es := seq(|s.events|, i requires 0 <= i < |s.events| =>
      var e := s.events[i];
      if e.id == eventId then e.(rsvp := e.rsvp[userId := status]) else e);
    s.(events := es)
  }

  /** Recording the same RSVP twice is the same as recording it once. */
  lemma UpdateRsvpIdempotent(s: State, eventId: string, userId: string, status: Rsvp)
    ensures UpdateRsvp(UpdateRsvp(s, eventId, userId, status), eventId, userId, status)
      == UpdateRsvp(s, eventId, userId, status)
  {
    var once := UpdateRsvp(s, eventId, userId, status);
    var twice := UpdateRsvp(once, eventId, userId, status);
    assert twice.events == once.events by {
      forall i | 0 <= i < |s.events|
        ensures twice.events[i] == once.events[i]
      {
        if s.events[i].id == eventId {
          assert once.events[i].rsvp[userId := status] == once.events[i].rsvp;
        }
      }
    }
  }

  /** `getUserById(id)`: the first user with that id. */
  function GetUserById(s: State, id: string): (r: Option<User>)
    ensures r.None? <==> forall i :: 0 <= i < |s.users| ==> s.users[i].id != id
    ensures r.Some? ==> r.value in s.users && r.value.id == id
    ensures forall i :: FirstUserAt(s.users, id, i) ==> r == Some(s.users[i])
  {
    var r := Find(s.users, HasUserId(id));
    assert r.None? ==> forall i :: 0 <= i < |s.users| ==> !HasUserId(id)(s.users[i]);
    forall i | FirstUserAt(s.users, id, i)
      ensures r == Some(s.users[i])
    {
      FindAt(s.users, HasUserId(id), i);
    }
    r
  }

  /** A list of user ids resolved with `getUserById`, ids without an
      account dropped, order kept (the guest list, the friend avatars). */
  function UsersByIds(s: State, ids: seq<string>): (r: seq<User>)
    ensures |r| <= |ids|
    ensures forall i :: 0 <= i < |r| ==> r[i] in s.users && r[i].id in ids
    decreases |ids|
  {
    if ids == [] then []
    else
      var rest := UsersByIds(s, ids[1..]);
      match GetUserById(s, ids[0])
      case None => rest
      case Some(u) => [u] + rest
  }

  /** The id has an account. */
  predicate Known(s: State, id: string) {
    GetUserById(s, id).Some?
  }

  function KnownIn(s: State): string -> bool {
    (id: string) => Known(s, id)
  }

  /** One step of resolving: the first id is kept (and resolved) exactly
      when it is known. */
  lemma ResolveHead(s: State, ids: seq<string>)
    requires ids != []
    ensures Known(s, ids[0]) ==>
      Filter(ids, KnownIn(s)) == [ids[0]] + Filter(ids[1..], KnownIn(s))
      && UsersByIds(s, ids) == [GetUserById(s, ids[0]).value] + UsersByIds(s, ids[1..])
    ensures !Known(s, ids[0]) ==>
      Filter(ids, KnownIn(s)) == Filter(ids[1..], KnownIn(s))
      && UsersByIds(s, ids) == UsersByIds(s, ids[1..])
  {
    assert KnownIn(s)(ids[0]) == Known(s, ids[0]);
  }

  /** Prepending an id and its user to lists that already correspond keeps
      them corresponding. */
  lemma ResolvedCons(s: State, id: string, k: seq<string>, r: seq<User>)
    requires Known(s, id) && |r| == |k|
    requires forall i :: 0 <= i < |k| ==> Known(s, k[i]) && r[i] == GetUserById(s, k[i]).value
    ensures forall i :: 0 <= i < |k| + 1 ==>
      GetUserById(s, ([id] + k)[i]) == Some(([GetUserById(s, id).value] + r)[i])
  {
  }

  /** The resolved list is the known ids, each replaced by its user. */
  lemma {:induction false} UsersByIdsAreKnown(s: State, ids: seq<string>)
    ensures |UsersByIds(s, ids)| == |Filter(ids, KnownIn(s))|
    ensures forall i :: 0 <= i < |Filter(ids, KnownIn(s))| ==>
      UsersByIds(s, ids)[i] == GetUserById(s, Filter(ids, KnownIn(s))[i]).value
    decreases |ids|
  {
    if ids != [] {
      UsersByIdsAreKnown(s, ids[1..]);
      ResolveHead(s, ids);
      if Known(s, ids[0]) {
        ResolvedCons(s, ids[0], Filter(ids[1..], KnownIn(s)), UsersByIds(s, ids[1..]));
      }
    }
  }

  /** `getEventById(id)`: the first event with that id. */
  function GetEventById(s: State, id: string): (r: Option<Event>)
    ensures r.None? <==> forall i :: 0 <= i < |s.events| ==> s.events[i].id != id
    ensures r.Some? ==> r.value in s.events && r.value.id == id
    ensures forall i :: FirstEventAt(s.events, id, i) ==> r == Some(s.events[i])
  {
    var r := Find(s.events, HasEventId(id));
    assert r.None? ==> forall i :: 0 <= i < |s.events| ==> !HasEventId(id)(s.events[i]);
    forall i | FirstEventAt(s.events, id, i)
      ensures r == Some(s.events[i])
    {
      FindAt(s.events, HasEventId(id), i);
    }
    r
  }

  function HasEventIdOf(eventId: string): GiftItem -> bool {
    (g: GiftItem) => g.eventId == eventId
  }

  /** `getGiftsByEventId(id)`: the items attached to the event, in order. */
  function GetGiftsByEventId(s: State, eventId: string): (r: seq<GiftItem>)
    ensures forall i :: 0 <= i < |r| ==> r[i].eventId == eventId && r[i] in s.giftItems
    ensures forall i :: 0 <= i < |s.giftItems| && s.giftItems[i].eventId == eventId ==>
      s.giftItems[i] in r
  {
    var r := Filter(s.giftItems, HasEventIdOf(eventId));
    assert forall i :: 0 <= i < |r| ==> HasEventIdOf(eventId)(r[i]);
    r
  }

  /** `getGiftsByEventId` keeps the list order: each gift is kept or
      dropped on its own, and the kept ones stay where they were. */
  lemma GiftsByEventKeepOrder(s: State, a: seq<GiftItem>, b: seq<GiftItem>, g: GiftItem, eventId: string)
    ensures GetGiftsByEventId(s.(giftItems := a + b), eventId)
      == GetGiftsByEventId(s.(giftItems := a), eventId) + GetGiftsByEventId(s.(giftItems := b), eventId)
    ensures GetGiftsByEventId(s.(giftItems := [g]), eventId) == (if g.eventId == eventId then [g] else [])
  {
    FilterAppend(a, b, HasEventIdOf(eventId));
    assert HasEventIdOf(eventId)(g) == (g.eventId == eventId);
  }

  // ---------------------------------------------------------------------
  // Money conservation across contributeToGift.

  function BalanceSum(us: seq<User>): int
    decreases |us|
  {
    if us == [] then 0 else BalanceSum(us[..|us| - 1]) + us[|us| - 1].walletBalance
  }

  function PooledSum(gs: seq<GiftItem>): int
    decreases |gs|
  {
    if gs == [] then 0 else PooledSum(gs[..|gs| - 1]) + Total(gs[|gs| - 1])
  }

  /** All money in the system: wallets plus everything pooled into gifts. */
  function Holdings(s: State): int {
    BalanceSum(s.users) + PooledSum(s.giftItems)
  }

  /** `k` copies of `a` added up; kept as a fold so that the sums below
      stay linear for the solver. */
  function Times(k: nat, a: int): int {
    if k == 0 then 0 else Times(k - 1, a) + a
  }

  lemma {:induction false} TimesIsProduct(k: nat, a: int)
    ensures Times(k, a) == k * a
  {
    if k > 0 {
      TimesIsProduct(k - 1, a);
      assert (k - 1) * a + a == k * a;
    }
  }

  lemma {:induction false} DebitSum(us: seq<User>, userId: string, amount: Cents)
    ensures BalanceSum(Debit(us, userId, amount))
      == BalanceSum(us) - Times(Count(us, HasUserId(userId)), amount)
    decreases |us|
  {
    if us != [] {
      var init, u := us[..|us| - 1], us[|us| - 1];
      var m0, m := Count(init, HasUserId(userId)), Count(us, HasUserId(userId));
      assert m == m0 + (if u.id == userId then 1 else 0) by {
        CountLast(us, HasUserId(userId));
        assert HasUserId(userId)(u) == (u.id == userId);
      }
      assert BalanceSum(Debit(us, userId, amount)) == BalanceSum(Debit(init, userId, amount))
        + (if u.id == userId then u.walletBalance - amount else u.walletBalance) by {
        DebitUnfold(us, userId, amount);
      }
      DebitSum(init, userId, amount);
      if u.id == userId {
        assert Times(m, amount) == Times(m0, amount) + amount;
      }
    }
  }

  lemma DebitUnfold(us: seq<User>, userId: string, amount: Cents)
    requires us != []
    ensures var init, u := us[..|us| - 1], us[|us| - 1];
      BalanceSum(Debit(us, userId, amount))
        == BalanceSum(Debit(init, userId, amount))
           + (if u.id == userId then u.walletBalance - amount else u.walletBalance)
  {
    var d := Debit(us, userId, amount);
    assert d[..|us| - 1] == Debit(us[..|us| - 1], userId, amount);
  }

  lemma {:induction false} AppendSum(gs: seq<GiftItem>, giftId: string, c: Contribution)
    ensures PooledSum(AppendContribution(gs, giftId, c))
      == PooledSum(gs) + Times(Count(gs, HasGiftId(giftId)), c.amount)
    decreases |gs|
  {
    if gs != [] {
      var init, g := gs[..|gs| - 1], gs[|gs| - 1];
      var k0, k := Count(init, HasGiftId(giftId)), Count(gs, HasGiftId(giftId));
      assert k == k0 + (if g.id == giftId then 1 else 0) by {
        CountLast(gs, HasGiftId(giftId));
        assert HasGiftId(giftId)(g) == (g.id == giftId);
      }
      assert PooledSum(AppendContribution(gs, giftId, c)) == PooledSum(AppendContribution(init, giftId, c))
        + (if g.id == giftId then Total(g) + c.amount else Total(g)) by {
        AppendUnfold(gs, giftId, c);
        TotalContributedSnoc(g.contributors, c);
      }
      AppendSum(init, giftId, c);
      if g.id == giftId {
        assert Times(k, c.amount) == Times(k0, c.amount) + c.amount;
      }
    }
  }

  lemma AppendUnfold(gs: seq<GiftItem>, giftId: string, c: Contribution)
    requires gs != []
    ensures var init, g := gs[..|gs| - 1], gs[|gs| - 1];
      PooledSum(AppendContribution(gs, giftId, c))
        == PooledSum(AppendContribution(init, giftId, c))
           + (if g.id == giftId then Total(g.(contributors := g.contributors + [c])) else Total(g))
  {
    var a := AppendContribution(gs, giftId, c);
    assert a[..|gs| - 1] == AppendContribution(gs[..|gs| - 1], giftId, c);
  }

  /** How a contribution moves money in general: with `k` matching items and
      `m` users holding the contributor's id, each of those users loses
      `k * amount` and the gifts gain `k * amount` in all. An unknown
      contributor therefore creates money and a duplicated user id destroys
      it. */
  lemma ContributionMovesMoney(s: State, giftId: string, userId: string, amount: Cents,
                               message: Option<string>, today: CalDate)
    ensures var k, m := Count(s.giftItems, HasGiftId(giftId)), Count(s.users, HasUserId(userId));
      var r := ContributeToGift(s, giftId, userId, amount, message, today);
      && BalanceSum(r.users) == BalanceSum(s.users) - Times(m, k * amount)
      && PooledSum(r.giftItems) == PooledSum(s.giftItems) + k * amount
  {
    var k := Count(s.giftItems, HasGiftId(giftId));
    DebitSum(s.users, userId, k * amount);
    AppendSum(s.giftItems, giftId, Contribution(userId, amount, today, message));
    TimesIsProduct(k, amount);
  }

  /** When exactly one user holds the contributor's id, wallet balances plus
      pooled contributions are the same before and after a contribution. */
  lemma ContributionConservesMoney(s: State, giftId: string, userId: string, amount: Cents,
                                   message: Option<string>, today: CalDate)
    requires Count(s.users, HasUserId(userId)) == 1
    ensures Holdings(ContributeToGift(s, giftId, userId, amount, message, today)) == Holdings(s)
  {
    ContributionMovesMoney(s, giftId, userId, amount, message, today);
  }
}

=== FILE: calendar.dfy ===
/** The calendar page (src/pages/Calendar.tsx): birthday entries derived
    from users, the combined date-ordered list, the events of a selected
    day, the next ten upcoming events, and the per-day counts that mark
    days in the month view. Dates are read in one time zone throughout. */
module CalendarPage {
  import opened Opt
  import opened Model
  import opened Seqs
  import opened Grouping
  import opened EventOrder

  /** This year's date for the birthday's month and day, moved to next
      year when its start is already before now. A birthday falling today
      is therefore moved once the day has begun. */
  function NextOccurrence(b: CalDate, now: Moment): (d: CalDate)
    ensures d.month == b.month && d.day == b.day
    ensures !MomentBefore(StartOf(d), now)
    ensures d.year == now.date.year + 1 <==>
      MomentBefore(StartOf(CalDate(now.date.year, b.month, b.day)), now)
    ensures d.year == now.date.year || d.year == now.date.year + 1
  {
    var thisYear := CalDate(now.date.year, b.month, b.day);
    if MomentBefore(StartOf(thisYear), now) then CalDate(now.date.year + 1, b.month, b.day)
    else thisYear
  }

  /** A birthday falling today shows up for next year. */
  lemma BirthdayTodayMovesToNextYear(b: CalDate, now: Moment)
    requires b.month == now.date.month && b.day == now.date.day && now.msOfDay > 0
    ensures NextOccurrence(b, now).year == now.date.year + 1
  {
  }

  predicate HasBirthday(u: User) {
    u.birthday.Some?
  }

  function WithBirthday(): User -> bool {
    (u: User) => HasBirthday(u)
  }

  /** The pseudo-event for one user's next birthday. */
  function BirthdayEvent(u: User, now: Moment): (e: Event)
    requires u.birthday.Some?
    ensures e.id == "birthday-" + u.id && e.title == u.name + "'s Birthday"
    ensures e.kind == Birthday && e.creator == u.id && e.privacy == Public
    ensures e.participants == [u.id] + u.friends && e.rsvp == map[]
    ensures e.date == NextOccurrence(u.birthday.value, now)
  {
    Event("birthday-" + u.id, u.name + "'s Birthday", NextOccurrence(u.birthday.value, now),
          Birthday, u.id, Public, [u.id] + u.friends, map[], None, None)
  }

  /** `birthdayEvents`: one entry per user with a birthday, in user order. */
  function BirthdayEvents(users: seq<User>, now: Moment): (r: seq<Event>)
    ensures |r| <= |users|
    ensures forall i :: 0 <= i < |r| ==> r[i].kind == Birthday && r[i].privacy == Public
    decreases |users|
  {
    if users == [] then []
    else
      var rest := BirthdayEvents(users[1..], now);
      if HasBirthday(users[0]) then [BirthdayEvent(users[0], now)] + rest else rest
  }

  /** The entries are exactly the users with a birthday, each turned into
      its pseudo-event, in user order. */
  lemma {:induction false} BirthdayEventsOfFiltered(users: seq<User>, now: Moment)
    ensures |BirthdayEvents(users, now)| == |Filter(users, WithBirthday())|
    ensures forall i :: 0 <= i < |BirthdayEvents(users, now)| ==>
      Filter(users, WithBirthday())[i].birthday.Some?
      && BirthdayEvents(users, now)[i] == BirthdayEvent(Filter(users, WithBirthday())[i], now)
    decreases |users|
  {
    if users != [] {
      BirthdayEventsOfFiltered(users[1..], now);
      assert WithBirthday()(users[0]) == HasBirthday(users[0]);
      var b, r := Filter(users, WithBirthday()), BirthdayEvents(users, now);
      var b1, r1 := Filter(users[1..], WithBirthday()), BirthdayEvents(users[1..], now);
      if HasBirthday(users[0]) {
        assert b == [users[0]] + b1 && r == [BirthdayEvent(users[0], now)] + r1;
        forall i | 0 <= i < |r|
          ensures b[i].birthday.Some? && r[i] == BirthdayEvent(b[i], now)
        {
          if i > 0 {
            assert b[i] == b1[i - 1] && r[i] == r1[i - 1];
          }
        }
      } else {
        assert b == b1 && r == r1;
      }
    }
  }

  /** A user without a birthday contributes no entry. */
  lemma NoBirthdayNoEntry(users: seq<User>, now: Moment)
    requires forall i :: 0 <= i < |users| ==> users[i].birthday.None?
    ensures BirthdayEvents(users, now) == []
  {
    FilterNone(users, WithBirthday());
  }

  /** `allEvents`: the events and the birthday entries, in date order. */
  function AllEvents(events: seq<Event>, users: seq<User>, now: Moment): (r: seq<Event>)
    ensures multiset(r) == multiset(events) + multiset(BirthdayEvents(users, now))
    ensures SortedByDate(r)
  {
    SortByDateSorted(events + BirthdayEvents(users, now));
    SortByDate(events + BirthdayEvents(users, now))
  }

  function DateOf(e: Event): CalDate {
    e.date
  }

  /** `getEventsOnSelectedDate`: nothing when no day is selected, else the
      events on that day in list order. */
  function SelectedDateEvents(all: seq<Event>, selected: Option<CalDate>): (r: seq<Event>)
    ensures selected.None? ==> r == []
    ensures selected.Some? ==> forall i :: 0 <= i < |r| ==> r[i].date == selected.value && r[i] in all
    ensures selected.Some? ==> forall i :: 0 <= i < |all| && all[i].date == selected.value ==> all[i] in r
  {
    if selected.None? then []
    else
      var p := KeyIs(DateOf, selected.value);
      var r := Filter(all, p);
      assert forall i :: 0 <= i < |r| ==> r[i].date == selected.value && r[i] in all by {
        forall i | 0 <= i < |r|
          ensures r[i].date == selected.value && r[i] in all
        {
          assert p(r[i]) && r[i] in all;
          assert p(r[i]) == (DateOf(r[i]) == selected.value);
        }
      }
      assert forall i :: 0 <= i < |all| && all[i].date == selected.value ==> all[i] in r by {
        forall i | 0 <= i < |all| && all[i].date == selected.value
          ensures all[i] in r
        {
          assert p(all[i]) == (DateOf(all[i]) == selected.value);
        }
      }
      r
  }

  const UpcomingLimit: nat := 10

  /** In a date-sorted list, an entry outside the first `n` is dated no
      earlier than the n-th. */
  lemma SortedTailNotEarlier(sorted: seq<Event>, n: nat, e: Event)
    requires SortedByDate(sorted) && 0 < n <= |sorted|
    requires e in sorted && e !in sorted[..n]
    ensures DateAtMost(sorted[n - 1].date, e.date)
  {
    var j :| 0 <= j < |sorted| && sorted[j] == e;
    assert forall k :: 0 <= k < n ==> sorted[..n][k] == sorted[k];
  }

  /** The first `n` entries of a date-sorted rearrangement of `f`: no more
      copies of anything than `f` has, and every entry of `f` left out is
      dated no earlier than the last one kept. */
  lemma SortedPrefixOf(f: seq<Event>, sorted: seq<Event>, n: nat, r: seq<Event>)
    requires multiset(sorted) == multiset(f) && SortedByDate(sorted)
    requires n <= |sorted| && (|sorted| > 0 ==> n > 0) && r == sorted[..n]
    ensures multiset(r) <= multiset(f)
    ensures forall e :: e in f && e !in r ==> |r| > 0 && DateAtMost(r[|r| - 1].date, e.date)
  {
    assert sorted == r + sorted[n..];
    forall e | e in f && e !in r
      ensures |r| > 0 && DateAtMost(r[|r| - 1].date, e.date)
    {
      assert e in multiset(sorted);
      SortedTailNotEarlier(sorted, n, e);
    }
  }

  /** Entries drawn from the upcoming events of `all` are upcoming and
      listed in `all`. */
  lemma DrawnFromUpcoming(all: seq<Event>, now: Moment, r: seq<Event>)
    requires multiset(r) <= multiset(Filter(all, NotBeforeNow(now)))
    ensures forall i :: 0 <= i < |r| ==> NotBefore(r[i], now) && r[i] in all
  {
    var f := Filter(all, NotBeforeNow(now));
    forall i | 0 <= i < |r|
      ensures NotBefore(r[i], now) && r[i] in all
    {
      assert r[i] in multiset(r);
      assert r[i] in f;
      var j :| 0 <= j < |f| && f[j] == r[i];
      assert NotBeforeNow(now)(f[j]);
    }
  }

  /** The selected day's events keep the list order: each event is kept
      or dropped on its own, and the kept ones stay where they were. */
  lemma SelectedDateKeepsOrder(a: seq<Event>, b: seq<Event>, e: Event, d: CalDate)
    ensures SelectedDateEvents(a + b, Some(d)) == SelectedDateEvents(a, Some(d)) + SelectedDateEvents(b, Some(d))
    ensures SelectedDateEvents([e], Some(d)) == (if e.date == d then [e] else [])
  {
    FilterAppend(a, b, KeyIs(DateOf, d));
    assert KeyIs(DateOf, d)(e) == (DateOf(e) == d);
  }

  /** `getUpcomingEvents`: the earliest ten events whose day has not
      started before now, in date order; fewer when fewer lie ahead.
      Every upcoming event left out is dated no earlier than the last one
      listed. */
  function UpcomingList(all: seq<Event>, now: Moment): (r: seq<Event>)
    ensures |r| == (if |Filter(all, NotBeforeNow(now))| < UpcomingLimit
                    then |Filter(all, NotBeforeNow(now))| else UpcomingLimit)
    ensures SortedByDate(r)
    ensures multiset(r) <= multiset(Filter(all, NotBeforeNow(now)))
    ensures forall i :: 0 <= i < |r| ==> NotBefore(r[i], now) && r[i] in all
    ensures forall e :: e in Filter(all, NotBeforeNow(now)) && e !in r ==>
      |r| > 0 && DateAtMost(r[|r| - 1].date, e.date)
  {
    var f := Filter(all, NotBeforeNow(now));
    var sorted := SortByDate(f);
    SortByDateSorted(f);
    var n := if |sorted| < UpcomingLimit then |sorted| else UpcomingLimit;
    SortedPrefix(sorted, n);
    var r := sorted[..n];
    SortedPrefixOf(f, sorted, n, r);
    DrawnFromUpcoming(all, now, r);
    r
  }

  /** With ten or fewer events ahead, all of them are listed. */
  lemma FewUpcomingAllShown(all: seq<Event>, now: Moment)
    requires |Filter(all, NotBeforeNow(now))| <= UpcomingLimit
    ensures multiset(UpcomingList(all, now)) == multiset(Filter(all, NotBeforeNow(now)))
  {
    var sorted := SortByDate(Filter(all, NotBeforeNow(now)));
    assert sorted[..|sorted|] == sorted;
  }

  /** `getEventDates`: the number of events per day, built by counting
      each event onto its day. */
  function DayCounts(xs: seq<Event>): (m: map<CalDate, nat>)
    ensures forall d :: d in m ==> m[d] >= 1
    decreases |xs|
  {
    if xs == [] then map[]
    else
      var m := DayCounts(xs[..|xs| - 1]);
      var d := xs[|xs| - 1].date;
      m[d := (if d in m then m[d] else 0) + 1]
  }

  /** A day's count is the number of events on that day; a day with no
      entry has none. */
  lemma {:induction false} DayCountAt(xs: seq<Event>, d: CalDate)
    ensures d in DayCounts(xs) ==> DayCounts(xs)[d] == |Filter(xs, KeyIs(DateOf, d))|
    ensures d !in DayCounts(xs) ==> Filter(xs, KeyIs(DateOf, d)) == []
    decreases |xs|
  {
    if xs != [] {
      var init, x := xs[..|xs| - 1], xs[|xs| - 1];
      var p := KeyIs(DateOf, d);
      DayCountAt(init, d);
      assert xs == init + [x];
      FilterAppend(init, [x], p);
      assert Filter([x], p) == (if p(x) then [x] else []) + Filter([], p);
    }
  }

  /** `isDayWithEvent`: a positive count is recorded for the day. */
  predicate IsDayWithEvent(m: map<CalDate, nat>, d: CalDate) {
    d in m && m[d] != 0
  }

  /** A day is marked exactly when some event falls on it. */
  lemma DayMarkedIff(all: seq<Event>, d: CalDate)
    ensures IsDayWithEvent(DayCounts(all), d) <==> exists i :: 0 <= i < |all| && all[i].date == d
  {
    var p := KeyIs(DateOf, d);
    var f := Filter(all, p);
    assert IsDayWithEvent(DayCounts(all), d) <==> f != [] by {
      DayCountAt(all, d);
    }
    assert f != [] <==> exists i :: 0 <= i < |all| && p(all[i]) by {
      FilterNonEmptyIff(all, p);
    }
    forall i | 0 <= i < |all|
      ensures p(all[i]) <==> all[i].date == d
    {
      assert p(all[i]) == (DateOf(all[i]) == d);
    }
  }

  /** The per-day counts add up to the number of events: listing the days
      in order of first appearance, each day's count is its bucket's size,
      and the buckets hold every event once. */
  lemma DayCountsSum(all: seq<Event>)
    ensures forall i :: 0 <= i < |GroupBy(all, DateOf)| ==>
      GroupBy(all, DateOf)[i].0 in DayCounts(all)
      && DayCounts(all)[GroupBy(all, DateOf)[i].0] == |GroupBy(all, DateOf)[i].1|
    ensures TotalSize(GroupBy(all, DateOf)) == |all|
  {
    var g := GroupBy(all, DateOf);
    GroupByBuckets(all, DateOf);
    GroupBySize(all, DateOf);
    forall i | 0 <= i < |g|
      ensures g[i].0 in DayCounts(all) && DayCounts(all)[g[i].0] == |g[i].1|
    {
      DayCountAt(all, g[i].0);
    }
  }
}

=== FILE: community.dfy ===
/** The community page (src/pages/Community.tsx): the events a viewer may
    see, the upcoming ones grouped by month, and the Birthdays / Weddings /
    Other tabs over those groups. */
module CommunityPage {
  import opened Opt
  import opened Model
  import opened Seqs
  import opened Grouping

  /** An event is visible when it is public, or when the viewer takes part
      in it or created it. */
  predicate Accessible(viewer: Option<User>, e: Event) {
    e.privacy == Public || (viewer.Some? && Involves(e, viewer.value.id))
  }

  function AccessibleTo(viewer: Option<User>): Event -> bool {
    (e: Event) => Accessible(viewer, e)
  }

  /** `accessibleEvents`, in the original order. */
  function AccessibleEvents(events: seq<Event>, viewer: Option<User>): (r: seq<Event>)
    ensures forall i :: 0 <= i < |r| ==> Accessible(viewer, r[i]) && r[i] in events
    ensures forall i :: 0 <= i < |events| && Accessible(viewer, events[i]) ==> events[i] in r
  {
    var r := Filter(events, AccessibleTo(viewer));
    assert forall i :: 0 <= i < |r| ==> AccessibleTo(viewer)(r[i]);
    r
  }

  /** `accessibleEvents` keeps the original order: each event is kept or
      dropped on its own, and the kept ones stay where they were. */
  lemma AccessibleKeepsOrder(a: seq<Event>, b: seq<Event>, e: Event, viewer: Option<User>)
    ensures AccessibleEvents(a + b, viewer) == AccessibleEvents(a, viewer) + AccessibleEvents(b, viewer)
    ensures AccessibleEvents([e], viewer) == (if Accessible(viewer, e) then [e] else [])
  {
    FilterAppend(a, b, AccessibleTo(viewer));
    assert AccessibleTo(viewer)(e) == Accessible(viewer, e);
  }

  /** A signed-out visitor sees exactly the public events. */
  lemma SignedOutSeesPublic(events: seq<Event>, e: Event)
    requires e in events
    ensures e in AccessibleEvents(events, None) <==> e.privacy == Public
  {
  }

  /** `upcomingEvents`: the visible events not before now, in order. */
  function Upcoming(events: seq<Event>, viewer: Option<User>, now: Moment): (r: seq<Event>)
    ensures forall i :: 0 <= i < |r| ==> Accessible(viewer, r[i]) && NotBefore(r[i], now) && r[i] in events
    ensures forall i :: 0 <= i < |events| && Accessible(viewer, events[i]) && NotBefore(events[i], now) ==>
      events[i] in r
  {
    var a := AccessibleEvents(events, viewer);
    var r := Filter(a, NotBeforeNow(now));
    assert forall i :: 0 <= i < |r| ==> NotBeforeNow(now)(r[i]) && r[i] in a;
    r
  }

  /** `upcomingEvents` keeps the original order as well. */
  lemma UpcomingKeepsOrder(a: seq<Event>, b: seq<Event>, e: Event, viewer: Option<User>, now: Moment)
    ensures Upcoming(a + b, viewer, now) == Upcoming(a, viewer, now) + Upcoming(b, viewer, now)
    ensures Upcoming([e], viewer, now) == (if Accessible(viewer, e) && NotBefore(e, now) then [e] else [])
  {
    AccessibleKeepsOrder(a, b, e, viewer);
    FilterAppend(AccessibleEvents(a, viewer), AccessibleEvents(b, viewer), NotBeforeNow(now));
    assert NotBeforeNow(now)(e) == NotBefore(e, now);
  }

  /** The month bucket key: the formatted "MMMM yyyy" label is determined
      by, and determines, the year and month. */
  function MonthKey(e: Event): (int, int) {
    (e.date.year, e.date.month)
  }

  /** `eventsByMonth`: buckets in order of the first upcoming event of each
      month. */
  function EventsByMonth(events: seq<Event>, viewer: Option<User>, now: Moment): seq<((int, int), seq<Event>)> {
    GroupBy(Upcoming(events, viewer, now), MonthKey)
  }

  /** Every upcoming event lands in exactly one month bucket: buckets have
      distinct months, each is the upcoming list restricted to its month
      (so keeps the original order), every upcoming event's month has a
      bucket, and the bucket sizes add up to the number of upcoming
      events. */
  lemma MonthBuckets(events: seq<Event>, viewer: Option<User>, now: Moment)
    ensures DistinctKeys(EventsByMonth(events, viewer, now))
    ensures forall i :: 0 <= i < |EventsByMonth(events, viewer, now)| ==>
      EventsByMonth(events, viewer, now)[i].1
        == Filter(Upcoming(events, viewer, now), KeyIs(MonthKey, EventsByMonth(events, viewer, now)[i].0))
    ensures forall j :: 0 <= j < |Upcoming(events, viewer, now)| ==>
      exists i :: 0 <= i < |EventsByMonth(events, viewer, now)|
        && EventsByMonth(events, viewer, now)[i].0 == MonthKey(Upcoming(events, viewer, now)[j])
    ensures TotalSize(EventsByMonth(events, viewer, now)) == |Upcoming(events, viewer, now)|
  {
    var up := Upcoming(events, viewer, now);
    GroupByBuckets(up, MonthKey);
    GroupBySize(up, MonthKey);
    GroupByCovers(up, MonthKey);
  }

  /** The "All Celebrations" empty state: no buckets exactly when nothing
      is upcoming. */
  lemma NoMonthsIffNothingUpcoming(events: seq<Event>, viewer: Option<User>, now: Moment)
    ensures EventsByMonth(events, viewer, now) == [] <==> Upcoming(events, viewer, now) == []
  {
    var up := Upcoming(events, viewer, now);
    if up != [] {
      EveryKeyHasBucket(up, MonthKey, 0);
    }
  }

  datatype Tab = Birthdays | Weddings | Others

  /** The tab an event is listed under: birthdays, weddings, and everything
      else. */
  predicate InTab(t: Tab, e: Event) {
    match t
    case Birthdays => e.kind == Birthday
    case Weddings => e.kind == Wedding
    case Others => e.kind != Birthday && e.kind != Wedding
  }

  function InTabP(t: Tab): Event -> bool {
    (e: Event) => InTab(t, e)
  }

  /** The events of one month bucket shown under a tab. */
  function TabEvents(bucket: seq<Event>, t: Tab): (r: seq<Event>)
    ensures forall i :: 0 <= i < |r| ==> InTab(t, r[i]) && r[i] in bucket
    ensures forall i :: 0 <= i < |bucket| && InTab(t, bucket[i]) ==> bucket[i] in r
  {
    var r := Filter(bucket, InTabP(t));
    assert forall i :: 0 <= i < |r| ==> InTabP(t)(r[i]);
    r
  }

  /** The three tabs partition every bucket. */
  lemma TabsPartitionBucket(bucket: seq<Event>)
    ensures |TabEvents(bucket, Birthdays)| + |TabEvents(bucket, Weddings)| + |TabEvents(bucket, Others)|
      == |bucket|
  {
    var p, q, r := InTabP(Birthdays), InTabP(Weddings), InTabP(Others);
    assert forall i :: 0 <= i < |bucket| ==>
      (if p(bucket[i]) then 1 else 0) + (if q(bucket[i]) then 1 else 0) + (if r(bucket[i]) then 1 else 0) == 1;
    FilterThreeWay(bucket, p, q, r);
  }

  /** Some bucket holds an event of the tab's kind. */
  predicate TabHasEvents(g: seq<((int, int), seq<Event>)>, t: Tab) {
    exists i, j :: 0 <= i < |g| && 0 <= j < |g[i].1| && InTab(t, g[i].1[j])
  }

  /** A tab's empty-state message appears exactly when no upcoming event is
      of its kind. */
  lemma TabEmptyIff(events: seq<Event>, viewer: Option<User>, now: Moment, t: Tab)
    ensures !TabHasEvents(EventsByMonth(events, viewer, now), t) <==>
      forall k :: 0 <= k < |Upcoming(events, viewer, now)| ==> !InTab(t, Upcoming(events, viewer, now)[k])
  {
    var up, g := Upcoming(events, viewer, now), EventsByMonth(events, viewer, now);
    if TabHasEvents(g, t) {
      TabEventIsUpcoming(events, viewer, now, t);
    }
    if exists k :: 0 <= k < |up| && InTab(t, up[k]) {
      var k :| 0 <= k < |up| && InTab(t, up[k]);
      UpcomingEventIsInTab(events, viewer, now, t, k);
    }
  }

  lemma TabEventIsUpcoming(events: seq<Event>, viewer: Option<User>, now: Moment, t: Tab)
    requires TabHasEvents(EventsByMonth(events, viewer, now), t)
    ensures exists k :: 0 <= k < |Upcoming(events, viewer, now)| && InTab(t, Upcoming(events, viewer, now)[k])
  {
    var up, g := Upcoming(events, viewer, now), EventsByMonth(events, viewer, now);
    var i, j :| 0 <= i < |g| && 0 <= j < |g[i].1| && InTab(t, g[i].1[j]);
    assert g[i].1 == Filter(up, KeyIs(MonthKey, g[i].0)) by {
      GroupByBuckets(up, MonthKey);
    }
    assert g[i].1[j] in up;
  }

  lemma UpcomingEventIsInTab(events: seq<Event>, viewer: Option<User>, now: Moment, t: Tab, k: nat)
    requires k < |Upcoming(events, viewer, now)| && InTab(t, Upcoming(events, viewer, now)[k])
    ensures TabHasEvents(EventsByMonth(events, viewer, now), t)
  {
    var up, g := Upcoming(events, viewer, now), EventsByMonth(events, viewer, now);
    var e := up[k];
    EveryKeyHasBucket(up, MonthKey, k);
    var i :| 0 <= i < |g| && g[i].0 == MonthKey(e);
    assert e in g[i].1 by {
      assert g[i].1 == Filter(up, KeyIs(MonthKey, g[i].0)) by {
        GroupByBuckets(up, MonthKey);
      }
      assert KeyIs(MonthKey, g[i].0)(e);
    }
    var j :| 0 <= j < |g[i].1| && g[i].1[j] == e;
    assert InTab(t, g[i].1[j]);
  }
}

=== FILE: create_event.dfy ===
/** The event creation page (src/pages/CreateEvent.tsx) together with the
    gift suggestions it seeds from (src/data/mockData.ts). Within one click
    handler every context setter computes its new list from the snapshot
    taken at render time, so a later `addGiftItem` in the same handler
    overwrites an earlier one; `SubmitAsWritten` models that, `Submit` the
    behaviour the page evidently intends. */
module CreateEventPage {
  import opened Opt
  import opened Model
  import opened Seqs
  import opened Text
  import opened AppContext

  /** One entry of the suggestion table. Prices are cents. */
  datatype Suggestion = Suggestion(title: string, price: Cents, category: Category)

  /** `giftSuggestions[type]`: four suggestions for each named type and none
      for "other", which has no entry in the table. */
  function Suggestions(t: EventType): (r: seq<Suggestion>)
    ensures r == [] <==> t == OtherType
    ensures t != OtherType ==> |r| == 4
    ensures forall i :: 0 <= i < |r| ==> r[i].price > 0
  {
    match t
    case Birthday => [
      Suggestion("Wireless Earbuds", 12999, Medium),
      Suggestion("Fitness Tracker", 7999, Medium),
      Suggestion("Personalized Star Map", 4999, Small),
      Suggestion("Scented Candle Set", 3500, Small)]
    case Wedding => [
      Suggestion("Smart Home Speaker", 19999, Medium),
      Suggestion("Luxury Bed Sheets", 15000, Medium),
      Suggestion("Professional Knife Set", 29999, Large),
      Suggestion("Crystal Wine Glasses", 8999, Medium)]
    case Housewarming => [
      Suggestion("Indoor Plant", 4500, Small),
      Suggestion("Decorative Throw Blanket", 5999, Medium),
      Suggestion("Smart Doorbell", 17999, Medium),
      Suggestion("Artwork Print", 8500, Medium)]
    case BabyShower => [
      Suggestion("Baby Monitor", 14999, Medium),
      Suggestion("Diaper Subscription", 20000, Large),
      Suggestion("Soft Plush Toys Set", 3999, Small),
      Suggestion("Baby Clothes Bundle", 7500, Medium)]
    case OtherType => []
  }

  /** The event type as the form stores it. */
  function TypeKey(t: EventType): string {
    match t
    case Birthday => "birthday"
    case Wedding => "wedding"
    case Housewarming => "housewarming"
    case BabyShower => "baby_shower"
    case OtherType => "other"
  }

  /** The form. `date` is `None` while the date field is empty; type and
      privacy always hold a value (they start as birthday and public). */
  datatype Form = Form(title: string, date: Option<CalDate>, kind: EventType, privacy: Privacy)

  /** The submit guard: a title and a date are required. */
  predicate Submittable(f: Form) {
    f.title != [] && f.date.Some?
  }

  /** The event the form hands to `createEvent`: no participants, no RSVPs,
      no description or location. Its id is assigned by the context. */
  function DraftEvent(f: Form, creator: string): Event
    requires f.date.Some?
  {
    Event([], f.title, f.date.value, f.kind, creator, f.privacy, [], map[], None, None)
  }

  /** The gift the form hands to `addGiftItem` for one suggestion. */
  function SeedDraft(sg: Suggestion, t: EventType, eventId: string): (g: GiftItem)
    ensures g.title == sg.title && g.price == sg.price && g.category == sg.category
    ensures g.description == "Suggested " + sg.title + " for your " + TypeKey(t)
    ensures g.eventId == eventId && g.contributors == []
    ensures g.status == Available && g.priority == MediumPriority && g.url == []
  {
    GiftItem([], sg.title, "Suggested " + sg.title + " for your " + TypeKey(t),
             sg.price, sg.category, [], Available, MediumPriority, [], eventId, None)
  }

  /** The id "event" + n: the form of the context's event ids and of the
      random placeholder `event${(Math.random() * 1000).toFixed(0)}`. */
  function EventIdOf(n: nat): string {
    "event" + NatToString(n)
  }

  lemma EventIdInjective(m: nat, n: nat)
    requires EventIdOf(m) == EventIdOf(n)
    ensures m == n
  {
    assert EventIdOf(m)[5..] == NatToString(m);
    assert EventIdOf(n)[5..] == NatToString(n);
    NatToStringInjective(m, n);
  }

  /** The drafts seeded for the form's type, the i-th pointing at event id
      `ids(i)`. */
  function SeedDrafts(t: EventType, ids: nat -> string): (ds: seq<GiftItem>)
    ensures |ds| == |Suggestions(t)|
    ensures forall i :: 0 <= i < |ds| ==> ds[i] == SeedDraft(Suggestions(t)[i], t, ids(i))
  {
    var sg := Suggestions(t);
    seq(|sg|, i requires 0 <= i < |sg| => SeedDraft(sg[i], t, ids(i)))
  }

  /** The `forEach` over `addGiftItem` as the page runs it: each call builds
      its list from the render-time snapshot `snapshot`, replacing the list
      the previous call set. */
  function StaleAddAll(snapshot: State, drafts: seq<GiftItem>, current: seq<GiftItem>): seq<GiftItem>
    decreases |drafts|
  {
    if drafts == [] then current
    else StaleAddAll(snapshot, drafts[1..], AddGiftItem(snapshot, drafts[0]).giftItems)
  }

  /** Only the last call survives. */
  lemma {:induction false} StaleAddAllKeepsLast(snapshot: State, drafts: seq<GiftItem>, current: seq<GiftItem>)
    ensures StaleAddAll(snapshot, drafts, current)
      == if drafts == [] then current else AddGiftItem(snapshot, drafts[|drafts| - 1]).giftItems
    decreases |drafts|
  {
    if drafts != [] {
      StaleAddAllKeepsLast(snapshot, drafts[1..], AddGiftItem(snapshot, drafts[0]).giftItems);
      if |drafts| > 1 {
        assert drafts[1..][|drafts[1..]| - 1] == drafts[|drafts| - 1];
      }
    }
  }

  /** `handleSubmit` as written. Nobody signed in (the page renders nothing)
      or a missing title or date leaves the state alone. Otherwise the event
      is created, and of the suggestions only the last one is kept, under
      the id "item" + (n + 1) and with the random placeholder event id
      `EventIdOf(roll(i))` rather than the new event's id. */
  function SubmitAsWritten(s: State, f: Form, roll: nat -> nat): (r: State)
    ensures s.currentUser.None? || !Submittable(f) ==> r == s
    ensures s.currentUser.Some? && Submittable(f) ==>
      && r.events == CreateEvent(s, DraftEvent(f, s.currentUser.value.id)).events
      && r.users == s.users && r.currentUser == s.currentUser
      && var sg := Suggestions(f.kind);
      && |r.giftItems| == |s.giftItems| + (if sg == [] then 0 else 1)
      && r.giftItems[..|s.giftItems|] == s.giftItems
      && (sg != [] ==>
           && r.giftItems[|s.giftItems|].title == sg[|sg| - 1].title
           && r.giftItems[|s.giftItems|].eventId == EventIdOf(roll(|sg| - 1)))
  {
    if s.currentUser.None? || !Submittable(f) then s
    else
      var ds := SeedDrafts(f.kind, (i: nat) => EventIdOf(roll(i)));
      StaleAddAllKeepsLast(s, ds, s.giftItems);
      var s1 := CreateEvent(s, DraftEvent(f, s.currentUser.value.id));
      s1.(giftItems := StaleAddAll(s, ds, s.giftItems))
  }

  /** Of the four birthday suggestions, one gift is added. */
  lemma AsWrittenSeedsOneOfFour(s: State, f: Form, roll: nat -> nat)
    requires s.currentUser.Some? && Submittable(f) && f.kind == Birthday
    ensures |Suggestions(f.kind)| == 4
    ensures |SubmitAsWritten(s, f, roll).giftItems| == |s.giftItems| + 1
  {
  }

  /** Unless the random roll happens to equal the new event's number, the
      seeded gift is not attached to the new event: the event shows no
      gifts. */
  lemma AsWrittenSeedIsOrphaned(s: State, f: Form, roll: nat -> nat)
    requires s.currentUser.Some? && Submittable(f) && f.kind != OtherType
    requires forall i :: 0 <= i < |s.giftItems| ==> s.giftItems[i].eventId != EventIdOf(|s.events| + 1)
    requires roll(|Suggestions(f.kind)| - 1) != |s.events| + 1
    ensures var r := SubmitAsWritten(s, f, roll);
      GetGiftsByEventId(r, EventIdOf(|s.events| + 1)) == []
  {
    var r := SubmitAsWritten(s, f, roll);
    var newId := EventIdOf(|s.events| + 1);
    var sg := Suggestions(f.kind);
    var n := |s.giftItems|;
    assert r.giftItems[n].eventId != newId by {
      if r.giftItems[n].eventId == newId {
        EventIdInjective(roll(|sg| - 1), |s.events| + 1);
      }
    }
    NoItemPointsAt(r.giftItems, s.giftItems, newId);
  }

  /** Appending an item that does not point at the event to a list with
      none that does leaves a list with none that does. */
  lemma NoItemPointsAt(gs: seq<GiftItem>, before: seq<GiftItem>, eventId: string)
    requires |gs| == |before| + 1 && gs[..|before|] == before
    requires forall i :: 0 <= i < |before| ==> before[i].eventId != eventId
    requires gs[|before|].eventId != eventId
    ensures Filter(gs, HasEventIdOf(eventId)) == []
  {
    assert forall k :: 0 <= k < |gs| ==> gs[k].eventId != eventId by {
      AppendedKeepsMissing(gs, before, eventId);
    }
    NoGiftPointsAt(gs, eventId);
  }

  lemma AppendedKeepsMissing(gs: seq<GiftItem>, before: seq<GiftItem>, eventId: string)
    requires |gs| == |before| + 1 && gs[..|before|] == before
    requires forall i :: 0 <= i < |before| ==> before[i].eventId != eventId
    requires gs[|before|].eventId != eventId
    ensures forall k :: 0 <= k < |gs| ==> gs[k].eventId != eventId
  {
    forall k | 0 <= k < |gs|
      ensures gs[k].eventId != eventId
    {
      if k < |before| {
        assert gs[k] == before[k];
      }
    }
  }

  /** A list in which no item points at the event filters to nothing. */
  lemma NoGiftPointsAt(gs: seq<GiftItem>, eventId: string)
    requires forall k :: 0 <= k < |gs| ==> gs[k].eventId != eventId
    ensures Filter(gs, HasEventIdOf(eventId)) == []
  {
    assert forall k :: 0 <= k < |gs| ==> !HasEventIdOf(eventId)(gs[k]);
    FilterNone(gs, HasEventIdOf(eventId));
  }

  /** The intended `forEach`: each `addGiftItem` sees the list the previous
      one produced. */
  function AddAll(s: State, drafts: seq<GiftItem>): (r: State)
    ensures |r.giftItems| == |s.giftItems| + |drafts|
    ensures r.giftItems[..|s.giftItems|] == s.giftItems
    ensures forall i :: 0 <= i < |drafts| ==>
      r.giftItems[|s.giftItems| + i] == NewGiftItem(|s.giftItems| + i, drafts[i])
    ensures r.users == s.users && r.events == s.events && r.currentUser == s.currentUser
    decreases |drafts|
  {
    if drafts == [] then s
    else
      var s1 := AddGiftItem(s, drafts[0]);
      var r := AddAll(s1, drafts[1..]);
      assert r.giftItems[..|s.giftItems|] == s.giftItems by {
        assert r.giftItems[..|s.giftItems|] == r.giftItems[..|s1.giftItems|][..|s.giftItems|];
      }
      assert forall i :: 1 <= i < |drafts| ==>
        r.giftItems[|s.giftItems| + i] == NewGiftItem(|s.giftItems| + i, drafts[i]) by {
        forall i | 1 <= i < |drafts|
          ensures r.giftItems[|s.giftItems| + i] == NewGiftItem(|s.giftItems| + i, drafts[i])
        {
          assert drafts[1..][i - 1] == drafts[i];
          assert |s1.giftItems| + (i - 1) == |s.giftItems| + i;
        }
      }
      assert r.giftItems[|s.giftItems|] == s1.giftItems[|s.giftItems|];
      r
  }

  /** The intended submit: the event is created and every suggestion for
      its type becomes a gift attached to the new event's id. */
  function Submit(s: State, f: Form): (r: State)
    ensures s.currentUser.None? || !Submittable(f) ==> r == s
    ensures s.currentUser.Some? && Submittable(f) ==>
      && r.events == CreateEvent(s, DraftEvent(f, s.currentUser.value.id)).events
      && r.users == s.users && r.currentUser == s.currentUser
      && var sg := Suggestions(f.kind);
      && |r.giftItems| == |s.giftItems| + |sg|
      && r.giftItems[..|s.giftItems|] == s.giftItems
      && forall i :: 0 <= i < |sg| ==>
           r.giftItems[|s.giftItems| + i]
             == NewGiftItem(|s.giftItems| + i, SeedDraft(sg[i], f.kind, EventIdOf(|s.events| + 1)))
  {
    if s.currentUser.None? || !Submittable(f) then s
    else
      var newId := EventIdOf(|s.events| + 1);
      var s1 := CreateEvent(s, DraftEvent(f, s.currentUser.value.id));
      assert s1.events[|s.events|].id == newId;
      AddAll(s1, SeedDrafts(f.kind, _ => newId))
  }

  /** With the intended submit, the new event's gift list is exactly the
      seeded gifts, one per suggestion, in table order (when no earlier gift
      pointed at that id). */
  lemma SubmitSeedsAttachToEvent(s: State, f: Form)
    requires s.currentUser.Some? && Submittable(f)
    requires forall i :: 0 <= i < |s.giftItems| ==> s.giftItems[i].eventId != EventIdOf(|s.events| + 1)
    ensures var r := Submit(s, f);
      && GetGiftsByEventId(r, EventIdOf(|s.events| + 1)) == r.giftItems[|s.giftItems|..]
      && |GetGiftsByEventId(r, EventIdOf(|s.events| + 1))| == |Suggestions(f.kind)|
  {
    var r := Submit(s, f);
    var newId := EventIdOf(|s.events| + 1);
    var n := |s.giftItems|;
    var sg := Suggestions(f.kind);
    assert forall k :: n <= k < |r.giftItems| ==> HasEventIdOf(newId)(r.giftItems[k]) by {
      forall k | n <= k < |r.giftItems|
        ensures HasEventIdOf(newId)(r.giftItems[k])
      {
        SeedEventIdAt(s, f, k - n);
      }
    }
    assert forall k :: 0 <= k < n ==> !HasEventIdOf(newId)(r.giftItems[k]) by {
      forall k | 0 <= k < n
        ensures !HasEventIdOf(newId)(r.giftItems[k])
      {
        assert r.giftItems[k] == s.giftItems[k];
      }
    }
    FilterSuffix(r.giftItems, n, HasEventIdOf(newId));
  }

  /** The seeded gifts get pairwise distinct ids. */
  lemma SubmitSeedIdsDistinct(s: State, f: Form, i: nat, j: nat)
    requires s.currentUser.Some? && Submittable(f)
    requires i < j < |Suggestions(f.kind)|
    ensures var r := Submit(s, f);
      r.giftItems[|s.giftItems| + i].id != r.giftItems[|s.giftItems| + j].id
  {
    SeedIdAt(s, f, i);
    SeedIdAt(s, f, j);
    ItemIdsDiffer(|s.giftItems| + i + 1, |s.giftItems| + j + 1);
  }

  /** Different counts give different gift ids. */
  lemma ItemIdsDiffer(a: nat, b: nat)
    requires a != b
    ensures "item" + NatToString(a) != "item" + NatToString(b)
  {
    if "item" + NatToString(a) == "item" + NatToString(b) {
      PrefixCancels("item", NatToString(a), NatToString(b));
      NatToStringInjective(a, b);
    }
  }

  lemma PrefixCancels(p: string, x: string, y: string)
    requires p + x == p + y
    ensures x == y
  {
    assert x == (p + x)[|p|..];
    assert y == (p + y)[|p|..];
  }

  /** The event a submit creates: the next event id, the signed-in user as
      creator, nobody invited and no answers yet, and the form's title,
      date, kind and privacy. */
  lemma SubmitCreatesEvent(s: State, f: Form)
    requires s.currentUser.Some? && Submittable(f)
    ensures var r := Submit(s, f);
      && |r.events| == |s.events| + 1 && r.events[..|s.events|] == s.events
      && var e := r.events[|s.events|];
      && e.id == EventIdOf(|s.events| + 1) && e.creator == s.currentUser.value.id
      && e.participants == [] && e.rsvp == map[]
      && e.title == f.title && e.date == f.date.value && e.kind == f.kind && e.privacy == f.privacy
  {
  }

  /** The i-th seeded gift belongs to the new event. */
  lemma SeedEventIdAt(s: State, f: Form, i: nat)
    requires s.currentUser.Some? && Submittable(f)
    requires i < |Suggestions(f.kind)|
    ensures HasEventIdOf(EventIdOf(|s.events| + 1))(Submit(s, f).giftItems[|s.giftItems| + i])
  {
    var sg := Suggestions(f.kind);
    assert Submit(s, f).giftItems[|s.giftItems| + i]
      == NewGiftItem(|s.giftItems| + i, SeedDraft(sg[i], f.kind, EventIdOf(|s.events| + 1)));
  }

  /** The i-th seeded gift is numbered after the gifts already there. */
  lemma SeedIdAt(s: State, f: Form, i: nat)
    requires s.currentUser.Some? && Submittable(f)
    requires i < |Suggestions(f.kind)|
    ensures Submit(s, f).giftItems[|s.giftItems| + i].id == "item" + NatToString(|s.giftItems| + i + 1)
  {
    var sg := Suggestions(f.kind);
    assert Submit(s, f).giftItems[|s.giftItems| + i]
      == NewGiftItem(|s.giftItems| + i, SeedDraft(sg[i], f.kind, EventIdOf(|s.events| + 1)));
  }
}

=== FILE: event_details.dfy ===
/** The event page (src/pages/EventDetails.tsx): who the viewer is to the
    event, when the RSVP buttons are offered, what choosing one does, the
    guest list with its labels and the RSVP tallies. */
module EventDetailsPage {
  import opened Opt
  import opened Model
  import opened Seqs
  import opened AppContext
  import opened CreateEventPage

  /** The page renders only for a known event whose creator is a known
      user; otherwise it navigates home and shows nothing. */
  function PageSubject(s: State, eventId: Option<string>): (r: Option<(Event, User)>)
    ensures r.Some? ==> eventId.Some? && r.value.0 in s.events && r.value.0.id == eventId.value
    ensures r.Some? ==> r.value.1 in s.users && r.value.1.id == r.value.0.creator
    ensures eventId.None? ==> r.None?
    ensures eventId.Some? && GetEventById(s, eventId.value).None? ==> r.None?
    ensures forall i, j ::
      (eventId.Some? && FirstEventAt(s.events, eventId.value, i) && FirstUserAt(s.users, s.events[i].creator, j))
      ==> r == Some((s.events[i], s.users[j]))
    ensures forall i ::
      (eventId.Some? && FirstEventAt(s.events, eventId.value, i)
       && forall k :: 0 <= k < |s.users| ==> s.users[k].id != s.events[i].creator)
      ==> r.None?
  {
    if eventId.None? then None
    else match GetEventById(s, eventId.value)
      case None => None
      case Some(e) =>
        match GetUserById(s, e.creator)
        case None => None
        case Some(c) => Some((e, c))
  }

  /** The viewer created the event. */
  predicate IsCreator(viewer: Option<User>, e: Event) {
    viewer.Some? && viewer.value.id == e.creator
  }

  /** The viewer is on the participant list. */
  predicate IsParticipant(viewer: Option<User>, e: Event) {
    viewer.Some? && viewer.value.id in e.participants
  }

  /** The event lies in the past: the start of its day is before now. */
  predicate IsPastEvent(e: Event, now: Moment) {
    MomentBefore(StartOf(e.date), now)
  }

  /** The Yes/Maybe/No buttons appear for an event not yet past to anyone
      but its creator, signed in or not. */
  predicate RsvpOffered(viewer: Option<User>, e: Event, now: Moment)
    ensures RsvpOffered(viewer, e, now) ==> !IsCreator(viewer, e)
    ensures RsvpOffered(viewer, e, now) <==>
      !MomentBefore(StartOf(e.date), now) && (viewer.None? || viewer.value.id != e.creator)
  {
    !IsPastEvent(e, now) && !IsCreator(viewer, e)
  }

  /** An event dated today counts as past from the first moment after
      midnight, since its date denotes the start of its day; the RSVP
      buttons are then gone. */
  lemma TodayIsPastAfterMidnight(viewer: Option<User>, e: Event, now: Moment)
    requires e.date == now.date && now.msOfDay > 0
    ensures IsPastEvent(e, now) && !RsvpOffered(viewer, e, now)
  {
  }

  /** `handleRsvpChange(status)`: without a signed-in user nothing happens.
      Otherwise the highlighted choice becomes `status` and the status is
      recorded for the viewer on this event. */
  function HandleRsvpChange(s: State, e: Event, selected: Option<Rsvp>, status: Rsvp): (r: (State, Option<Rsvp>))
    ensures s.currentUser.None? ==> r == (s, selected)
    ensures s.currentUser.Some? ==> r.1 == Some(status)
    ensures s.currentUser.Some? ==>
      && |r.0.events| == |s.events|
      && forall i :: 0 <= i < |s.events| && s.events[i].id == e.id ==>
           r.0.events[i].rsvp == s.events[i].rsvp[s.currentUser.value.id := status]
    ensures forall i :: 0 <= i < |s.events| && s.events[i].id != e.id ==> r.0.events[i] == s.events[i]
    ensures r.0.users == s.users && r.0.giftItems == s.giftItems && r.0.currentUser == s.currentUser
  {
    if s.currentUser.None? then (s, selected)
    else (UpdateRsvp(s, e.id, s.currentUser.value.id, status), Some(status))
  }

  /** The highlighted choice when the page opens: the viewer's recorded
      status, if any. */
  function InitialSelection(viewer: Option<User>, e: Event): (r: Option<Rsvp>)
    ensures r.Some? <==> viewer.Some? && viewer.value.id in e.rsvp
    ensures r.Some? ==> r.value == e.rsvp[viewer.value.id]
  {
    if viewer.Some? && viewer.value.id in e.rsvp then Some(e.rsvp[viewer.value.id]) else None
  }

  /** After choosing, reopening the page highlights the same choice. */
  lemma ChoiceIsRemembered(s: State, e: Event, selected: Option<Rsvp>, status: Rsvp, i: nat)
    requires s.currentUser.Some? && i < |s.events| && s.events[i].id == e.id
    ensures var r := HandleRsvpChange(s, e, selected, status);
      InitialSelection(r.0.currentUser, r.0.events[i]) == r.1
  {
  }

  /** The "No guests yet." message appears exactly when no participant id
      resolves. */
  lemma NoGuestsIffNoneKnown(s: State, e: Event)
    ensures UsersByIds(s, e.participants) == [] <==>
      forall i :: 0 <= i < |e.participants| ==> !Known(s, e.participants[i])
  {
    UsersByIdsAreKnown(s, e.participants);
    var p := KnownIn(s);
    assert Count(e.participants, p) == |Filter(e.participants, p)|;
    assert (forall i :: 0 <= i < |e.participants| ==> !p(e.participants[i])) <==>
      (forall i :: 0 <= i < |e.participants| ==> !Known(s, e.participants[i]));
  }

  /** The status text as the page shows it. */
  function RsvpName(r: Rsvp): string {
    match r
    case Yes => "yes"
    case No => "no"
    case Maybe => "maybe"
  }

  /** A guest's label: the recorded status, or "invited" when there is
      none. */
  function GuestLabel(e: Event, uid: string): (r: string)
    ensures r == "invited" <==> uid !in e.rsvp
    ensures uid in e.rsvp ==> r == RsvpName(e.rsvp[uid])
  {
    if uid in e.rsvp then RsvpName(e.rsvp[uid]) else "invited"
  }

  /** The ids whose recorded status is `status`. */
  function WithStatus(rsvp: map<string, Rsvp>, status: Rsvp): set<string> {
    set k | k in rsvp && rsvp[k] == status
  }

  /** `rsvpCounts`: the number of entries recorded with each status. All
      entries count, whether or not the id is on the participant list. */
  function RsvpCounts(rsvp: map<string, Rsvp>): (r: (nat, nat, nat))
    ensures r.0 == |WithStatus(rsvp, Yes)| && r.1 == |WithStatus(rsvp, No)| && r.2 == |WithStatus(rsvp, Maybe)|
    ensures r.0 + r.1 + r.2 == |rsvp|
  {
    StatusPartition(rsvp);
    (|WithStatus(rsvp, Yes)|, |WithStatus(rsvp, No)|, |WithStatus(rsvp, Maybe)|)
  }

  /** The three status sets partition the recorded ids. */
  lemma StatusPartition(rsvp: map<string, Rsvp>)
    ensures |WithStatus(rsvp, Yes)| + |WithStatus(rsvp, No)| + |WithStatus(rsvp, Maybe)| == |rsvp|
  {
    var y, n, m := WithStatus(rsvp, Yes), WithStatus(rsvp, No), WithStatus(rsvp, Maybe);
    assert rsvp.Keys == y + n + m by {
      forall k | k in rsvp.Keys
        ensures k in y + n + m
      {
        match rsvp[k]
        case Yes => assert k in y;
        case No => assert k in n;
        case Maybe => assert k in m;
      }
    }
    assert y !! n && y !! m && n !! m;
    assert |y + n| == |y| + |n|;
    assert |y + n + m| == |y + n| + |m|;
  }

  /** A first RSVP from a new guest raises the tally of that status by one
      and leaves the other two alone. */
  lemma FirstRsvpCountsOnce(rsvp: map<string, Rsvp>, uid: string, status: Rsvp)
    requires uid !in rsvp
    ensures var before, after := RsvpCounts(rsvp), RsvpCounts(rsvp[uid := status]);
      && after.0 == before.0 + (if status == Yes then 1 else 0)
      && after.1 == before.1 + (if status == No then 1 else 0)
      && after.2 == before.2 + (if status == Maybe then 1 else 0)
  {
    WithStatusAdd(rsvp, uid, status, Yes);
    WithStatusAdd(rsvp, uid, status, No);
    WithStatusAdd(rsvp, uid, status, Maybe);
  }

  lemma WithStatusAdd(rsvp: map<string, Rsvp>, uid: string, status: Rsvp, t: Rsvp)
    requires uid !in rsvp
    ensures WithStatus(rsvp[uid := status], t)
      == WithStatus(rsvp, t) + (if status == t then {uid} else {})
    ensures |WithStatus(rsvp[uid := status], t)| == |WithStatus(rsvp, t)| + (if status == t then 1 else 0)
  {
    var a, b := WithStatus(rsvp[uid := status], t), WithStatus(rsvp, t);
    assert a == b + (if status == t then {uid} else {});
    assert uid !in b;
  }

  /** The suggestion card appears only to the creator and only for a type
      with an entry in the suggestion table (every type but "other"). */
  predicate SuggestionsShown(viewer: Option<User>, e: Event)
    ensures SuggestionsShown(viewer, e) <==> IsCreator(viewer, e) && Suggestions(e.kind) != []
  {
    IsCreator(viewer, e) && e.kind != OtherType
  }
}

=== FILE: funding.dfy ===
/** The funding state a gift card derives from its contribution log
    (src/components/GiftCard.tsx): the pooled total, what is left to raise,
    and whether the gift is fully funded. Nothing is cached: every value is
    recomputed from the log. */
module Funding {
  import opened Model

  /** Sum of the amounts in a contribution log, folded from the left as
      `reduce((sum, c) => sum + c.amount, 0)` does. */
  function TotalContributed(cs: seq<Contribution>): Cents
    decreases |cs|
  {
    if cs == [] then 0 else TotalContributed(cs[..|cs| - 1]) + cs[|cs| - 1].amount
  }

  /** The log read from the front: the first entry plus the total of the
      rest. Together with the fold above this pins the total down as the
      plain sum of all amounts, whichever end one starts from. */
  lemma {:induction false} TotalContributedCons(c: Contribution, cs: seq<Contribution>)
    ensures TotalContributed([c] + cs) == c.amount + TotalContributed(cs)
    decreases |cs|
  {
    if cs != [] {
      var init := cs[..|cs| - 1];
      assert ([c] + cs)[..|cs|] == [c] + init;
      TotalContributedCons(c, init);
    }
  }

  /** Appending a contribution raises the total by exactly its amount. */
  lemma TotalContributedSnoc(cs: seq<Contribution>, c: Contribution)
    ensures TotalContributed(cs + [c]) == TotalContributed(cs) + c.amount
  {
    assert (cs + [c])[..|cs|] == cs;
  }

  /** A log of non-negative amounts never totals below zero, and never below
      any single entry. */
  lemma {:induction false} TotalContributedBounds(cs: seq<Contribution>)
    requires forall i :: 0 <= i < |cs| ==> cs[i].amount >= 0
    ensures TotalContributed(cs) >= 0
    ensures forall i :: 0 <= i < |cs| ==> cs[i].amount <= TotalContributed(cs)
    decreases |cs|
  {
    if cs != [] {
      TotalContributedBounds(cs[..|cs| - 1]);
    }
  }

  function Total(g: GiftItem): Cents {
    TotalContributed(g.contributors)
  }

  /** `Math.max(0, price - total)`. */
  function AmountRemaining(g: GiftItem): (r: Cents)
    ensures r >= 0
    ensures r == 0 <==> Total(g) >= g.price
    ensures r > 0 ==> Total(g) + r == g.price
  {
    if g.price - Total(g) > 0 then g.price - Total(g) else 0
  }

  /** `amountRemaining === 0`. */
  predicate IsFullyFunded(g: GiftItem)
    ensures IsFullyFunded(g) <==> Total(g) >= g.price
  {
    AmountRemaining(g) == 0
  }
}

=== FILE: gift_card.dfy ===
/** The contribution dialog of a gift card (src/components/GiftCard.tsx):
    when the Contribute button is enabled, what the Confirm button accepts,
    and what submitting the dialog does to the application state and to the
    two input fields. */
module GiftCard {
  import opened Opt
  import opened Model
  import opened Seqs
  import opened Funding
  import opened AppContext

  /** The dialog's two inputs. */
  datatype Form = Form(amount: AmountInput, message: string)

  /** The Contribute button is enabled exactly when someone is signed in
      and the gift is not fully funded. */
  predicate CanContribute(s: State, g: GiftItem)
    ensures CanContribute(s, g) <==> s.currentUser.Some? && Total(g) < g.price
  {
    s.currentUser.Some? && !IsFullyFunded(g)
  }

  /** The optional message passed on: an empty text field sends none. */
  function MessageOf(text: string): (m: Option<string>)
    ensures m.None? <==> text == []
    ensures m.Some? ==> m.value == text
  {
    if text == [] then None else Some(text)
  }

  /** `handleContribute`: with nobody signed in, or an amount that is empty,
      not a number or not positive, nothing happens and the inputs stay as
      typed. Otherwise the signed-in user contributes the amount to this
      card's gift and both inputs are cleared. There is no check against the
      amount still needed or against the wallet balance. */
  function HandleContribute(s: State, g: GiftItem, f: Form, today: CalDate): (r: (State, Form))
    ensures s.currentUser.None? || !PositiveAmount(f.amount) ==> r == (s, f)
    ensures s.currentUser.Some? && PositiveAmount(f.amount) ==>
      && r.1 == Form(Blank, [])
      && r.0.events == s.events
      && r.0.currentUser == s.currentUser
      && var uid := s.currentUser.value.id;
         var c := Contribution(uid, f.amount.cents, today, MessageOf(f.message));
         && r.0.giftItems == AppendContribution(s.giftItems, g.id, c)
         && r.0.users == Debit(s.users, uid, Count(s.giftItems, HasGiftId(g.id)) * f.amount.cents)
  {
    if s.currentUser.None? || !PositiveAmount(f.amount) then (s, f)
    else
      var s' := ContributeToGift(s, g.id, s.currentUser.value.id, f.amount.cents,
                                 MessageOf(f.message), today);
      (s', Form(Blank, []))
  }

  /** The Confirm button's enabling condition as written: a positive amount
      no larger than the balance on the signed-in user record. That record
      is the snapshot taken at sign-in; contributions do not refresh it. The
      amount still needed is not consulted. */
  predicate ConfirmEnabled(s: State, a: AmountInput)
    ensures ConfirmEnabled(s, a) ==> PositiveAmount(a)
    ensures ConfirmEnabled(s, a) && s.currentUser.Some? ==>
      a.cents <= s.currentUser.value.walletBalance
    ensures PositiveAmount(a) && s.currentUser.None? ==> ConfirmEnabled(s, a)
  {
    PositiveAmount(a) && !(s.currentUser.Some? && a.cents > s.currentUser.value.walletBalance)
  }

  /** An amount above what the gift still needs passes the Confirm check
      as long as the (snapshot) balance covers it. */
  lemma ConfirmAllowsOverfunding(s: State, g: GiftItem, a: AmountInput)
    requires PositiveAmount(a) && a.cents > AmountRemaining(g)
    requires s.currentUser.Some? && a.cents <= s.currentUser.value.walletBalance
    ensures ConfirmEnabled(s, a)
  {
  }

  /** Pressing Confirm with the guard as written: a disabled button does
      nothing. */
  function ConfirmAsWritten(s: State, g: GiftItem, f: Form, today: CalDate): (r: (State, Form))
    ensures !ConfirmEnabled(s, f.amount) ==> r == (s, f)
    ensures ConfirmEnabled(s, f.amount) ==> r == HandleContribute(s, g, f, today)
  {
    if ConfirmEnabled(s, f.amount) then HandleContribute(s, g, f, today) else (s, f)
  }

  /** The balance the Confirm check ought to read: the signed-in user's entry
      in the live user list, which contributions do update. */
  function LiveBalance(s: State): (b: Option<Cents>)
    ensures s.currentUser.None? ==> b.None?
    ensures b.Some? ==> exists u :: u in s.users && u.id == s.currentUser.value.id && b.value == u.walletBalance
  {
    if s.currentUser.None? then None
    else match GetUserById(s, s.currentUser.value.id)
      case None => None
      case Some(u) => Some(u.walletBalance)
  }

  /** The intended Confirm check: a positive amount that the live balance
      covers. */
  predicate ConfirmEnabledLive(s: State, a: AmountInput) {
    PositiveAmount(a) && !(LiveBalance(s).Some? && a.cents > LiveBalance(s).value)
  }

  /** Pressing Confirm with the live balance check. */
  function Confirm(s: State, g: GiftItem, f: Form, today: CalDate): (r: (State, Form))
    ensures !ConfirmEnabledLive(s, f.amount) ==> r == (s, f)
    ensures ConfirmEnabledLive(s, f.amount) ==> r == HandleContribute(s, g, f, today)
  {
    if ConfirmEnabledLive(s, f.amount) then HandleContribute(s, g, f, today) else (s, f)
  }

  /** With the live check, a signed-in user whose id is held by exactly one
      account and who contributes to a gift listed once can never drive
      their balance below zero. */
  lemma ConfirmKeepsBalanceNonNegative(s: State, g: GiftItem, f: Form, today: CalDate, i: nat)
    requires s.currentUser.Some?
    requires i < |s.users| && s.users[i].id == s.currentUser.value.id
    requires Count(s.users, HasUserId(s.users[i].id)) == 1
    requires Count(s.giftItems, HasGiftId(g.id)) <= 1
    requires s.users[i].walletBalance >= 0
    ensures Confirm(s, g, f, today).0.users[i].walletBalance >= 0
  {
    var uid := s.users[i].id;
    if ConfirmEnabledLive(s, f.amount) {
      assert LiveBalance(s) == Some(s.users[i].walletBalance) by {
        OnlyHolder(s.users, uid, i);
        FindAt(s.users, HasUserId(uid), i);
        assert GetUserById(s, uid) == Some(s.users[i]);
      }
      var k := Count(s.giftItems, HasGiftId(g.id));
      assert f.amount.Numeric? && f.amount.cents > 0;
      AtMostOnce(k, f.amount.cents);
      var us := HandleContribute(s, g, f, today).0.users;
      assert us == Debit(s.users, uid, k * f.amount.cents);
      assert us[i].walletBalance == s.users[i].walletBalance - k * f.amount.cents;
    }
  }

  /** A debit taken at most once is no more than the amount. */
  lemma AtMostOnce(k: nat, c: int)
    requires k <= 1 && c >= 0
    ensures k * c <= c
  {
  }

  /** In a list where exactly one element carries the id, no earlier element
      does. */
  lemma OnlyHolder(us: seq<User>, uid: string, i: nat)
    requires i < |us| && us[i].id == uid
    requires Count(us, HasUserId(uid)) == 1
    ensures forall j :: 0 <= j < i ==> !HasUserId(uid)(us[j])
  {
    forall j | 0 <= j < i
      ensures !HasUserId(uid)(us[j])
    {
      if HasUserId(uid)(us[j]) {
        var f := Filter(us, HasUserId(uid));
        assert us[j] in f && us[i] in f;
        TwoHolders(us, uid, j, i);
      }
    }
  }

  /** Two distinct positions carrying the id make the count at least two. */
  lemma TwoHolders(us: seq<User>, uid: string, j: nat, i: nat)
    requires j < i < |us| && us[j].id == uid && us[i].id == uid
    ensures Count(us, HasUserId(uid)) >= 2
  {
    var p := HasUserId(uid);
    FilterAppend(us[..j + 1], us[j + 1..], p);
    assert us[..j + 1] + us[j + 1..] == us;
    assert us[j] in Filter(us[..j + 1], p) by { assert us[..j + 1][j] == us[j]; }
    assert us[i] in Filter(us[j + 1..], p) by { assert us[j + 1..][i - j - 1] == us[i]; }
  }

  /** A single-user, single-gift state gets exactly one debit per
      contribution. */
  lemma OneGiftOneDebit(s: State, g: GiftItem, f: Form, today: CalDate)
    requires s.currentUser.Some? && |s.users| == 1 && s.users[0].id == s.currentUser.value.id
    requires |s.giftItems| == 1 && s.giftItems[0].id == g.id && PositiveAmount(f.amount)
    ensures var r := HandleContribute(s, g, f, today).0;
      && r.currentUser == s.currentUser
      && |r.users| == 1 && r.users[0].id == s.users[0].id
      && r.users[0].walletBalance == s.users[0].walletBalance - f.amount.cents
      && |r.giftItems| == 1 && r.giftItems[0].id == g.id
  {
    assert Count(s.giftItems, HasGiftId(g.id)) == 1 by {
      assert HasGiftId(g.id)(s.giftItems[0]);
    }
  }

  /** The stale snapshot lets repeated contributions overdraw the wallet:
      a single user whose balance covers an amount once but not twice gives
      it twice to the same gift. After the first gift the snapshot still
      shows the old balance, so the guard as written lets the second one
      through and the balance ends negative; the live check refuses the
      second one. */
  lemma StaleSnapshotOverdraws(s: State, g: GiftItem, f: Form, today: CalDate)
    requires s.currentUser.Some? && s.users == [s.currentUser.value]
    requires s.giftItems == [g] && PositiveAmount(f.amount)
    requires f.amount.cents <= s.currentUser.value.walletBalance < 2 * f.amount.cents
    ensures var s1 := ConfirmAsWritten(s, g, f, today).0;
      && ConfirmEnabled(s1, f.amount)
      && ConfirmAsWritten(s1, g, f, today).0.users[0].walletBalance < 0
      && !ConfirmEnabledLive(s1, f.amount)
  {
    OneGiftOneDebit(s, g, f, today);
    var s1 := ConfirmAsWritten(s, g, f, today).0;
    assert s1 == HandleContribute(s, g, f, today).0;
    OneGiftOneDebit(s1, g, f, today);
    assert GetUserById(s1, s1.users[0].id) == Some(s1.users[0]) by {
      FindAt(s1.users, HasUserId(s1.users[0].id), 0);
    }
  }

  /** A concrete instance: 100.00 in the wallet, 100.00 given twice to a
      500.00 gift leaves the wallet at -100.00. */
  lemma StaleSnapshotExample()
    ensures var u := User("user1", "Ann", "ann@example.com", "", None, [], 10000);
      var g := GiftItem("item1", "Lamp", "", 50000, Medium, "", Available, MediumPriority, [], "event1", None);
      var s0 := State(Some(u), [u], [], [g]);
      var f := Form(Numeric(10000), []);
      var d := CalDate(2024, 5, 1);
      ConfirmAsWritten(ConfirmAsWritten(s0, g, f, d).0, g, f, d).0.users[0].walletBalance == -10000
  {
    var u := User("user1", "Ann", "ann@example.com", "", None, [], 10000);
    var g := GiftItem("item1", "Lamp", "", 50000, Medium, "", Available, MediumPriority, [], "event1", None);
    var s0 := State(Some(u), [u], [], [g]);
    var f := Form(Numeric(10000), []);
    var d := CalDate(2024, 5, 1);
    StaleSnapshotOverdraws(s0, g, f, d);
  }
}

=== FILE: gift_progress.dfy ===
/** The funding bar under a gift (src/components/GiftProgress.tsx): the
    percentage shown, the "complete" and "nearly complete" states, the
    contributor badges and the footer line. Amounts are cents; the
    percentage is computed over the reals as JavaScript's floating point
    would, with the three non-finite outcomes a zero price produces. */
module GiftProgress {
  import opened Opt
  import opened Model
  import opened Funding

  /** `Math.min((total / price) * 100, 100)`: a finite value, or minus
      infinity (negative total over a zero price), or NaN (zero over zero).
      Plus infinity never survives the `min`. */
  datatype Percent = Finite(value: real) | NegInfinity | NaN

  /** The percentage funded, capped at 100. */
  function PercentComplete(total: Cents, price: Cents): (p: Percent)
    ensures p.Finite? ==> p.value <= 100.0
    ensures price != 0 ==> p.Finite?
    ensures price > 0 && total >= 0 ==> p.Finite? && 0.0 <= p.value
    ensures price > 0 && total < price ==> p.Finite? && p.value * price as real == total as real * 100.0
    ensures price == 0 ==> (p == NaN <==> total == 0) && (p == NegInfinity <==> total < 0)
    ensures price == 0 && total > 0 ==> p == Finite(100.0)
    ensures price > 0 && total >= price ==> p == Finite(100.0)
  {
    if price == 0 then
      if total > 0 then Finite(100.0)
      else if total < 0 then NegInfinity
      else NaN
    else
      var raw := (total as real / price as real) * 100.0;
      Finite(if raw < 100.0 then raw else 100.0)
  }

  /** `isComplete`: the percentage is at least 100 (false for NaN and minus
      infinity). */
  predicate IsComplete(g: GiftItem) {
    var p := PercentComplete(Total(g), g.price);
    p.Finite? && p.value >= 100.0
  }

  /** `isNearlyComplete`: the percentage is in [85, 100). */
  predicate IsNearlyComplete(g: GiftItem) {
    var p := PercentComplete(Total(g), g.price);
    p.Finite? && 85.0 <= p.value < 100.0
  }

  /** The two highlight states never apply together. */
  lemma CompleteExcludesNearly(g: GiftItem)
    ensures !(IsComplete(g) && IsNearlyComplete(g))
  {
  }

  /** For a positive price the bar's notion of complete is the card's
      notion of fully funded. */
  lemma CompleteIffFullyFunded(g: GiftItem)
    requires g.price > 0
    ensures IsComplete(g) <==> IsFullyFunded(g)
  {
    var t, pr := Total(g) as real, g.price as real;
    if Total(g) < g.price {
      assert t / pr < 1.0 by { DivBelowOne(t, pr); }
    } else {
      assert t / pr >= 1.0 by { DivAtLeastOne(t, pr); }
    }
  }

  lemma DivBelowOne(t: real, p: real)
    requires p > 0.0 && t < p
    ensures t / p < 1.0
  {
  }

  lemma DivAtLeastOne(t: real, p: real)
    requires p > 0.0 && t >= p
    ensures t / p >= 1.0
  {
  }

  /** For a positive price, "nearly complete" means at least 85% but not
      all of the price has been given. */
  lemma NearlyCompleteIff(g: GiftItem)
    requires g.price > 0
    ensures IsNearlyComplete(g) <==> 85 * g.price <= 100 * Total(g) && Total(g) < g.price
  {
    CompleteIffFullyFunded(g);
    var t, pr := Total(g), g.price;
    if t < pr {
      var p := PercentComplete(t, pr);
      assert p.value * pr as real == t as real * 100.0;
      ScaledCompare(p.value, pr as real, t as real);
    }
  }

  lemma ScaledCompare(v: real, pr: real, t: real)
    requires pr > 0.0 && v * pr == t * 100.0
    ensures 85.0 <= v <==> 85.0 * pr <= 100.0 * t
  {
  }

  /** A zero-priced gift with nothing given counts as fully funded on the
      card but not as complete on the bar (its percentage is NaN). */
  lemma ZeroPriceDisagreement(g: GiftItem)
    requires g.price == 0 && Total(g) == 0
    ensures IsFullyFunded(g) && !IsComplete(g) && !IsNearlyComplete(g)
  {
  }

  /** A zero-priced gift that has received money reads as complete on the
      bar, since the infinite ratio is capped at 100, and is fully funded
      on the card. */
  lemma FreeGiftWithMoneyComplete(g: GiftItem)
    requires g.price == 0 && Total(g) > 0
    ensures IsComplete(g) && IsFullyFunded(g) && !IsNearlyComplete(g)
  {
  }

  /** The badge text for one contributor: the user id from its fifth
      character on ("user3" shows "3"); shorter ids show nothing. */
  function BadgeLabel(userId: string): (r: string)
    ensures |userId| >= 4 ==> userId == userId[..4] + r
    ensures |userId| < 4 ==> r == []
  {
    if |userId| < 4 then [] else userId[4..]
  }

  /** The badges: the first five contributors in log order. */
  function Badges(cs: seq<Contribution>): (r: seq<string>)
    ensures |r| == if |cs| < 5 then |cs| else 5
    ensures forall i :: 0 <= i < |r| ==> r[i] == BadgeLabel(cs[i].userId)
  {
    var n := if |cs| < 5 then |cs| else 5;
    seq(n, i requires 0 <= i < n => BadgeLabel(cs[i].userId))
  }

  /** The "+k" bubble after the badges, shown only past five contributors. */
  function Overflow(cs: seq<Contribution>): (r: Option<nat>)
    ensures r.Some? <==> |cs| > 5
    ensures r.Some? ==> r.value > 0
  {
    if |cs| > 5 then Some(|cs| - 5) else None
  }

  /** Every contributor is accounted for exactly once: as a badge or in the
      overflow count. */
  lemma BadgesAccountForAll(cs: seq<Contribution>)
    ensures |Badges(cs)| + Overflow(cs).GetOr(0) == |cs|
  {
  }

  /** The footer line under the badges. */
  datatype Footer = JoyUnlocked | SoClose | HelpWish

  /** The contributions panel: shown only when asked for and when the log
      is non-empty; then the footer follows the bar's state. */
  function FooterOf(g: GiftItem, showContributions: bool): (r: Option<Footer>)
    ensures r.Some? <==> showContributions && |g.contributors| > 0
    ensures r == Some(JoyUnlocked) ==> IsComplete(g)
    ensures r == Some(SoClose) ==> IsNearlyComplete(g)
    ensures r == Some(HelpWish) ==> !IsComplete(g) && !IsNearlyComplete(g)
  {
    if !(showContributions && |g.contributors| > 0) then None
    else if IsComplete(g) then Some(JoyUnlocked)
    else if IsNearlyComplete(g) then Some(SoClose)
    else Some(HelpWish)
  }

  /** The headline: "Fully Funded! \U{1F389}" exactly when complete, otherwise the
      brand name. */
  function Headline(g: GiftItem): (r: string)
    ensures r == "Fully Funded! \U{1F389}" <==> IsComplete(g)
  {
    if IsComplete(g) then "Fully Funded! \U{1F389}" else "WishBloom"
  }
}

=== FILE: grouping.dfy ===
/** Grouping a list into keyed buckets the way the pages build a
    `Record<string, T[]>` with a `forEach`: a bucket is opened the first
    time its key is seen, and each element is pushed onto its bucket.
    Buckets therefore come in order of first appearance (the iteration
    order JavaScript gives non-numeric object keys), and each keeps the
    input's order. */
module Grouping {
  import opened Seqs

  /** The elements whose key is `k`. */
  function KeyIs<T, K(==)>(key: T -> K, k: K): T -> bool {
    (x: T) => key(x) == k
  }

  /** One `forEach` step: push `x` onto the bucket for `k`, opening it at
      the end if it is new. */
  function Push<T, K(==)>(gs: seq<(K, seq<T>)>, k: K, x: T): (r: seq<(K, seq<T>)>)
    requires DistinctKeys(gs)
    requires forall i :: 0 <= i < |gs| ==> gs[i].1 != []
    ensures DistinctKeys(r)
    ensures forall i :: 0 <= i < |r| ==> r[i].1 != []
    ensures |r| == |gs| || |r| == |gs| + 1
    ensures |r| == |gs| + 1 <==> forall i :: 0 <= i < |gs| ==> gs[i].0 != k
    ensures |r| == |gs| + 1 ==> r[..|gs|] == gs && r[|gs|] == (k, [x])
    ensures forall i :: 0 <= i < |gs| ==> r[i].0 == gs[i].0
    ensures forall i :: 0 <= i < |gs| && gs[i].0 == k ==> r[i].1 == gs[i].1 + [x]
    ensures forall i :: 0 <= i < |gs| && gs[i].0 != k ==> r[i].1 == gs[i].1
    decreases |gs|
  {
    if gs == [] then [(k, [x])]
    else if gs[0].0 == k then
      var r := [(k, gs[0].1 + [x])] + gs[1..];
      assert forall i :: 0 < i < |r| ==> r[i] == gs[i];
      r
    else
      var rest := Push(gs[1..], k, x);
      var r := [gs[0]] + rest;
      assert forall i :: 0 < i < |r| ==> r[i] == rest[i - 1];
      assert forall i :: 0 < i < |gs| ==> gs[i] == gs[1..][i - 1];
      r
  }

  /** The buckets of `xs` under `key`. */
  function GroupBy<T, K(==)>(xs: seq<T>, key: T -> K): (r: seq<(K, seq<T>)>)
    ensures |r| <= |xs|
    ensures DistinctKeys(r)
    ensures forall i :: 0 <= i < |r| ==> r[i].1 != []
    decreases |xs|
  {
    if xs == [] then []
    else Push(GroupBy(xs[..|xs| - 1], key), key(xs[|xs| - 1]), xs[|xs| - 1])
  }

  /** The bucket keys are pairwise distinct. */
  predicate DistinctKeys<T, K(==)>(gs: seq<(K, seq<T>)>) {
    forall i, j :: 0 <= i < j < |gs| ==> gs[i].0 != gs[j].0
  }

  /** Each bucket is exactly the input filtered by its key, so it keeps
      the input's order. */
  lemma {:induction false} GroupByBuckets<T, K>(xs: seq<T>, key: T -> K)
    ensures forall i :: 0 <= i < |GroupBy(xs, key)| ==>
      GroupBy(xs, key)[i].1 == Filter(xs, KeyIs(key, GroupBy(xs, key)[i].0))
    decreases |xs|
  {
    if xs != [] {
      var init, x := xs[..|xs| - 1], xs[|xs| - 1];
      var g0 := GroupBy(init, key);
      var g := GroupBy(xs, key);
      GroupByBuckets(init, key);
      assert init + [x] == xs;
      forall i | 0 <= i < |g|
        ensures g[i].1 == Filter(xs, KeyIs(key, g[i].0))
      {
        var p := KeyIs(key, g[i].0);
        FilterAppend(init, [x], p);
        assert Filter([x], p) == (if p(x) then [x] else []) + Filter([], p);
        if i < |g0| {
          assert g[i].0 == g0[i].0;
        } else {
          assert g[i] == (key(x), [x]);
          assert Filter(init, p) == [] by { NoBucketNoMatch(init, key, key(x)); }
        }
      }
    }
  }

  /** A key with no bucket is the key of no element. */
  lemma {:induction false} NoBucketNoMatch<T, K>(xs: seq<T>, key: T -> K, k: K)
    requires forall i :: 0 <= i < |GroupBy(xs, key)| ==> GroupBy(xs, key)[i].0 != k
    ensures Filter(xs, KeyIs(key, k)) == []
    decreases |xs|
  {
    if xs != [] {
      var init, x := xs[..|xs| - 1], xs[|xs| - 1];
      var g0 := GroupBy(init, key);
      assert forall i :: 0 <= i < |g0| ==> g0[i].0 != k by {
        forall i | 0 <= i < |g0|
          ensures g0[i].0 != k
        {
          assert GroupBy(xs, key)[i].0 == g0[i].0;
        }
      }
      NoBucketNoMatch(init, key, k);
      assert key(x) != k by {
        var g := GroupBy(xs, key);
        if |g| == |g0| + 1 {
          assert g[|g0|].0 == key(x);
        } else {
          assert exists i :: 0 <= i < |g0| && g0[i].0 == key(x);
          var i :| 0 <= i < |g0| && g0[i].0 == key(x);
          assert g[i].0 == key(x);
        }
      }
      var p := KeyIs(key, k);
      assert init + [x] == xs;
      FilterAppend(init, [x], p);
      assert Filter([x], p) == (if p(x) then [x] else []) + Filter([], p);
    }
  }

  /** Every element's key has a bucket. */
  lemma {:induction false} EveryKeyHasBucket<T, K>(xs: seq<T>, key: T -> K, j: nat)
    requires j < |xs|
    ensures exists i :: 0 <= i < |GroupBy(xs, key)| && GroupBy(xs, key)[i].0 == key(xs[j])
  {
    var p := KeyIs(key, key(xs[j]));
    assert p(xs[j]);
    assert Filter(xs, p) != [] by {
      assert xs[j] in Filter(xs, p);
    }
    NoBucketMeansNoMatch(xs, key, key(xs[j]));
  }

  /** Every element's key has a bucket, for all elements at once. */
  lemma GroupByCovers<T, K>(xs: seq<T>, key: T -> K)
    ensures forall j :: 0 <= j < |xs| ==>
      exists i :: 0 <= i < |GroupBy(xs, key)| && GroupBy(xs, key)[i].0 == key(xs[j])
  {
    var g := GroupBy(xs, key);
    forall j | 0 <= j < |xs|
      ensures exists i :: 0 <= i < |g| && g[i].0 == key(xs[j])
    {
      EveryKeyHasBucket(xs, key, j);
    }
  }

  /** The contrapositive form: a key carried by an element has a bucket. */
  lemma NoBucketMeansNoMatch<T, K>(xs: seq<T>, key: T -> K, k: K)
    ensures (forall i :: 0 <= i < |GroupBy(xs, key)| ==> GroupBy(xs, key)[i].0 != k)
      ==> Filter(xs, KeyIs(key, k)) == []
  {
    if forall i :: 0 <= i < |GroupBy(xs, key)| ==> GroupBy(xs, key)[i].0 != k {
      NoBucketNoMatch(xs, key, k);
    }
  }

  /** The total number of elements across buckets. */
  function TotalSize<T, K>(gs: seq<(K, seq<T>)>): nat
    decreases |gs|
  {
    if gs == [] then 0 else |gs[0].1| + TotalSize(gs[1..])
  }

  lemma {:induction false} PushAddsOne<T, K>(gs: seq<(K, seq<T>)>, k: K, x: T)
    requires DistinctKeys(gs)
    requires forall i :: 0 <= i < |gs| ==> gs[i].1 != []
    ensures TotalSize(Push(gs, k, x)) == TotalSize(gs) + 1
    decreases |gs|
  {
    if gs != [] && gs[0].0 != k {
      PushAddsOne(gs[1..], k, x);
      assert ([gs[0]] + Push(gs[1..], k, x))[1..] == Push(gs[1..], k, x);
    }
    if gs != [] && gs[0].0 == k {
      assert ([(k, gs[0].1 + [x])] + gs[1..])[1..] == gs[1..];
    }
  }

  /** Every element lands in some bucket exactly once: the bucket sizes add
      up to the input's length. */
  lemma {:induction false} GroupBySize<T, K>(xs: seq<T>, key: T -> K)
    ensures TotalSize(GroupBy(xs, key)) == |xs|
    decreases |xs|
  {
    if xs != [] {
      GroupBySize(xs[..|xs| - 1], key);
      PushAddsOne(GroupBy(xs[..|xs| - 1], key), key(xs[|xs| - 1]), xs[|xs| - 1]);
    }
  }
}

=== FILE: index_page.dfy ===
/** The signed-in home page (src/pages/Index.tsx): every future event in
    date order, and the viewer's own events. */
module IndexPage {
  import opened Opt
  import opened Model
  import opened Seqs
  import opened EventOrder

  /** The event's day starts strictly after now. */
  predicate After(e: Event, now: Moment) {
    MomentBefore(now, StartOf(e.date))
  }

  function AfterNow(now: Moment): Event -> bool {
    (e: Event) => After(e, now)
  }

  /** `upcomingEvents`: all future events, whoever may see them, sorted by
      date. Privacy and membership play no part. */
  function UpcomingEvents(events: seq<Event>, now: Moment): (r: seq<Event>)
    ensures multiset(r) == multiset(Filter(events, AfterNow(now)))
    ensures SortedByDate(r)
  {
    SortByDateSorted(Filter(events, AfterNow(now)));
    SortByDate(Filter(events, AfterNow(now)))
  }

  /** An event is listed exactly when it is one of the events and its day
      starts after now. */
  lemma UpcomingIffFuture(events: seq<Event>, now: Moment, e: Event)
    ensures e in UpcomingEvents(events, now) <==> e in events && After(e, now)
  {
    var f := Filter(events, AfterNow(now));
    assert e in UpcomingEvents(events, now) <==> e in f by {
      assert e in UpcomingEvents(events, now) <==> e in multiset(UpcomingEvents(events, now));
      assert e in f <==> e in multiset(f);
    }
    if e in f {
      var i :| 0 <= i < |f| && f[i] == e;
      assert AfterNow(now)(f[i]);
    }
    if e in events && After(e, now) {
      var i :| 0 <= i < |events| && events[i] == e;
      assert AfterNow(now)(events[i]);
    }
  }

  /** An event dated today is never upcoming here: its day started at or
      before now. */
  lemma TodayIsNotUpcoming(events: seq<Event>, now: Moment, e: Event)
    requires e.date == now.date
    ensures e !in UpcomingEvents(events, now)
  {
    UpcomingIffFuture(events, now, e);
  }

  /** `yourEvents`: the events the viewer created or takes part in, in
      the original order. */
  function YourEvents(events: seq<Event>, viewer: User): (r: seq<Event>)
    ensures forall i :: 0 <= i < |r| ==> Involves(r[i], viewer.id) && r[i] in events
    ensures forall i :: 0 <= i < |events| && Involves(events[i], viewer.id) ==> events[i] in r
  {
    var r := Filter(events, Involving(viewer.id));
    assert forall i :: 0 <= i < |r| ==> Involving(viewer.id)(r[i]);
    r
  }

  /** `yourEvents` keeps the original order: it distributes over
      concatenation like any filter. */
  lemma YourEventsKeepsOrder(a: seq<Event>, b: seq<Event>, viewer: User)
    ensures YourEvents(a + b, viewer) == YourEvents(a, viewer) + YourEvents(b, viewer)
  {
    FilterAppend(a, b, Involving(viewer.id));
  }
}

=== FILE: invite_guests.dfy ===
/** The invite-guests dialog (src/components/InviteGuestsModal.tsx): who
    can be invited, the Friends and Search lists, the selection toggle, the
    e-mail check and the enabling of the send buttons. The simulated
    sending delay is not modelled; a send completes at once. */
module InviteGuests {
  import opened Opt
  import opened Model
  import opened Seqs
  import opened Text

  /** The dialog renders only for a known event and a signed-in user. */
  datatype Dialog = NotRendered | Rendered(event: Event, me: User)

  /** `events.find(e => e.id === eventId)`, then the sign-in guard: the
      first event with that id is shown. */
  function Open(events: seq<Event>, currentUser: Option<User>, eventId: string): (d: Dialog)
    ensures d.NotRendered? <==>
      currentUser.None? || forall i :: 0 <= i < |events| ==> events[i].id != eventId
    ensures d.Rendered? ==> d.event in events && d.event.id == eventId && d.me == currentUser.value
    ensures forall i :: currentUser.Some? && FirstEventAt(events, eventId, i) ==>
      d == Rendered(events[i], currentUser.value)
  {
    var found := Find(events, HasEventId(eventId));
    assert found.None? <==> forall i :: 0 <= i < |events| ==> !HasEventId(eventId)(events[i]);
    forall i | FirstEventAt(events, eventId, i)
      ensures found == Some(events[i])
    {
      FindAt(events, HasEventId(eventId), i);
    }
    if found.None? || currentUser.None? then NotRendered
    else Rendered(found.value, currentUser.value)
  }

  /** Not the signed-in user and not already taking part. */
  predicate IsAvailable(me: User, event: Event, u: User) {
    u.id != me.id && u.id !in event.participants
  }

  function AvailableTo(me: User, event: Event): User -> bool {
    (u: User) => IsAvailable(me, event, u)
  }

  function InFriendsOf(me: User): User -> bool {
    (u: User) => u.id in me.friends
  }

  /** `availableUsers`. */
  function Available(users: seq<User>, me: User, event: Event): seq<User> {
    Filter(users, AvailableTo(me, event))
  }

  /** `friends`: the available users in the signed-in user's friends list. */
  function Friends(users: seq<User>, me: User, event: Event): seq<User> {
    Filter(Available(users, me, event), InFriendsOf(me))
  }

  /** A user is offered for invitation exactly when they are neither the
      signed-in user nor a participant. */
  lemma AvailableIff(users: seq<User>, me: User, event: Event, u: User)
    ensures u in Available(users, me, event) <==> u in users && IsAvailable(me, event, u)
  {
    var p := AvailableTo(me, event);
    if u in users && IsAvailable(me, event, u) {
      var i :| 0 <= i < |users| && users[i] == u;
      assert p(users[i]);
    }
    if u in Available(users, me, event) {
      assert p(u);
    }
  }

  /** The Friends tab lists, in the order of the user list, exactly the
      users who are available and in the friends list. */
  lemma FriendsInUserOrder(users: seq<User>, me: User, event: Event)
    ensures Friends(users, me, event) == Filter(users, And(AvailableTo(me, event), InFriendsOf(me)))
  {
    FilterFilter(users, AvailableTo(me, event), InFriendsOf(me));
  }

  /** Case-insensitive substring match of the name against the term. */
  function NameMatches(term: string): User -> bool {
    (u: User) => Contains(ToLower(u.name), ToLower(term))
  }

  /** `filteredUsers`. */
  function Searched(users: seq<User>, me: User, event: Event, term: string): seq<User> {
    Filter(Available(users, me, event), NameMatches(term))
  }

  /** An empty search term lists every available user. */
  lemma EmptyTermKeepsAll(users: seq<User>, me: User, event: Event)
    ensures Searched(users, me, event, []) == Available(users, me, event)
  {
    var a := Available(users, me, event);
    forall i | 0 <= i < |a|
      ensures NameMatches([])(a[i])
    {
      ContainsEmpty(ToLower(a[i].name));
    }
    FilterAll(a, NameMatches([]));
  }

  /** The search keeps an available user exactly when the lower-cased term
      occurs in the lower-cased name. */
  lemma SearchedIff(users: seq<User>, me: User, event: Event, term: string, u: User)
    ensures u in Searched(users, me, event, term) <==>
      u in Available(users, me, event) && Contains(ToLower(u.name), ToLower(term))
  {
    var a, p := Available(users, me, event), NameMatches(term);
    if u in a && Contains(ToLower(u.name), ToLower(term)) {
      var i :| 0 <= i < |a| && a[i] == u;
      assert p(a[i]);
    }
    if u in Searched(users, me, event, term) {
      assert p(u);
    }
  }

  function IsNot(id: string): string -> bool {
    (x: string) => x != id
  }

  /** `toggleUserSelection`: remove every copy of a selected id, or append
      an unselected one. */
  function Toggle(selected: seq<string>, id: string): (r: seq<string>)
    ensures id in r <==> id !in selected
    ensures forall x :: x != id ==> (x in r <==> x in selected)
  {
    if id in selected then
      var r := Filter(selected, IsNot(id));
      assert forall x :: x != id && x in selected ==> x in r by {
        forall x | x != id && x in selected
          ensures x in r
        {
          var i :| 0 <= i < |selected| && selected[i] == x;
          assert IsNot(id)(selected[i]);
        }
      }
      r
    else selected + [id]
  }

  /** Toggling an id twice gives back the same selected set. */
  lemma ToggleTwiceSameMembers(selected: seq<string>, id: string)
    ensures forall x :: x in Toggle(Toggle(selected, id), id) <==> x in selected
  {
  }

  predicate NoDuplicates(xs: seq<string>) {
    forall i, j :: 0 <= i < j < |xs| ==> xs[i] != xs[j]
  }

  /** Toggling keeps the selection free of duplicates. */
  lemma ToggleKeepsNoDuplicates(selected: seq<string>, id: string)
    requires NoDuplicates(selected)
    ensures NoDuplicates(Toggle(selected, id))
  {
    if id in selected {
      FilterNoDuplicates(selected, IsNot(id));
    }
  }

  lemma {:induction false} FilterNoDuplicates(xs: seq<string>, p: string -> bool)
    requires NoDuplicates(xs)
    ensures NoDuplicates(Filter(xs, p))
    decreases |xs|
  {
    if xs != [] {
      FilterNoDuplicates(xs[1..], p);
      assert xs[0] !in xs[1..];
    }
  }

  /** Selecting an unselected id and unselecting it again restores the
      selection exactly, order included. */
  lemma ToggleTwiceRestores(selected: seq<string>, id: string)
    requires id !in selected
    ensures Toggle(Toggle(selected, id), id) == selected
  {
    FilterAppend(selected, [id], IsNot(id));
    forall i | 0 <= i < |selected|
      ensures IsNot(id)(selected[i])
    {
    }
    FilterAll(selected, IsNot(id));
    assert Filter([id], IsNot(id)) == [] + Filter([], IsNot(id));
  }

  /** What the e-mail invite does with the address typed in. */
  datatype EmailOutcome = InvalidEmail | EmailSent(to: string)

  /** `handleEmailInvite`: the address is refused when its trimmed form is
      empty or when it has no '@'; otherwise the invitation goes out. */
  function HandleEmailInvite(email: string): (r: EmailOutcome)
    ensures r.InvalidEmail? <==>
      (forall i :: 0 <= i < |email| ==> IsSpace(email[i])) || '@' !in email
    ensures r.EmailSent? ==> r.to == email
  {
    TrimEmpty(email);
    if Trim(email) == [] || '@' !in email then InvalidEmail else EmailSent(email)
  }

  /** The e-mail button is enabled when not sending and the field is not
      empty (it does not trim). */
  function EmailButtonEnabled(loading: bool, email: string): (b: bool)
    ensures b ==> !loading && email != []
    ensures !loading && email != [] ==> b
  {
    !loading && email != []
  }

  /** An address of blanks enables the button but is refused on click. */
  lemma BlankEmailEnabledButRefused()
    ensures EmailButtonEnabled(false, "  ")
    ensures HandleEmailInvite("  ").InvalidEmail?
  {
    assert IsSpace(" "[0]);
    assert forall i :: 0 <= i < |"  "| ==> IsSpace("  "[i]);
  }

  /** Send Invitations is enabled only when not sending and at least one
      user is selected. */
  function SendEnabled(loading: bool, selected: seq<string>): (b: bool)
    ensures b ==> !loading && |selected| > 0
    ensures !loading && selected != [] ==> b
  {
    !loading && |selected| != 0
  }

  /** The dialog's form fields. */
  datatype Form = Form(searchTerm: string, email: string, selected: seq<string>)

  /** A completed send: the toast reports the number selected and the
      selection and e-mail are cleared; the search term stays. */
  function InvitationsSent(f: Form): (r: (Form, string))
    ensures r.0.selected == [] && r.0.email == [] && r.0.searchTerm == f.searchTerm
    ensures r.1 == NatToString(|f.selected|) + " invitations sent successfully!"
  {
    (Form(f.searchTerm, [], []), NatToString(|f.selected|) + " invitations sent successfully!")
  }
}

=== FILE: model.dfy ===
/** The records of the gift-pooling app (users, events, gift items and the
    contribution log, wallet transactions, savings plans) as immutable
    datatypes. Money is in integer cents; a calendar day is a
    year/month/day triple; "now" is a day plus the milliseconds elapsed in
    it, so a date-only value is the instant at the start of its day. */
module Model {
  import opened Opt

  /** Money in cents. */
  type Cents = int

  /** A calendar day (month 1..12); days compare lexicographically. */
  datatype CalDate = CalDate(year: int, month: int, day: int)

  predicate DateBefore(a: CalDate, b: CalDate) {
    a.year < b.year
    || (a.year == b.year && a.month < b.month)
    || (a.year == b.year && a.month == b.month && a.day < b.day)
  }

  predicate DateAtMost(a: CalDate, b: CalDate) {
    DateBefore(a, b) || a == b
  }

  /** An instant: a day and the milliseconds since its start. */
  datatype Moment = Moment(date: CalDate, msOfDay: nat)

  /** The instant a date-only string denotes: the start of that day. */
  function StartOf(d: CalDate): Moment {
    Moment(d, 0)
  }

  predicate MomentBefore(a: Moment, b: Moment) {
    DateBefore(a.date, b.date) || (a.date == b.date && a.msOfDay < b.msOfDay)
  }

  datatype EventType = Birthday | Wedding | Housewarming | BabyShower | OtherType
  datatype Privacy = Public | Private
  datatype Rsvp = Yes | No | Maybe
  datatype Category = Small | Medium | Large
  datatype GiftStatus = Available | Reserved | Purchased
  datatype Priority = Low | MediumPriority | High

  /** A wallet owner. `birthday` is `None` where the source stores "". */
  datatype User = User(
    id: string,
    name: string,
    email: string,
    profilePhoto: string,
    birthday: Option<CalDate>,
    friends: seq<string>,
    walletBalance: Cents)

  datatype Event = Event(
    id: string,
    title: string,
    date: CalDate,
    kind: EventType,
    creator: string,
    privacy: Privacy,
    participants: seq<string>,
    rsvp: map<string, Rsvp>,
    description: Option<string>,
    location: Option<string>)

  /** One entry of a gift's append-only contribution log. */
  datatype Contribution = Contribution(
    userId: string,
    amount: Cents,
    date: CalDate,
    message: Option<string>)

  datatype GiftItem = GiftItem(
    id: string,
    title: string,
    description: string,
    price: Cents,
    category: Category,
    url: string,
    status: GiftStatus,
    priority: Priority,
    contributors: seq<Contribution>,
    eventId: string,
    imageUrl: Option<string>)

  /** An amount text field as a handler reads it: empty, not a number, or
      a number (in cents). */
  datatype AmountInput = Blank | NotNumeric | Numeric(cents: Cents)

  /** The amount parses to a positive number, the first thing the
      contribution dialog and the Add Funds button require. */
  predicate PositiveAmount(a: AmountInput) {
    a.Numeric? && a.cents > 0
  }

  datatype TransactionType = Deposit | Withdrawal | ContributionTx

  datatype WalletTransaction = WalletTransaction(
    id: string,
    userId: string,
    amount: Cents,
    kind: TransactionType,
    description: string,
    createdAt: int)

  /** A saving plan's or recurring gift's state; only active ones are
      checked for reminders. */
  datatype PlanStatus = Active | Inactive

  /** A monthly saving plan towards a friend's birthday gift. Times are
      milliseconds since the epoch. */
  datatype BirthdaySavings = BirthdaySavings(
    id: string,
    userId: string,
    friendId: string,
    targetAmount: Cents,
    monthlyAmount: Cents,
    startDate: int,
    endDate: int,
    currentBalance: Cents,
    lastNotificationDate: int,
    status: PlanStatus)

  /** How often a recurring gift is delivered. `OtherFrequency` stands for
      any stored value outside the four the forms offer. */
  datatype Frequency = Daily | Weekly | Monthly | Yearly | OtherFrequency

  datatype RecurringGift = RecurringGift(
    id: string,
    userId: string,
    recipientId: string,
    giftType: string,
    frequency: Frequency,
    startDate: int,
    nextDeliveryDate: int,
    status: PlanStatus)

  /** The user is the event's creator or one of its participants. */
  predicate Involves(e: Event, uid: string) {
    e.creator == uid || uid in e.participants
  }

  function Involving(uid: string): Event -> bool {
    (e: Event) => Involves(e, uid)
  }

  /** The start of the event's day is not before now (a page comparing
      `new Date(event.date) >= new Date()`). An event dated today is
      therefore kept only at the very first instant of the day. */
  predicate NotBefore(e: Event, now: Moment) {
    !MomentBefore(StartOf(e.date), now)
  }

  function NotBeforeNow(now: Moment): Event -> bool {
    (e: Event) => NotBefore(e, now)
  }

  /** `i` is the position of the first user with that id. */
  predicate FirstUserAt(us: seq<User>, id: string, i: int) {
    0 <= i < |us| && us[i].id == id && forall j :: 0 <= j < i ==> us[j].id != id
  }

  /** `i` is the position of the first event with that id. */
  predicate FirstEventAt(es: seq<Event>, id: string, i: int) {
    0 <= i < |es| && es[i].id == id && forall j :: 0 <= j < i ==> es[j].id != id
  }

  function HasUserId(id: string): User -> bool {
    (u: User) => u.id == id
  }

  function HasEventId(id: string): Event -> bool {
    (e: Event) => e.id == id
  }

  function HasGiftId(id: string): GiftItem -> bool {
    (g: GiftItem) => g.id == id
  }
}

=== FILE: notification_dropdown.dfy ===
/** The notification bell (src/components/NotificationDropdown.tsx): the
    unread counter, sender names, and what marking, dismissing, accepting
    and declining do to the list.

    Every handler builds its new list from the list of the render in which
    the click happened and hands it to `setNotifications`. Several such
    calls during one click are applied in order, each replacing the list,
    so only the last one is visible afterwards. A click on Accept or
    Decline also reaches the enclosing row, whose own handler marks the
    notification read from the same list, and runs after the button's. */
module NotificationDropdown {
  import opened Opt
  import opened Model
  import opened Seqs

  datatype NotificationKind = Invitation | Reminder | GiftNotice | OtherKind

  /** One entry of the bell; `from` is `None` for a system notice and
      `date` is in milliseconds. */
  datatype Notification = Notification(
    id: string,
    kind: NotificationKind,
    title: string,
    description: string,
    from: Option<string>,
    date: int,
    isRead: bool,
    requiresAction: bool)

  function IsUnread(): Notification -> bool {
    (n: Notification) => !n.isRead
  }

  /** `unreadCount`. */
  function UnreadCount(ns: seq<Notification>): (c: nat)
    ensures c <= |ns|
    ensures c == 0 <==> forall i :: 0 <= i < |ns| ==> ns[i].isRead
  {
    assert forall i :: 0 <= i < |ns| ==> (IsUnread()(ns[i]) <==> !ns[i].isRead);
    Count(ns, IsUnread())
  }

  /** `getSenderName`: "System" for no sender (or an empty id), the name
      of the first user with that id, else "Unknown User". */
  function SenderName(users: seq<User>, from: Option<string>): (name: string)
    ensures from.None? || from.value == [] ==> name == "System"
    ensures from.Some? && from.value != [] && (forall i :: 0 <= i < |users| ==> users[i].id != from.value) ==>
      name == "Unknown User"
    ensures from.Some? && from.value != [] && (exists i :: 0 <= i < |users| && users[i].id == from.value) ==>
      exists i :: 0 <= i < |users| && users[i].id == from.value && users[i].name == name
        && forall j :: 0 <= j < i ==> users[j].id != from.value
  {
    if from.None? || from.value == [] then "System"
    else
      var id := from.value;
      var u := Find(users, HasUserId(id));
      assert u.None? <==> forall i :: 0 <= i < |users| ==> !HasUserId(id)(users[i]);
      if u.None? then "Unknown User" else u.value.name
  }

  /** `markAsRead`, computed from the list `ns`. */
  function MarkAsRead(ns: seq<Notification>, id: string): (r: seq<Notification>)
    ensures |r| == |ns|
    ensures forall i :: 0 <= i < |ns| ==>
      r[i] == if ns[i].id == id then ns[i].(isRead := true) else ns[i]
  {
    seq(|ns|, i requires 0 <= i < |ns| => if ns[i].id == id then ns[i].(isRead := true) else ns[i])
  }

  /** Marking read changes only the read flag of the entries with that id,
      leaves them read, and keeps the rest as they were. */
  lemma MarkAsReadEffect(ns: seq<Notification>, id: string)
    ensures forall i :: 0 <= i < |ns| && ns[i].id == id ==>
      MarkAsRead(ns, id)[i].isRead && MarkAsRead(ns, id)[i].(isRead := ns[i].isRead) == ns[i]
    ensures forall i :: 0 <= i < |ns| && ns[i].id != id ==> MarkAsRead(ns, id)[i] == ns[i]
  {
  }

  /** Marking read twice is marking read once. */
  lemma MarkAsReadIdempotent(ns: seq<Notification>, id: string)
    ensures MarkAsRead(MarkAsRead(ns, id), id) == MarkAsRead(ns, id)
  {
  }

  /** Marking read never raises the unread count, and lowers it by the
      number of unread entries with that id. */
  lemma {:induction false} MarkAsReadUnread(ns: seq<Notification>, id: string)
    ensures UnreadCount(MarkAsRead(ns, id)) + Count(ns, UnreadWithId(id)) == UnreadCount(ns)
    ensures UnreadCount(MarkAsRead(ns, id)) <= UnreadCount(ns)
    decreases |ns|
  {
    if ns != [] {
      var init, n, m := ns[..|ns| - 1], ns[|ns| - 1], MarkAsRead(ns, id);
      var mi := MarkAsRead(init, id);
      MarkAsReadUnread(init, id);
      MarkAsReadLast(ns, id);
      var was := if n.isRead then 0 else 1;
      var hit := if n.id == id && !n.isRead then 1 else 0;
      assert Count(ns, IsUnread()) == Count(init, IsUnread()) + was by {
        CountLast(ns, IsUnread());
      }
      assert Count(m, IsUnread()) == Count(mi, IsUnread()) + was - hit by {
        CountLast(m, IsUnread());
      }
      assert Count(ns, UnreadWithId(id)) == Count(init, UnreadWithId(id)) + hit by {
        CountLast(ns, UnreadWithId(id));
      }
    }
  }

  /** Marking read commutes with dropping the last entry, and the last
      entry ends up read exactly when it was read or carries the id. */
  lemma MarkAsReadLast(ns: seq<Notification>, id: string)
    requires ns != []
    ensures MarkAsRead(ns, id)[..|ns| - 1] == MarkAsRead(ns[..|ns| - 1], id)
    ensures MarkAsRead(ns, id)[|ns| - 1].isRead <==> ns[|ns| - 1].isRead || ns[|ns| - 1].id == id
  {
  }

  function UnreadWithId(id: string): Notification -> bool {
    (n: Notification) => n.id == id && !n.isRead
  }

  function IdIsNot(id: string): Notification -> bool {
    (n: Notification) => n.id != id
  }

  /** `handleDismiss`, computed from the list `ns`. */
  function Dismiss(ns: seq<Notification>, id: string): seq<Notification> {
    Filter(ns, IdIsNot(id))
  }

  /** Dismissing keeps the other entries in their order: each entry is
      kept or dropped on its own. */
  lemma DismissKeepsOrder(a: seq<Notification>, b: seq<Notification>, n: Notification, id: string)
    ensures Dismiss(a + b, id) == Dismiss(a, id) + Dismiss(b, id)
    ensures Dismiss([n], id) == (if n.id == id then [] else [n])
  {
    FilterAppend(a, b, IdIsNot(id));
    assert IdIsNot(id)(n) == (n.id != id);
  }

  /** Dismissing removes every entry with that id and keeps every other
      entry. */
  lemma DismissIff(ns: seq<Notification>, id: string, n: Notification)
    ensures n in Dismiss(ns, id) <==> n in ns && n.id != id
  {
    if n in ns && n.id != id {
      var i :| 0 <= i < |ns| && ns[i] == n;
      assert IdIsNot(id)(ns[i]);
    }
    if n in Dismiss(ns, id) {
      assert IdIsNot(id)(n);
    }
  }

  /** Dismissing an id that is not in the list keeps the list. */
  lemma DismissAbsent(ns: seq<Notification>, id: string)
    requires forall i :: 0 <= i < |ns| ==> ns[i].id != id
    ensures Dismiss(ns, id) == ns
  {
    forall i | 0 <= i < |ns|
      ensures IdIsNot(id)(ns[i])
    {
    }
    FilterAll(ns, IdIsNot(id));
  }

  /** The update Accept makes to the list `ns`: the action is done. */
  function ClearAction(ns: seq<Notification>, id: string): (r: seq<Notification>)
    ensures |r| == |ns|
    ensures forall i :: 0 <= i < |ns| ==>
      r[i] == if ns[i].id == id then ns[i].(requiresAction := false) else ns[i]
  {
    seq(|ns|, i requires 0 <= i < |ns| => if ns[i].id == id then ns[i].(requiresAction := false) else ns[i])
  }

  /** Lists passed to `setNotifications` in one click, in call order; each
      replaces the list, so the last one is what remains. */
  function Apply(current: seq<Notification>, writes: seq<seq<Notification>>): seq<Notification>
    decreases |writes|
  {
    if writes == [] then current else Apply(writes[0], writes[1..])
  }

  lemma {:induction false} ApplyKeepsLast(current: seq<Notification>, writes: seq<seq<Notification>>)
    ensures Apply(current, writes) == if writes == [] then current else writes[|writes| - 1]
    decreases |writes|
  {
    if writes != [] {
      ApplyKeepsLast(writes[0], writes[1..]);
      if |writes| > 1 {
        assert writes[1..][|writes[1..]| - 1] == writes[|writes| - 1];
      }
    }
  }

  /** The writes of the Accept button's handler alone: mark read, then
      clear the action, both from `ns`. */
  function AcceptHandlerWrites(ns: seq<Notification>, id: string): seq<seq<Notification>> {
    [MarkAsRead(ns, id), ClearAction(ns, id)]
  }

  /** The writes of the Decline button's handler alone: mark read, then
      dismiss, both from `ns`. */
  function DeclineHandlerWrites(ns: seq<Notification>, id: string): seq<seq<Notification>> {
    [MarkAsRead(ns, id), Dismiss(ns, id)]
  }

  /** The write of the row the button sits in. */
  function RowWrites(ns: seq<Notification>, id: string): seq<seq<Notification>> {
    [MarkAsRead(ns, id)]
  }

  /** Accept's handler on its own clears the action but loses the read
      mark it asked for first. */
  lemma AcceptHandlerLosesRead(ns: seq<Notification>, id: string)
    ensures Apply(ns, AcceptHandlerWrites(ns, id)) == ClearAction(ns, id)
    ensures forall i :: 0 <= i < |ns| ==> Apply(ns, AcceptHandlerWrites(ns, id))[i].isRead == ns[i].isRead
  {
    ApplyKeepsLast(ns, AcceptHandlerWrites(ns, id));
  }

  /** Decline's handler on its own comes down to dismissing. */
  lemma DeclineHandlerDismisses(ns: seq<Notification>, id: string)
    ensures Apply(ns, DeclineHandlerWrites(ns, id)) == Dismiss(ns, id)
  {
    ApplyKeepsLast(ns, DeclineHandlerWrites(ns, id));
  }

  /** A click on Accept as written: the button's writes, then the row's. */
  function AcceptClickAsWritten(ns: seq<Notification>, id: string): (r: seq<Notification>)
    ensures r == MarkAsRead(ns, id)
  {
    ApplyKeepsLast(ns, AcceptHandlerWrites(ns, id) + RowWrites(ns, id));
    Apply(ns, AcceptHandlerWrites(ns, id) + RowWrites(ns, id))
  }

  /** A click on Decline as written: the button's writes, then the row's. */
  function DeclineClickAsWritten(ns: seq<Notification>, id: string): (r: seq<Notification>)
    ensures r == MarkAsRead(ns, id)
  {
    ApplyKeepsLast(ns, DeclineHandlerWrites(ns, id) + RowWrites(ns, id));
    Apply(ns, DeclineHandlerWrites(ns, id) + RowWrites(ns, id))
  }

  /** As written, Accept leaves the action pending and Decline leaves the
      invitation in the list: both merely mark it read. */
  lemma ClickAsWrittenKeepsInvitation(ns: seq<Notification>, id: string, i: nat)
    requires i < |ns| && ns[i].id == id && ns[i].requiresAction
    ensures AcceptClickAsWritten(ns, id)[i].requiresAction
    ensures ns[i].(isRead := true) in DeclineClickAsWritten(ns, id)
  {
  }

  /** The concrete case: an unread invitation that needs an answer. */
  lemma ClickAsWrittenExample()
    ensures var n := Notification("1", Invitation, "Housewarming Party", "", Some("user2"), 0, false, true);
      && AcceptClickAsWritten([n], "1") == [n.(isRead := true)]
      && DeclineClickAsWritten([n], "1") == [n.(isRead := true)]
  {
  }

  /** Accept as intended: the invitation is read and its action done. */
  function Accept(ns: seq<Notification>, id: string): (r: seq<Notification>)
    ensures |r| == |ns|
    ensures forall i :: 0 <= i < |ns| && ns[i].id == id ==>
      r[i].isRead && !r[i].requiresAction
      && r[i].(isRead := ns[i].isRead, requiresAction := ns[i].requiresAction) == ns[i]
    ensures forall i :: 0 <= i < |ns| && ns[i].id != id ==> r[i] == ns[i]
  {
    ClearAction(MarkAsRead(ns, id), id)
  }

  /** Decline as intended: the invitation is gone. */
  function Decline(ns: seq<Notification>, id: string): (r: seq<Notification>)
    ensures forall i :: 0 <= i < |r| ==> r[i].id != id && r[i] in ns
    ensures forall i :: 0 <= i < |ns| && ns[i].id != id ==> ns[i] in r
    ensures r == Dismiss(ns, id)
  {
    DismissMarked(ns, id);
    var r := Dismiss(MarkAsRead(ns, id), id);
    assert forall i :: 0 <= i < |ns| && ns[i].id != id ==> IdIsNot(id)(ns[i]);
    r
  }

  /** Marking read before dismissing makes no difference: the marked
      entries are the dismissed ones. */
  lemma {:induction false} DismissMarked(ns: seq<Notification>, id: string)
    ensures Dismiss(MarkAsRead(ns, id), id) == Dismiss(ns, id)
    decreases |ns|
  {
    if ns != [] {
      var m := MarkAsRead(ns, id);
      DismissMarked(ns[1..], id);
      assert m[1..] == MarkAsRead(ns[1..], id);
      assert IdIsNot(id)(m[0]) == IdIsNot(id)(ns[0]);
    }
  }
}

=== FILE: notification_service.dfy ===
/** The reminder service (src/services/notificationService.ts): which
    active saving plans and recurring gifts of a user are due a reminder,
    the reminder texts, and the record updates that go with them. The
    database is modelled as the two tables before and after; "now" is a
    parameter. */
module NotificationService {
  import opened Opt
  import opened Model
  import opened Seqs
  import opened Text
  import opened SavingsService

  /** Whole days from `a` to `b`: `Math.floor((b - a) / day)`. With a
      positive divisor Dafny's division already rounds down. */
  function WholeDays(a: int, b: int): (n: int)
    ensures n * DayMs <= b - a < (n + 1) * DayMs
  {
    (b - a) / DayMs
  }

  /** The rows the service reads: this user's active records. */
  function SavingsOf(userId: string): BirthdaySavings -> bool {
    (s: BirthdaySavings) => s.userId == userId && s.status == Active
  }

  function GiftsOf(userId: string): RecurringGift -> bool {
    (g: RecurringGift) => g.userId == userId && g.status == Active
  }

  /** A saving plan is due once 30 whole days have passed since its last
      reminder. */
  predicate SavingsDue(s: BirthdaySavings, now: int) {
    WholeDays(s.lastNotificationDate, now) >= 30
  }

  /** Thirty whole days means at least thirty days of milliseconds. */
  lemma SavingsDueIff(s: BirthdaySavings, now: int)
    ensures SavingsDue(s, now) <==> now - s.lastNotificationDate >= 30 * DayMs
  {
    var n := WholeDays(s.lastNotificationDate, now);
    if n >= 30 {
      assert n * DayMs >= 30 * DayMs;
    } else {
      assert (n + 1) * DayMs <= 30 * DayMs;
    }
  }

  /** A plan just created is not due. */
  lemma NewPlanNotDue(id: string, draft: BirthdaySavings, now: int)
    ensures !SavingsDue(NewBirthdaySavings(id, draft, now), now)
  {
    SavingsDueIff(NewBirthdaySavings(id, draft, now), now);
  }

  /** A recurring gift is due when its next delivery is at most one whole
      day away, which includes every delivery already past. */
  predicate GiftDue(g: RecurringGift, now: int) {
    WholeDays(now, g.nextDeliveryDate) <= 1
  }

  lemma GiftDueIff(g: RecurringGift, now: int)
    ensures GiftDue(g, now) <==> g.nextDeliveryDate - now < 2 * DayMs
  {
    var n := WholeDays(now, g.nextDeliveryDate);
    if n <= 1 {
      assert (n + 1) * DayMs <= 2 * DayMs;
    } else {
      assert n * DayMs >= 2 * DayMs;
    }
  }

  /** A reminder: its kind, title, message and the record it is about. */
  datatype Subject = SavingsSubject(plan: BirthdaySavings) | GiftSubject(gift: RecurringGift)
  datatype Reminder = Reminder(title: string, message: string, about: Subject)

  /** A number of cents as JavaScript writes the dollar amount: no
      decimals for whole dollars, trailing zeros dropped otherwise. */
  function DollarText(c: Cents): (t: string)
    ensures t != []
    ensures c >= 0 && c % 100 == 0 ==> t == NatToString(c / 100)
    ensures c < 0 <==> t[0] == '-'
    ensures '.' in t ==> t[|t| - 1] != '0'
  {
    if c < 0 then "-" + UnsignedDollars(-c) else UnsignedDollars(c)
  }

  /** The text of a non-negative amount: dollars, then a point and one or
      two decimals when the cents are not zero, never ending in zero. */
  function UnsignedDollars(m: nat): (t: string)
    ensures t != [] && IsDigit(t[0])
    ensures m % 100 == 0 ==> t == NatToString(m / 100)
    ensures '.' in t ==> t[|t| - 1] != '0'
  {
    var whole := NatToString(m / 100);
    var cents := m % 100;
    if cents == 0 then whole
    else if cents % 10 == 0 then
      DigitRoundTrip(cents / 10);
      whole + "." + [DigitChar(cents / 10)]
    else
      DigitRoundTrip(cents % 10);
      whole + "." + [DigitChar(cents / 10), DigitChar(cents % 10)]
  }

  predicate AllDigits(t: string) {
    forall i :: 0 <= i < |t| ==> IsDigit(t[i])
  }

  /** Reads an amount written with at most two decimals: an optional
      minus, digits, and an optional point with one or two digits. */
  function ReadDollars(t: string): (r: Option<int>) {
    if t != [] && t[0] == '-' then
      match ReadUnsigned(t[1..])
      case None => None
      case Some(v) => Some(-(v as int))
    else
      match ReadUnsigned(t)
      case None => None
      case Some(v) => Some(v as int)
  }

  function ReadUnsigned(t: string): Option<nat> {
    if t != [] && AllDigits(t) then Some(ParseNat(t) * 100)
    else if |t| >= 3 && t[|t| - 2] == '.' && AllDigits(t[..|t| - 2]) && IsDigit(t[|t| - 1]) then
      Some(ParseNat(t[..|t| - 2]) * 100 + DigitValue(t[|t| - 1]) * 10)
    else if |t| >= 4 && t[|t| - 3] == '.' && AllDigits(t[..|t| - 3])
         && IsDigit(t[|t| - 2]) && IsDigit(t[|t| - 1]) then
      Some(ParseNat(t[..|t| - 3]) * 100 + DigitValue(t[|t| - 2]) * 10 + DigitValue(t[|t| - 1]))
    else None
  }

  lemma ReadWhole(w: string)
    requires w != [] && AllDigits(w)
    ensures ReadUnsigned(w) == Some(ParseNat(w) * 100)
  {
  }

  lemma ReadOneDecimal(w: string, d: nat)
    requires w != [] && AllDigits(w) && d < 10
    ensures ReadUnsigned(w + "." + [DigitChar(d)]) == Some(ParseNat(w) * 100 + d * 10)
  {
    var t := w + "." + [DigitChar(d)];
    assert !IsDigit(t[|w|]);
    assert t[..|t| - 2] == w;
    DigitRoundTrip(d);
  }

  lemma ReadTwoDecimals(w: string, d1: nat, d2: nat)
    requires w != [] && AllDigits(w) && d1 < 10 && d2 < 10
    ensures ReadUnsigned(w + "." + [DigitChar(d1), DigitChar(d2)]) == Some(ParseNat(w) * 100 + d1 * 10 + d2)
  {
    var t := w + "." + [DigitChar(d1), DigitChar(d2)];
    assert !IsDigit(t[|w|]);
    assert t[|t| - 2] == DigitChar(d1) && t[|t| - 2] != '.';
    assert t[..|t| - 3] == w;
    DigitRoundTrip(d1);
    DigitRoundTrip(d2);
  }

  /** A minus in front negates what the rest reads as. */
  lemma ReadSigned(u: string)
    requires u != [] && IsDigit(u[0]) && ReadUnsigned(u).Some?
    ensures ReadDollars(u) == Some(ReadUnsigned(u).value as int)
    ensures ReadDollars("-" + u) == Some(-(ReadUnsigned(u).value as int))
  {
    assert ("-" + u)[1..] == u;
  }

  /** Reading the text of a non-negative amount gives the amount back. */
  lemma UnsignedRoundTrip(m: nat)
    ensures ReadUnsigned(UnsignedDollars(m)) == Some(m)
  {
    var whole := NatToString(m / 100);
    var cents := m % 100;
    NatToStringRoundTrip(m / 100);
    if cents == 0 {
      ReadWhole(whole);
    } else if cents % 10 == 0 {
      ReadOneDecimal(whole, cents / 10);
    } else {
      ReadTwoDecimals(whole, cents / 10, cents % 10);
    }
  }

  /** Reading the reminder's dollar text gives the cents back, so no
      precision is lost in the message. */
  lemma DollarTextRoundTrip(c: Cents)
    ensures ReadDollars(DollarText(c)) == Some(c)
  {
    var m: nat := if c < 0 then -c else c;
    var u := UnsignedDollars(m);
    UnsignedRoundTrip(m);
    ReadSigned(u);
  }

  function SavingsMessage(s: BirthdaySavings): string {
    "It's time to save $" + DollarText(s.monthlyAmount) + " for " + s.friendId + "'s birthday gift."
  }

  function GiftMessage(g: RecurringGift): string {
    "It's time to order " + g.giftType + " for " + g.recipientId + "."
  }

  function SavingsReminder(s: BirthdaySavings): (r: Reminder)
    ensures r.title == "Monthly Savings Reminder" && r.about == SavingsSubject(s)
  {
    Reminder("Monthly Savings Reminder", SavingsMessage(s), SavingsSubject(s))
  }

  function GiftReminder(g: RecurringGift): (r: Reminder)
    ensures r.title == "Gift Delivery Reminder" && r.about == GiftSubject(g)
  {
    Reminder("Gift Delivery Reminder", GiftMessage(g), GiftSubject(g))
  }

  /** The reminders for a list of read saving plans, in order. */
  function SavingsReminders(rows: seq<BirthdaySavings>, now: int): (r: seq<Reminder>)
    ensures |r| <= |rows|
    ensures forall i :: 0 <= i < |r| ==>
      r[i].about.SavingsSubject? && r[i].about.plan in rows && SavingsDue(r[i].about.plan, now)
    decreases |rows|
  {
    if rows == [] then []
    else
      var rest := SavingsReminders(rows[1..], now);
      if SavingsDue(rows[0], now) then [SavingsReminder(rows[0])] + rest else rest
  }

  /** Every due plan gets its reminder: the reminders are the due plans,
      one each, in order. */
  lemma {:induction false} SavingsRemindersAreDuePlans(rows: seq<BirthdaySavings>, now: int)
    ensures |SavingsReminders(rows, now)| == |Filter(rows, DueAt(now))|
    ensures forall i :: 0 <= i < |SavingsReminders(rows, now)| ==>
      SavingsReminders(rows, now)[i] == SavingsReminder(Filter(rows, DueAt(now))[i])
    decreases |rows|
  {
    if rows != [] {
      SavingsRemindersAreDuePlans(rows[1..], now);
      assert DueAt(now)(rows[0]) == SavingsDue(rows[0], now);
      var r, f := SavingsReminders(rows, now), Filter(rows, DueAt(now));
      var r1, f1 := SavingsReminders(rows[1..], now), Filter(rows[1..], DueAt(now));
      if SavingsDue(rows[0], now) {
        assert r == [SavingsReminder(rows[0])] + r1 && f == [rows[0]] + f1;
        forall i | 0 <= i < |r|
          ensures r[i] == SavingsReminder(f[i])
        {
          if i > 0 {
            assert r[i] == r1[i - 1] && f[i] == f1[i - 1];
          }
        }
      } else {
        assert r == r1 && f == f1;
      }
    }
  }

  function DueAt(now: int): BirthdaySavings -> bool {
    (s: BirthdaySavings) => SavingsDue(s, now)
  }

  /** The plan table after the checks: every row whose id is that of a
      reminded plan has its last reminder moved to now. */
  function MarkReminded(table: seq<BirthdaySavings>, reminded: set<string>, now: int): (r: seq<BirthdaySavings>)
    ensures |r| == |table|
    ensures forall i :: 0 <= i < |table| ==>
      r[i] == if table[i].id in reminded then table[i].(lastNotificationDate := now) else table[i]
  {
    seq(|table|, i requires 0 <= i < |table| =>
      if table[i].id in reminded then table[i].(lastNotificationDate := now) else table[i])
  }

  /** `checkBirthdaySavingsNotifications`: the reminders for this user's
      active plans that are due, and the table with those plans marked. */
  function CheckSavings(table: seq<BirthdaySavings>, userId: string, now: int): (r: (seq<Reminder>, seq<BirthdaySavings>))
    ensures forall i :: 0 <= i < |r.0| ==>
      && r.0[i].about.SavingsSubject?
      && r.0[i].about.plan in table && r.0[i].about.plan.userId == userId
      && r.0[i].about.plan.status == Active && SavingsDue(r.0[i].about.plan, now)
  {
    var rows := Filter(table, SavingsOf(userId));
    var rs := SavingsReminders(rows, now);
    assert forall i :: 0 <= i < |rs| ==> SavingsOf(userId)(rs[i].about.plan);
    (rs, MarkReminded(table, set i | 0 <= i < |rs| :: rs[i].about.plan.id, now))
  }

  /** Every due active plan of the user is reminded. */
  lemma DuePlanIsReminded(table: seq<BirthdaySavings>, userId: string, now: int, p: BirthdaySavings)
    requires p in table && p.userId == userId && p.status == Active && SavingsDue(p, now)
    ensures SavingsReminder(p) in CheckSavings(table, userId, now).0
  {
    var rows := Filter(table, SavingsOf(userId));
    assert p in rows by {
      var i :| 0 <= i < |table| && table[i] == p;
      assert SavingsOf(userId)(table[i]);
    }
    var f := Filter(rows, DueAt(now));
    assert p in f by {
      var i :| 0 <= i < |rows| && rows[i] == p;
      assert DueAt(now)(rows[i]);
    }
    var j :| 0 <= j < |f| && f[j] == p;
    SavingsRemindersAreDuePlans(rows, now);
    assert SavingsReminders(rows, now)[j] == SavingsReminder(p);
  }

  /** A reminded plan is not due again straight away: after the update its
      next reminder is thirty days off. */
  lemma RemindedPlanNotDueAgain(table: seq<BirthdaySavings>, userId: string, now: int, i: nat)
    requires i < |table|
    requires table[i].id in (set j | 0 <= j < |CheckSavings(table, userId, now).0| ::
      CheckSavings(table, userId, now).0[j].about.plan.id)
    ensures CheckSavings(table, userId, now).1[i].lastNotificationDate == now
    ensures !SavingsDue(CheckSavings(table, userId, now).1[i], now)
  {
    SavingsDueIff(CheckSavings(table, userId, now).1[i], now);
  }

  /** The delivery date a reminded gift is moved to: one period after the
      old one, even if that is still before now. */
  function AdvanceOnce(cal: Calendar, g: RecurringGift): (r: RecurringGift)
    requires MovesForward(cal)
    ensures r == g.(nextDeliveryDate := Step(cal, g.frequency, g.nextDeliveryDate))
    ensures !g.frequency.OtherFrequency? ==> r.nextDeliveryDate > g.nextDeliveryDate
  {
    g.(nextDeliveryDate := Step(cal, g.frequency, g.nextDeliveryDate))
  }

  /** One step may leave an overdue delivery in the past: a daily gift
      three days overdue is still two days overdue afterwards, and due
      again. */
  lemma OverdueStaysOverdue(cal: Calendar, g: RecurringGift, now: int)
    requires MovesForward(cal)
    requires g.frequency == Daily && g.nextDeliveryDate == now - 3 * DayMs
    ensures GiftDue(g, now)
    ensures AdvanceOnce(cal, g).nextDeliveryDate == now - 2 * DayMs
    ensures GiftDue(AdvanceOnce(cal, g), now)
  {
    GiftDueIff(g, now);
    GiftDueIff(AdvanceOnce(cal, g), now);
  }

  /** `checkRecurringGiftNotifications`, for the rows read: the reminders
      for the due gifts, in order, and each due gift advanced once. */
  function CheckGifts(cal: Calendar, rows: seq<RecurringGift>, now: int): (r: (seq<Reminder>, seq<RecurringGift>))
    requires MovesForward(cal)
    ensures |r.0| == |r.1| <= |rows|
    ensures forall i :: 0 <= i < |r.0| ==>
      && r.0[i].about.GiftSubject?
      && r.0[i].about.gift in rows && GiftDue(r.0[i].about.gift, now)
      && r.1[i] == AdvanceOnce(cal, r.0[i].about.gift)
    decreases |rows|
  {
    if rows == [] then ([], [])
    else
      var rest := CheckGifts(cal, rows[1..], now);
      if GiftDue(rows[0], now) then ([GiftReminder(rows[0])] + rest.0, [AdvanceOnce(cal, rows[0])] + rest.1)
      else rest
  }

  /** A gift that is due is reminded. */
  lemma {:induction false} DueGiftIsReminded(cal: Calendar, rows: seq<RecurringGift>, now: int, g: RecurringGift)
    requires MovesForward(cal)
    requires g in rows && GiftDue(g, now)
    ensures GiftReminder(g) in CheckGifts(cal, rows, now).0
    decreases |rows|
  {
    if rows[0] != g {
      DueGiftIsReminded(cal, rows[1..], now, g);
    }
  }

  function GiftDueAt(now: int): RecurringGift -> bool {
    (g: RecurringGift) => GiftDue(g, now)
  }

  /** The gift reminders are the due gifts, one each, in order. */
  lemma {:induction false} GiftRemindersAreDueGifts(cal: Calendar, rows: seq<RecurringGift>, now: int)
    requires MovesForward(cal)
    ensures |CheckGifts(cal, rows, now).0| == |Filter(rows, GiftDueAt(now))|
    ensures forall i :: 0 <= i < |CheckGifts(cal, rows, now).0| ==>
      CheckGifts(cal, rows, now).0[i] == GiftReminder(Filter(rows, GiftDueAt(now))[i])
    decreases |rows|
  {
    if rows != [] {
      GiftRemindersAreDueGifts(cal, rows[1..], now);
      assert GiftDueAt(now)(rows[0]) == GiftDue(rows[0], now);
      var r, f := CheckGifts(cal, rows, now).0, Filter(rows, GiftDueAt(now));
      var r1, f1 := CheckGifts(cal, rows[1..], now).0, Filter(rows[1..], GiftDueAt(now));
      if GiftDue(rows[0], now) {
        assert r == [GiftReminder(rows[0])] + r1 && f == [rows[0]] + f1;
        forall i | 0 <= i < |r|
          ensures r[i] == GiftReminder(f[i])
        {
          if i > 0 {
            assert r[i] == r1[i - 1] && f[i] == f1[i - 1];
          }
        }
      } else {
        assert r == r1 && f == f1;
      }
    }
  }

  /** `checkAllNotifications`: the saving reminders, then the gift
      reminders. Each check reads its own clock. */
  function CheckAll(cal: Calendar, savings: seq<BirthdaySavings>, gifts: seq<RecurringGift>,
                    userId: string, nowSavings: int, nowGifts: int): (r: seq<Reminder>)
    requires MovesForward(cal)
    ensures |r| == |CheckSavings(savings, userId, nowSavings).0|
      + |CheckGifts(cal, Filter(gifts, GiftsOf(userId)), nowGifts).0|
    ensures forall i :: 0 <= i < |r| ==>
      (r[i].about.SavingsSubject? <==> i < |CheckSavings(savings, userId, nowSavings).0|)
    ensures r[..|CheckSavings(savings, userId, nowSavings).0|] == CheckSavings(savings, userId, nowSavings).0
    ensures r[|CheckSavings(savings, userId, nowSavings).0|..]
      == CheckGifts(cal, Filter(gifts, GiftsOf(userId)), nowGifts).0
  {
    CheckSavings(savings, userId, nowSavings).0 + CheckGifts(cal, Filter(gifts, GiftsOf(userId)), nowGifts).0
  }

  /** The user's active plans that are due, in table order. */
  function DuePlans(savings: seq<BirthdaySavings>, userId: string, now: int): seq<BirthdaySavings> {
    Filter(Filter(savings, SavingsOf(userId)), DueAt(now))
  }

  /** The user's active gifts that are due, in table order. */
  function DueGifts(gifts: seq<RecurringGift>, userId: string, now: int): seq<RecurringGift> {
    Filter(Filter(gifts, GiftsOf(userId)), GiftDueAt(now))
  }

  /** All the user's reminders in the order the tables list them: first
      one per active due plan of the user, then one per active due gift of
      the user, and nothing else. */
  lemma CheckAllInSourceOrder(cal: Calendar, savings: seq<BirthdaySavings>, gifts: seq<RecurringGift>,
                              userId: string, nowSavings: int, nowGifts: int)
    requires MovesForward(cal)
    ensures |CheckAll(cal, savings, gifts, userId, nowSavings, nowGifts)|
      == |DuePlans(savings, userId, nowSavings)| + |DueGifts(gifts, userId, nowGifts)|
    ensures forall i :: 0 <= i < |DuePlans(savings, userId, nowSavings)| ==>
      CheckAll(cal, savings, gifts, userId, nowSavings, nowGifts)[i]
        == SavingsReminder(DuePlans(savings, userId, nowSavings)[i])
    ensures forall i :: 0 <= i < |DueGifts(gifts, userId, nowGifts)| ==>
      CheckAll(cal, savings, gifts, userId, nowSavings, nowGifts)[|DuePlans(savings, userId, nowSavings)| + i]
        == GiftReminder(DueGifts(gifts, userId, nowGifts)[i])
  {
    var sv := CheckSavings(savings, userId, nowSavings).0;
    var gf := CheckGifts(cal, Filter(gifts, GiftsOf(userId)), nowGifts).0;
    SavingsPartInOrder(savings, userId, nowSavings);
    GiftsPartInOrder(cal, gifts, userId, nowGifts);
    JoinedInOrder(CheckAll(cal, savings, gifts, userId, nowSavings, nowGifts), sv, gf,
      DuePlans(savings, userId, nowSavings), DueGifts(gifts, userId, nowGifts));
  }

  /** The savings reminders are the user's due plans, one each, in order. */
  lemma SavingsPartInOrder(savings: seq<BirthdaySavings>, userId: string, now: int)
    ensures |CheckSavings(savings, userId, now).0| == |DuePlans(savings, userId, now)|
    ensures forall i :: 0 <= i < |CheckSavings(savings, userId, now).0| ==>
      CheckSavings(savings, userId, now).0[i] == SavingsReminder(DuePlans(savings, userId, now)[i])
  {
    CheckSavingsReminders(savings, userId, now);
    SavingsRemindersAreDuePlans(Filter(savings, SavingsOf(userId)), now);
  }

  /** The gift reminders are the user's due gifts, one each, in order. */
  lemma GiftsPartInOrder(cal: Calendar, gifts: seq<RecurringGift>, userId: string, now: int)
    requires MovesForward(cal)
    ensures |CheckGifts(cal, Filter(gifts, GiftsOf(userId)), now).0| == |DueGifts(gifts, userId, now)|
    ensures forall i :: 0 <= i < |CheckGifts(cal, Filter(gifts, GiftsOf(userId)), now).0| ==>
      CheckGifts(cal, Filter(gifts, GiftsOf(userId)), now).0[i] == GiftReminder(DueGifts(gifts, userId, now)[i])
  {
    GiftRemindersAreDueGifts(cal, Filter(gifts, GiftsOf(userId)), now);
  }

  /** The reminders of the savings check are those of the user's active
      plans. */
  lemma CheckSavingsReminders(table: seq<BirthdaySavings>, userId: string, now: int)
    ensures CheckSavings(table, userId, now).0 == SavingsReminders(Filter(table, SavingsOf(userId)), now)
  {
  }

  /** Two lists of reminders, each matching its records one for one, stay
      matched when joined. */
  lemma JoinedInOrder(r: seq<Reminder>, sv: seq<Reminder>, gf: seq<Reminder>,
                      plans: seq<BirthdaySavings>, due: seq<RecurringGift>)
    requires r == sv + gf
    requires |sv| == |plans| && |gf| == |due|
    requires forall i :: 0 <= i < |sv| ==> sv[i] == SavingsReminder(plans[i])
    requires forall i :: 0 <= i < |gf| ==> gf[i] == GiftReminder(due[i])
    ensures |r| == |plans| + |due|
    ensures forall i :: 0 <= i < |plans| ==> r[i] == SavingsReminder(plans[i])
    ensures forall i :: 0 <= i < |due| ==> r[|plans| + i] == GiftReminder(due[i])
  {
  }
}

=== FILE: option.dfy ===
/** The optional value used wherever the source yields `undefined`/`null`
    (a failed lookup, an absent message, no signed-in user). */
module Opt {

  datatype Option<+T> = None | Some(value: T) {

    /** Returns the wrapped value, or `default` when there is none. */
    function GetOr(default: T): T {
      match this
      case Some(v) => v
      case None => default
    }
  }
}

=== FILE: profile.dfy ===
/** The profile page (src/pages/Profile.tsx): which user is shown, the
    grouping of their connections, and the hosted/attending split of their
    events. */
module ProfilePage {
  import opened Opt
  import opened Model
  import opened Seqs
  import opened AppContext

  /** The three connection groups. The split is positional: the first two
      friends are shown as family, the rest as friends, and there are never
      colleagues. */
  datatype Relationships = Relationships(family: seq<string>, friend: seq<string>, colleague: seq<string>)

  function RelationshipsOf(friends: seq<string>): (r: Relationships)
    ensures r.family + r.friend + r.colleague == friends
    ensures |r.family| == if |friends| < 2 then |friends| else 2
    ensures r.colleague == []
  {
    var k := if |friends| < 2 then |friends| else 2;
    assert friends[..k] + friends[k..] + [] == friends;
    Relationships(friends[..k], friends[k..], [])
  }

  /** The "No connections yet" message: all three groups are empty. */
  predicate NoConnections(r: Relationships) {
    |r.family + r.friend + r.colleague| == 0
  }

  lemma NoConnectionsIffNoFriends(u: User)
    ensures NoConnections(RelationshipsOf(u.friends)) <==> u.friends == []
  {
  }

  /** The user hosts the event. */
  function Hosts(uid: string): Event -> bool {
    (e: Event) => e.creator == uid
  }

  /** The user is invited to an event someone else hosts. */
  function Attends(uid: string): Event -> bool {
    (e: Event) => e.creator != uid && uid in e.participants
  }

  /** `userEvents`: the events the user creates or takes part in, in the
      original order. */
  function UserEvents(events: seq<Event>, uid: string): (r: seq<Event>)
    ensures forall i :: 0 <= i < |r| ==> Involves(r[i], uid) && r[i] in events
    ensures forall i :: 0 <= i < |events| && Involves(events[i], uid) ==> events[i] in r
  {
    var r := Filter(events, Involving(uid));
    assert forall i :: 0 <= i < |r| ==> Involving(uid)(r[i]);
    r
  }

  /** `userEvents` keeps the original order: each event is kept or
      dropped on its own, and the kept ones stay where they were. */
  lemma UserEventsKeepsOrder(a: seq<Event>, b: seq<Event>, e: Event, uid: string)
    ensures UserEvents(a + b, uid) == UserEvents(a, uid) + UserEvents(b, uid)
    ensures UserEvents([e], uid) == (if Involves(e, uid) then [e] else [])
  {
    FilterAppend(a, b, Involving(uid));
    assert Involving(uid)(e) == Involves(e, uid);
  }

  function HostedEvents(events: seq<Event>, uid: string): seq<Event> {
    Filter(UserEvents(events, uid), Hosts(uid))
  }

  function AttendingEvents(events: seq<Event>, uid: string): seq<Event> {
    Filter(UserEvents(events, uid), Attends(uid))
  }

  /** No event is both hosted and attended. */
  lemma HostedAttendingDisjoint(events: seq<Event>, uid: string, i: nat, j: nat)
    requires i < |HostedEvents(events, uid)| && j < |AttendingEvents(events, uid)|
    ensures HostedEvents(events, uid)[i] != AttendingEvents(events, uid)[j]
  {
    assert Hosts(uid)(HostedEvents(events, uid)[i]);
    assert Attends(uid)(AttendingEvents(events, uid)[j]);
  }

  /** Within the user's events, attending is exactly not hosting. */
  lemma AttendsIsNotHosts(events: seq<Event>, uid: string)
    ensures AttendingEvents(events, uid) == Filter(UserEvents(events, uid), Not(Hosts(uid)))
  {
    var us := UserEvents(events, uid);
    assert forall i :: 0 <= i < |us| ==> Attends(uid)(us[i]) == Not(Hosts(uid))(us[i]) by {
      forall i | 0 <= i < |us|
        ensures Attends(uid)(us[i]) == Not(Hosts(uid))(us[i])
      {
        assert Involves(us[i], uid);
      }
    }
    FilterCongruent(us, Attends(uid), Not(Hosts(uid)));
  }

  /** Hosted and attending together are the user's events: every event
      lands on exactly one side. */
  lemma HostedAttendingPartition(events: seq<Event>, uid: string)
    ensures multiset(HostedEvents(events, uid)) + multiset(AttendingEvents(events, uid))
      == multiset(UserEvents(events, uid))
    ensures |HostedEvents(events, uid)| + |AttendingEvents(events, uid)| == |UserEvents(events, uid)|
  {
    AttendsIsNotHosts(events, uid);
    FilterPartition(UserEvents(events, uid), Hosts(uid));
    FilterPartitionSize(UserEvents(events, uid), Hosts(uid));
  }

  /** What the page shows. */
  datatype ProfileView = SignInRequired | UserNotFound | Shown(user: User, isCurrentUser: bool)

  /** The profile shown for the route's user id, or for the signed-in user
      when the route has none. Signed-out visitors are asked to sign in
      first; an unknown id shows "User Not Found". "Edit Profile" is
      offered exactly when the shown user is the signed-in one. */
  function ProfileOf(s: State, routeId: Option<string>): (r: ProfileView)
    ensures s.currentUser.None? <==> r == SignInRequired
    ensures r == UserNotFound <==>
      s.currentUser.Some? && routeId.Some? && GetUserById(s, routeId.value).None?
    ensures s.currentUser.Some? && routeId.None? ==> r == Shown(s.currentUser.value, true)
    ensures r.Shown? && routeId.Some? ==> r.user in s.users && r.user.id == routeId.value
    ensures r.Shown? ==> (r.isCurrentUser <==> r.user.id == s.currentUser.value.id)
  {
    if s.currentUser.None? then SignInRequired
    else
      var shown := if routeId.Some? then GetUserById(s, routeId.value) else s.currentUser;
      match shown
      case None => UserNotFound
      case Some(u) => Shown(u, u.id == s.currentUser.value.id)
  }
}

=== FILE: savings_service.dfy ===
/** The saving-plan and recurring-gift service (src/services/savingsService.ts):
    the fields a new record is stored with, and the next delivery date of a
    recurring gift, found by stepping from its start date until it is past
    now. The database calls are left out; the store assigns ids, so the id
    is a parameter. */
module SavingsService {
  import opened Model

  const DayMs: int := 86400000

  /** Adding a month or a year to an instant, as `setMonth`/`setFullYear`
      do. Their day-overflow rules are not modelled: only that each moves
      an instant strictly forward. */
  datatype Calendar = Calendar(addMonth: int -> int, addYear: int -> int)

  ghost predicate MovesForward(cal: Calendar) {
    (forall t :: cal.addMonth(t) > t) && (forall t :: cal.addYear(t) > t)
  }

  /** One delivery period after `t`. An unknown frequency matches no case
      of the `switch`, and the date stays where it is. */
  function Step(cal: Calendar, f: Frequency, t: int): (r: int)
    requires MovesForward(cal)
    ensures f.OtherFrequency? <==> r == t
    ensures !f.OtherFrequency? ==> r > t
    ensures f == Daily ==> r == t + DayMs
    ensures f == Weekly ==> r == t + 7 * DayMs
  {
    match f
    case Daily => t + DayMs
    case Weekly => t + 7 * DayMs
    case Monthly => cal.addMonth(t)
    case Yearly => cal.addYear(t)
    case OtherFrequency => t
  }

  /** `k` periods after `start`. */
  function Steps(cal: Calendar, f: Frequency, start: int, k: nat): int
    requires MovesForward(cal)
  {
    if k == 0 then start else Step(cal, f, Steps(cal, f, start, k - 1))
  }

  /** Stepping is strictly increasing in the number of steps. */
  lemma {:induction false} StepsIncrease(cal: Calendar, f: Frequency, start: int, j: nat, k: nat)
    requires MovesForward(cal) && !f.OtherFrequency? && j < k
    ensures Steps(cal, f, start, j) < Steps(cal, f, start, k)
    decreases k
  {
    if j < k - 1 {
      StepsIncrease(cal, f, start, j, k - 1);
    }
  }

  /** `calculateNextDeliveryDate`: the first of start, start + 1 period,
      start + 2 periods, ... that is after now. An unknown frequency with a
      start not after now never advances, so the source's loop never ends;
      such calls are excluded. */
  method NextDeliveryDate(cal: Calendar, start: int, f: Frequency, now: int) returns (d: int, ghost k: nat)
    requires MovesForward(cal)
    requires f.OtherFrequency? ==> start > now
    ensures d > now
    ensures d == Steps(cal, f, start, k)
    ensures forall j :: 0 <= j < k ==> Steps(cal, f, start, j) <= now
    ensures start > now ==> d == start && k == 0
  {
    d, k := start, 0;
    while d <= now
      invariant d == Steps(cal, f, start, k)
      invariant forall j :: 0 <= j < k ==> Steps(cal, f, start, j) <= now
      invariant start > now ==> k == 0
      decreases now - d
    {
      d, k := Step(cal, f, d), k + 1;
    }
  }

  /** The date found is the only one with those two properties: any number
      of steps that lands after now while all earlier ones do not is the
      same number. */
  lemma FirstAfterIsUnique(cal: Calendar, f: Frequency, start: int, now: int, k1: nat, k2: nat)
    requires MovesForward(cal)
    requires Steps(cal, f, start, k1) > now && forall j :: 0 <= j < k1 ==> Steps(cal, f, start, j) <= now
    requires Steps(cal, f, start, k2) > now && forall j :: 0 <= j < k2 ==> Steps(cal, f, start, j) <= now
    ensures k1 == k2
  {
  }

  /** With an unknown frequency no number of steps moves the date: from a
      start not after now the loop's condition stays true for ever. */
  lemma {:induction false} UnknownFrequencyNeverAdvances(cal: Calendar, start: int, k: nat)
    requires MovesForward(cal)
    ensures Steps(cal, OtherFrequency, start, k) == start
    decreases k
  {
    if k > 0 {
      UnknownFrequencyNeverAdvances(cal, start, k - 1);
    }
  }

  /** Daily steps add whole days: `n + 1` steps are `n + 1` days. */
  lemma {:induction false} DailyStepsAreDays(cal: Calendar, start: int, n: nat)
    requires MovesForward(cal)
    ensures Steps(cal, Daily, start, n + 1) == start + (n + 1) * DayMs
    decreases n
  {
    if n > 0 {
      DailyStepsAreDays(cal, start, n - 1);
    }
  }

  /** `createBirthdaySavings`: the caller's fields, with nothing saved yet,
      the last reminder dated now, and the plan active whatever status the
      caller gave. */
  function NewBirthdaySavings(id: string, draft: BirthdaySavings, now: int): (s: BirthdaySavings)
    ensures s.currentBalance == 0 && s.lastNotificationDate == now && s.status == Active
    ensures s.id == id
    ensures s.(id := draft.id, currentBalance := draft.currentBalance,
               lastNotificationDate := draft.lastNotificationDate, status := draft.status) == draft
  {
    draft.(id := id, currentBalance := 0, lastNotificationDate := now, status := Active)
  }

  /** `createRecurringGift`: the caller's fields, active, with the next
      delivery computed from the start date and frequency. */
  method NewRecurringGift(cal: Calendar, id: string, draft: RecurringGift, now: int) returns (g: RecurringGift)
    requires MovesForward(cal)
    requires draft.frequency.OtherFrequency? ==> draft.startDate > now
    ensures g.status == Active && g.id == id
    ensures g.nextDeliveryDate > now
    ensures exists k: nat :: g.nextDeliveryDate == Steps(cal, draft.frequency, draft.startDate, k)
    ensures draft.startDate > now ==> g.nextDeliveryDate == draft.startDate
    ensures g.(id := draft.id, nextDeliveryDate := draft.nextDeliveryDate, status := draft.status) == draft
  {
    var next;
    ghost var k;
    next, k := NextDeliveryDate(cal, draft.startDate, draft.frequency, now);
    g := draft.(id := id, nextDeliveryDate := next, status := Active);
  }
}

=== FILE: seqs.dfy ===
/** Order-preserving queries over sequences: the `filter`, `find` and
    `filter(...).length` idioms the components use on arrays. */
module Seqs {
  import opened Opt

  /** The elements of `xs` that satisfy `p`, in their original order. */
  function Filter<T>(xs: seq<T>, p: T -> bool): (r: seq<T>)
    ensures |r| <= |xs|
    ensures forall i :: 0 <= i < |r| ==> p(r[i])
    ensures forall i :: 0 <= i < |r| ==> r[i] in xs
    ensures forall i :: 0 <= i < |xs| && p(xs[i]) ==> xs[i] in r
    decreases |xs|
  {
    if xs == [] then []
    else
      assert xs == [xs[0]] + xs[1..];
      (if p(xs[0]) then [xs[0]] else []) + Filter(xs[1..], p)
  }

  /** The complement of a predicate. */
  function Not<T>(p: T -> bool): T -> bool
  {
    x => !p(x)
  }

  /** Number of elements satisfying `p`. */
  function Count<T>(xs: seq<T>, p: T -> bool): (n: nat)
    ensures n <= |xs|
    ensures n == 0 <==> forall i :: 0 <= i < |xs| ==> !p(xs[i])
  {
    var f := Filter(xs, p);
    assert |f| > 0 ==> f[0] in xs && p(f[0]);
    |f|
  }

  /** Filtering distributes over concatenation, so the order of the
      surviving elements is exactly the order of the input. */
  lemma {:induction false} FilterAppend<T>(a: seq<T>, b: seq<T>, p: T -> bool)
    ensures Filter(a + b, p) == Filter(a, p) + Filter(b, p)
    decreases |a|
  {
    if a == [] {
      assert a + b == b;
    } else {
      assert (a + b)[1..] == a[1..] + b;
      assert (a + b)[0] == a[0];
      FilterAppend(a[1..], b, p);
    }
  }

  /** A predicate and its complement split a sequence: every element goes to
      exactly one side. */
  lemma {:induction false} FilterPartition<T>(xs: seq<T>, p: T -> bool)
    ensures multiset(Filter(xs, p)) + multiset(Filter(xs, Not(p))) == multiset(xs)
    decreases |xs|
  {
    if xs != [] {
      FilterPartition(xs[1..], p);
      FilterConsSplit(xs, p);
      MultisetConsSplit(xs[0], Filter(xs[1..], p), Filter(xs[1..], Not(p)), xs[1..], p(xs[0]));
      assert [xs[0]] + xs[1..] == xs;
    }
  }

  /** One unfolding of `Filter` for a predicate and for its complement. */
  lemma FilterConsSplit<T>(xs: seq<T>, p: T -> bool)
    requires xs != []
    ensures Filter(xs, p) == (if p(xs[0]) then [xs[0]] else []) + Filter(xs[1..], p)
    ensures Filter(xs, Not(p)) == (if p(xs[0]) then [] else [xs[0]]) + Filter(xs[1..], Not(p))
  {
  }

  /** Sending one element to one of two sides keeps the multiset balance. */
  lemma MultisetConsSplit<T>(x: T, a: seq<T>, b: seq<T>, r: seq<T>, left: bool)
    requires multiset(a) + multiset(b) == multiset(r)
    ensures multiset((if left then [x] else []) + a) + multiset((if left then [] else [x]) + b)
      == multiset([x] + r)
  {
  }

  /** The two sides of a partition have sizes adding up to the whole. */
  lemma FilterPartitionSize<T>(xs: seq<T>, p: T -> bool)
    ensures |Filter(xs, p)| + |Filter(xs, Not(p))| == |xs|
  {
    FilterPartition(xs, p);
    var a, b := Filter(xs, p), Filter(xs, Not(p));
    assert |multiset(a) + multiset(b)| == |multiset(xs)|;
  }

  /** Filtering with a predicate every element satisfies keeps everything. */
  lemma {:induction false} FilterAll<T>(xs: seq<T>, p: T -> bool)
    requires forall i :: 0 <= i < |xs| ==> p(xs[i])
    ensures Filter(xs, p) == xs
    decreases |xs|
  {
    if xs != [] {
      FilterAll(xs[1..], p);
    }
  }

  /** Filtering with a predicate no element satisfies keeps nothing. */
  lemma {:induction false} FilterNone<T>(xs: seq<T>, p: T -> bool)
    requires forall i :: 0 <= i < |xs| ==> !p(xs[i])
    ensures Filter(xs, p) == []
    decreases |xs|
  {
    if xs != [] {
      FilterNone(xs[1..], p);
    }
  }

  /** A sequence whose first n elements all fail `p` and whose remaining
      elements all satisfy it filters to those remaining elements. */
  lemma FilterSuffix<T>(xs: seq<T>, n: nat, p: T -> bool)
    requires n <= |xs|
    requires forall k :: 0 <= k < n ==> !p(xs[k])
    requires forall k :: n <= k < |xs| ==> p(xs[k])
    ensures Filter(xs, p) == xs[n..]
  {
    var a, b := xs[..n], xs[n..];
    assert Filter(xs, p) == Filter(a, p) + Filter(b, p) by {
      assert xs == a + b;
      FilterAppend(a, b, p);
    }
    assert Filter(a, p) == [] by { FilterPrefixNone(xs, n, p); }
    assert Filter(b, p) == b by { FilterSuffixAll(xs, n, p); }
  }

  lemma FilterPrefixNone<T>(xs: seq<T>, n: nat, p: T -> bool)
    requires n <= |xs|
    requires forall k :: 0 <= k < n ==> !p(xs[k])
    ensures Filter(xs[..n], p) == []
  {
    assert forall k :: 0 <= k < n ==> !p(xs[..n][k]) by {
      forall k | 0 <= k < n
        ensures !p(xs[..n][k])
      {
        assert xs[..n][k] == xs[k];
      }
    }
    FilterNone(xs[..n], p);
  }

  lemma FilterSuffixAll<T>(xs: seq<T>, n: nat, p: T -> bool)
    requires n <= |xs|
    requires forall k :: n <= k < |xs| ==> p(xs[k])
    ensures Filter(xs[n..], p) == xs[n..]
  {
    assert forall j :: 0 <= j < |xs| - n ==> p(xs[n..][j]) by {
      forall j | 0 <= j < |xs| - n
        ensures p(xs[n..][j])
      {
        assert xs[n..][j] == xs[n + j];
      }
    }
    FilterAll(xs[n..], p);
  }

  /** The filter is non-empty exactly when some element satisfies the
      predicate. */
  lemma FilterNonEmptyIff<T>(xs: seq<T>, p: T -> bool)
    ensures Filter(xs, p) != [] <==> exists i :: 0 <= i < |xs| && p(xs[i])
  {
    if exists i :: 0 <= i < |xs| && p(xs[i]) {
      var i :| 0 <= i < |xs| && p(xs[i]);
      assert xs[i] in Filter(xs, p);
    }
    if Filter(xs, p) != [] {
      var f := Filter(xs, p);
      assert p(f[0]) && f[0] in xs;
    }
  }

  /** Both predicates at once. */
  function And<T>(p: T -> bool, q: T -> bool): T -> bool
  {
    x => p(x) && q(x)
  }

  /** Filtering twice is filtering once by both predicates. */
  lemma {:induction false} FilterFilter<T>(xs: seq<T>, p: T -> bool, q: T -> bool)
    ensures Filter(Filter(xs, p), q) == Filter(xs, And(p, q))
    decreases |xs|
  {
    if xs != [] {
      FilterFilter(xs[1..], p, q);
      var head := if p(xs[0]) then [xs[0]] else [];
      assert Filter(xs, p) == head + Filter(xs[1..], p);
      FilterAppend(head, Filter(xs[1..], p), q);
      if p(xs[0]) {
        assert head[1..] == [];
        assert Filter(head, q) == (if q(xs[0]) then [xs[0]] else []) + Filter([], q);
      }
      assert And(p, q)(xs[0]) == (p(xs[0]) && q(xs[0]));
    }
  }

  /** Two predicates that agree on every element filter alike. */
  lemma {:induction false} FilterCongruent<T>(xs: seq<T>, p: T -> bool, q: T -> bool)
    requires forall i :: 0 <= i < |xs| ==> p(xs[i]) == q(xs[i])
    ensures Filter(xs, p) == Filter(xs, q)
    decreases |xs|
  {
    if xs != [] {
      assert p(xs[0]) == q(xs[0]);
      assert forall i :: 0 <= i < |xs[1..]| ==> p(xs[1..][i]) == q(xs[1..][i]) by {
        forall i | 0 <= i < |xs[1..]|
          ensures p(xs[1..][i]) == q(xs[1..][i])
        {
          assert xs[1..][i] == xs[i + 1];
        }
      }
      FilterCongruent(xs[1..], p, q);
    }
  }

  /** Three predicates of which every element satisfies exactly one split
      a sequence three ways: the filtered sizes add up to the whole. */
  lemma {:induction false} FilterThreeWay<T>(xs: seq<T>, p: T -> bool, q: T -> bool, r: T -> bool)
    requires forall i :: 0 <= i < |xs| ==>
      (if p(xs[i]) then 1 else 0) + (if q(xs[i]) then 1 else 0) + (if r(xs[i]) then 1 else 0) == 1
    ensures |Filter(xs, p)| + |Filter(xs, q)| + |Filter(xs, r)| == |xs|
    decreases |xs|
  {
    if xs != [] {
      assert forall i :: 0 <= i < |xs[1..]| ==>
        (if p(xs[1..][i]) then 1 else 0) + (if q(xs[1..][i]) then 1 else 0) + (if r(xs[1..][i]) then 1 else 0) == 1 by {
        forall i | 0 <= i < |xs[1..]|
          ensures (if p(xs[1..][i]) then 1 else 0) + (if q(xs[1..][i]) then 1 else 0) + (if r(xs[1..][i]) then 1 else 0) == 1
        {
          assert xs[1..][i] == xs[i + 1];
        }
      }
      FilterThreeWay(xs[1..], p, q, r);
      assert (if p(xs[0]) then 1 else 0) + (if q(xs[0]) then 1 else 0) + (if r(xs[0]) then 1 else 0) == 1;
    }
  }

  /** Counting over a sequence extended at the end. */
  lemma CountSnoc<T>(xs: seq<T>, x: T, p: T -> bool)
    ensures Count(xs + [x], p) == Count(xs, p) + (if p(x) then 1 else 0)
  {
    FilterAppend(xs, [x], p);
    assert Filter([x], p) == (if p(x) then [x] else []) + Filter([], p);
  }

  /** Counting over a non-empty sequence split before its last element. */
  lemma CountLast<T>(xs: seq<T>, p: T -> bool)
    requires xs != []
    ensures Count(xs, p) == Count(xs[..|xs| - 1], p) + (if p(xs[|xs| - 1]) then 1 else 0)
  {
    assert xs[..|xs| - 1] + [xs[|xs| - 1]] == xs;
    CountSnoc(xs[..|xs| - 1], xs[|xs| - 1], p);
  }

  /** Index of the first element satisfying `p` (JavaScript `findIndex`). */
  function FindIndex<T>(xs: seq<T>, p: T -> bool): (r: Option<nat>)
    ensures r.None? <==> forall i :: 0 <= i < |xs| ==> !p(xs[i])
    ensures r.Some? ==> r.value < |xs| && p(xs[r.value])
    ensures r.Some? ==> forall j :: 0 <= j < r.value ==> !p(xs[j])
    decreases |xs|
  {
    if xs == [] then None
    else if p(xs[0]) then Some(0)
    else match FindIndex(xs[1..], p)
      case None => None
      case Some(i) => Some(i + 1)
  }

  /** The first element satisfying `p` (JavaScript `find`). */
  function Find<T>(xs: seq<T>, p: T -> bool): (r: Option<T>)
    ensures r.None? <==> forall i :: 0 <= i < |xs| ==> !p(xs[i])
    ensures r.Some? ==> exists i :: (0 <= i < |xs| && xs[i] == r.value && p(r.value)
      && forall j :: 0 <= j < i ==> !p(xs[j]))
  {
    match FindIndex(xs, p)
    case None => None
    case Some(i) => Some(xs[i])
  }

  /** A fact about `Find` used by callers: when the first match is at index
      `i`, `Find` returns `xs[i]`. */
  lemma FindAt<T>(xs: seq<T>, p: T -> bool, i: nat)
    requires i < |xs| && p(xs[i])
    requires forall j :: 0 <= j < i ==> !p(xs[j])
    ensures Find(xs, p) == Some(xs[i])
  {
  }
}

=== FILE: sorting.dfy ===
/** Ordering events by date, as the pages do with
    `sort((a, b) => new Date(a.date).getTime() - new Date(b.date).getTime())`.
    JavaScript's sort is stable; the model is an insertion sort that puts
    each event after every earlier one with the same or an earlier date,
    which is stable too. */
module EventOrder {
  import opened Model

  /** Ascending by date. */
  predicate SortedByDate(es: seq<Event>) {
    forall i, j :: 0 <= i < j < |es| ==> DateAtMost(es[i].date, es[j].date)
  }

  /** No event in the list is dated before `d`. */
  predicate AllFrom(es: seq<Event>, d: CalDate) {
    forall i :: 0 <= i < |es| ==> DateAtMost(d, es[i].date)
  }

  /** Insert `e` into a list, after every leading event not later than it. */
  function InsertByDate(e: Event, es: seq<Event>): (r: seq<Event>)
    ensures |r| == |es| + 1
    ensures multiset(r) == multiset(es) + multiset{e}
    decreases |es|
  {
    if es == [] then [e]
    else if DateBefore(e.date, es[0].date) then [e] + es
    else
      assert es == [es[0]] + es[1..];
      [es[0]] + InsertByDate(e, es[1..])
  }

  /** A lower bound of the list and of the new event bounds the result. */
  lemma {:induction false} InsertKeepsBound(e: Event, es: seq<Event>, d: CalDate)
    requires AllFrom(es, d) && DateAtMost(d, e.date)
    ensures AllFrom(InsertByDate(e, es), d)
    decreases |es|
  {
    if es != [] && !DateBefore(e.date, es[0].date) {
      InsertKeepsBound(e, es[1..], d);
    }
  }

  /** Inserting into a sorted list keeps it sorted. */
  lemma {:induction false} InsertSorted(e: Event, es: seq<Event>)
    requires SortedByDate(es)
    ensures SortedByDate(InsertByDate(e, es))
    decreases |es|
  {
    if es != [] {
      if DateBefore(e.date, es[0].date) {
        assert AllFrom(es, es[0].date);
      } else {
        var rest := InsertByDate(e, es[1..]);
        assert AllFrom(es[1..], es[0].date);
        InsertKeepsBound(e, es[1..], es[0].date);
        InsertSorted(e, es[1..]);
        assert InsertByDate(e, es) == [es[0]] + rest;
      }
    }
  }

  /** The events in ascending date order: each event in turn is inserted
      after the ones already placed that are not later than it. */
  function SortByDate(es: seq<Event>): (r: seq<Event>)
    ensures |r| == |es|
    ensures multiset(r) == multiset(es)
    decreases |es|
  {
    if es == [] then []
    else
      assert es == es[..|es| - 1] + [es[|es| - 1]];
      InsertByDate(es[|es| - 1], SortByDate(es[..|es| - 1]))
  }

  /** The sort's result is ascending. */
  lemma {:induction false} SortByDateSorted(es: seq<Event>)
    ensures SortedByDate(SortByDate(es))
    decreases |es|
  {
    if es != [] {
      SortByDateSorted(es[..|es| - 1]);
      InsertSorted(es[|es| - 1], SortByDate(es[..|es| - 1]));
    }
  }

  /** A sorted list has a sorted prefix. */
  lemma SortedPrefix(es: seq<Event>, n: nat)
    requires SortedByDate(es) && n <= |es|
    ensures SortedByDate(es[..n])
  {
  }
}

=== FILE: text.dfy ===
/** String helpers the components rely on: decimal rendering of counters
    (`${n}`), ASCII lower-casing, substring search, splitting on a
    character and whitespace trimming. Strings are `seq<char>`. */
module Text {

  predicate IsDigit(c: char) {
    '0' <= c <= '9'
  }

  function DigitChar(d: nat): (c: char)
    requires d < 10
    ensures IsDigit(c)
  {
    ['0', '1', '2', '3', '4', '5', '6', '7', '8', '9'][d]
  }

  function DigitValue(c: char): (d: nat)
    requires IsDigit(c)
    ensures d < 10
  {
    (c as int - '0' as int) as nat
  }

  /** Decimal rendering of a natural number, as JavaScript's template
      literal `${n}` produces it: no sign, no leading zeros. */
  function NatToString(n: nat): (s: string)
    ensures |s| >= 1
    ensures forall i :: 0 <= i < |s| ==> IsDigit(s[i])
    ensures n >= 10 ==> s[0] != '0'
    decreases n
  {
    if n < 10 then [DigitChar(n)] else NatToString(n / 10) + [DigitChar(n % 10)]
  }

  /** Reads a non-empty run of decimal digits back as a number. */
  function ParseNat(s: string): nat
    requires forall i :: 0 <= i < |s| ==> IsDigit(s[i])
    decreases |s|
  {
    if s == [] then 0 else ParseNat(s[..|s| - 1]) * 10 + DigitValue(s[|s| - 1])
  }

  lemma DigitRoundTrip(d: nat)
    requires d < 10
    ensures DigitValue(DigitChar(d)) == d
  {
  }

  /** Rendering then reading a counter gives it back, so distinct counters
      render to distinct strings. */
  lemma {:induction false} NatToStringRoundTrip(n: nat)
    ensures ParseNat(NatToString(n)) == n
    decreases n
  {
    var s := NatToString(n);
    if n < 10 {
      DigitRoundTrip(n);
      assert s[..|s| - 1] == [];
    } else {
      NatToStringRoundTrip(n / 10);
      DigitRoundTrip(n % 10);
      assert s[..|s| - 1] == NatToString(n / 10);
    }
  }

  lemma NatToStringInjective(m: nat, n: nat)
    requires NatToString(m) == NatToString(n)
    ensures m == n
  {
    NatToStringRoundTrip(m);
    NatToStringRoundTrip(n);
  }

  /** ASCII lower-casing; other characters are left as they are. */
  function LowerChar(c: char): char {
    if 'A' <= c <= 'Z' then (c as int + 32) as char else c
  }

  function ToLower(s: string): (r: string)
    ensures |r| == |s|
    ensures forall i :: 0 <= i < |s| ==> r[i] == LowerChar(s[i])
  {
    seq(|s|, i requires 0 <= i < |s| => LowerChar(s[i]))
  }

  /** `hay.includes(needle)`: some window of `hay` equals `needle`. */
  predicate Contains(hay: string, needle: string) {
    exists i :: 0 <= i <= |hay| - |needle| && OccursAt(hay, needle, i)
  }

  predicate OccursAt(hay: string, needle: string, i: int)
    requires 0 <= i <= |hay| - |needle|
  {
    hay[i..i + |needle|] == needle
  }

  lemma ContainsEmpty(hay: string)
    ensures Contains(hay, [])
  {
    assert OccursAt(hay, [], 0);
  }

  /** `s.split(sep)`: the pieces between occurrences of `sep`, empty pieces
      included; there is always at least one piece. */
  function Split(s: string, sep: char): (parts: seq<string>)
    ensures |parts| >= 1
    decreases |s|
  {
    if s == [] then [[]]
    else if s[0] == sep then [[]] + Split(s[1..], sep)
    else
      var rest := Split(s[1..], sep);
      [[s[0]] + rest[0]] + rest[1..]
  }

  /** Whitespace as `String.prototype.trim` removes it: tab, vertical tab,
      form feed, the byte-order mark, the line terminators (line feed,
      carriage return, U+2028, U+2029) and every space separator of
      Unicode category Zs. */
  predicate IsSpace(c: char) {
    c == ' ' || c == '\t' || c == '\n' || c == '\r' || c == '\U{000B}' || c == '\U{000C}'
    || c == '\U{00A0}' || c == '\U{FEFF}' || c == '\U{2028}' || c == '\U{2029}'
    || c == '\U{1680}' || ('\U{2000}' <= c <= '\U{200A}')
    || c == '\U{202F}' || c == '\U{205F}' || c == '\U{3000}'
  }

  function TrimStart(s: string): (r: string)
    ensures |r| <= |s|
    ensures r == s[|s| - |r|..]
    ensures r != [] ==> !IsSpace(r[0])
    ensures forall i :: 0 <= i < |s| - |r| ==> IsSpace(s[i])
    decreases |s|
  {
    if s != [] && IsSpace(s[0]) then TrimStart(s[1..]) else s
  }

  function TrimEnd(s: string): (r: string)
    ensures |r| <= |s|
    ensures r == s[..|r|]
    ensures r != [] ==> !IsSpace(r[|r| - 1])
    ensures forall i :: |r| <= i < |s| ==> IsSpace(s[i])
    decreases |s|
  {
    if s != [] && IsSpace(s[|s| - 1]) then TrimEnd(s[..|s| - 1]) else s
  }

  /** `s.trim()`. */
  function Trim(s: string): string {
    TrimEnd(TrimStart(s))
  }

  /** Trimming leaves nothing exactly when the string is all whitespace. */
  lemma TrimEmpty(s: string)
    ensures Trim(s) == [] <==> forall i :: 0 <= i < |s| ==> IsSpace(s[i])
  {
    var a := TrimStart(s);
    if a != [] {
      assert s[|s| - |a|] == a[0];
    }
  }
}

=== FILE: user_avatar.dfy ===
/** The avatar (src/components/UserAvatar.tsx): the initials shown when no
    photo loads, and the optional hover card with up to five friend
    avatars and a "+k" counter for the rest. */
module UserAvatar {
  import opened Opt
  import opened Model
  import opened Text
  import opened Seqs
  import opened AppContext

  /** The first character of a piece, or nothing for an empty piece (where
      indexing yields `undefined`, which `join` writes as ""). */
  function Head(p: string): (h: string)
    ensures |h| <= 1
    ensures h != [] <==> p != []
  {
    if p == [] then [] else [p[0]]
  }

  /** The heads of the pieces, joined. */
  function FirstChars(parts: seq<string>): string
    decreases |parts|
  {
    if parts == [] then [] else Head(parts[0]) + FirstChars(parts[1..])
  }

  /** `name.split(' ').map(n => n[0]).join('')`. */
  function Initials(name: string): (r: string)
    ensures |r| <= |name|
    ensures forall i :: 0 <= i < |r| ==> r[i] != ' '
  {
    InitialsAreWordStarts(name);
    WordStartsBounds(name, true);
    WordStarts(name, true)
  }

  /** The reference reading: the characters of `s` that are not a space and
      either start `s` (when `afterSpace`) or follow a space. */
  function WordStarts(s: string, afterSpace: bool): string
    decreases |s|
  {
    if s == [] then []
    else (if afterSpace && s[0] != ' ' then [s[0]] else []) + WordStarts(s[1..], s[0] == ' ')
  }

  lemma {:induction false} WordStartsBounds(s: string, afterSpace: bool)
    ensures |WordStarts(s, afterSpace)| <= |s|
    ensures forall i :: 0 <= i < |WordStarts(s, afterSpace)| ==> WordStarts(s, afterSpace)[i] != ' '
    decreases |s|
  {
    if s != [] {
      WordStartsBounds(s[1..], s[0] == ' ');
    }
  }

  /** Splitting on spaces and taking the heads finds exactly the word
      starts; the second half is the same fact for the pieces after the
      first. */
  lemma {:induction false} InitialsAreWordStarts(s: string)
    ensures FirstChars(Split(s, ' ')) == WordStarts(s, true)
    ensures FirstChars(Split(s, ' ')[1..]) == WordStarts(s, false)
    decreases |s|
  {
    if s != [] {
      InitialsAreWordStarts(s[1..]);
      var r := Split(s[1..], ' ');
      if s[0] == ' ' {
        assert Split(s, ' ') == [[]] + r;
        assert Split(s, ' ')[1..] == r;
        assert FirstChars(Split(s, ' ')) == Head([]) + FirstChars(r);
      } else {
        var first := [s[0]] + r[0];
        assert Split(s, ' ') == [first] + r[1..];
        assert Split(s, ' ')[1..] == r[1..];
        assert FirstChars(Split(s, ' ')) == Head(first) + FirstChars(r[1..]);
      }
    } else {
      assert Split(s, ' ') == [[]];
      assert Split(s, ' ')[1..] == [];
    }
  }

  /** Concrete readings: two words, doubled and leading spaces. */
  lemma InitialsExamples()
    ensures Initials("Al Bo") == "AB"
    ensures Initials(" A  B") == "AB"
    ensures Initials("") == ""
  {
    assert WordStarts("Al Bo", true) == "AB" by {
      assert WordStarts("o", false) == "";
      assert WordStarts("Bo", true) == "B";
      assert WordStarts(" Bo", false) == "B";
      assert WordStarts("l Bo", false) == "B";
    }
    assert WordStarts(" A  B", true) == "AB" by {
      assert WordStarts("B", true) == "B";
      assert WordStarts(" B", true) == "B";
      assert WordStarts("  B", false) == "B";
      assert WordStarts("A  B", true) == "AB";
    }
  }

  /** How many friend avatars the hover card shows at most. */
  const FriendLimit: nat := 5

  /** The hover card: the user's details, the first five friends that
      resolve to accounts, and the number of friends beyond five. */
  datatype Card = Card(name: string, email: string, balance: Cents, friends: seq<User>, overflow: Option<nat>)

  /** What the component renders. */
  datatype View = Plain(initials: string) | WithCard(initials: string, card: Card)

  /** The friend avatars: the first five ids, each resolved, unknown ones
      rendering nothing. */
  function FriendAvatars(s: State, u: User): (r: seq<User>)
    ensures |r| <= FriendLimit
    ensures forall i :: 0 <= i < |r| ==> r[i] in s.users && r[i].id in u.friends
  {
    var shown := if |u.friends| <= FriendLimit then u.friends else u.friends[..FriendLimit];
    UsersByIds(s, shown)
  }

  /** `+{friends.length - 5}`, shown only past five friends. */
  function Overflow(u: User): (k: Option<nat>)
    ensures k.Some? <==> |u.friends| > FriendLimit
    ensures k.Some? ==> k.value > 0 && k.value + FriendLimit == |u.friends|
  {
    if |u.friends| > FriendLimit then Some(|u.friends| - FriendLimit) else None
  }

  /** The counter's text. */
  function OverflowLabel(k: nat): (t: string)
    ensures |t| >= 2 && t[0] == '+'
    ensures forall i :: 1 <= i < |t| ==> IsDigit(t[i])
    ensures ParseNat(t[1..]) == k
  {
    NatToStringRoundTrip(k);
    assert ("+" + NatToString(k))[1..] == NatToString(k);
    "+" + NatToString(k)
  }

  /** `UserAvatar`: the plain avatar, or the avatar with its hover card
      when `showHoverCard` is set. */
  function Render(s: State, u: User, showHoverCard: bool): (v: View)
    ensures v.WithCard? <==> showHoverCard
    ensures v.initials == Initials(u.name)
    ensures v.WithCard? ==>
      v.card.name == u.name && v.card.email == u.email && v.card.balance == u.walletBalance
  {
    if !showHoverCard then Plain(Initials(u.name))
    else WithCard(Initials(u.name), Card(u.name, u.email, u.walletBalance, FriendAvatars(s, u), Overflow(u)))
  }

  /** Every friend is accounted for: the five (or fewer) considered and
      the counter add up to the friends list, and when all considered ids
      have accounts each is shown, in order. */
  lemma FriendsAccountedFor(s: State, u: User)
    ensures var shown := if |u.friends| <= FriendLimit then u.friends else u.friends[..FriendLimit];
      |shown| + (if Overflow(u).Some? then Overflow(u).value else 0) == |u.friends|
    ensures (forall i :: 0 <= i < |u.friends| && i < FriendLimit ==> Known(s, u.friends[i])) ==>
      |FriendAvatars(s, u)| == (if |u.friends| <= FriendLimit then |u.friends| else FriendLimit)
      && forall i :: 0 <= i < |FriendAvatars(s, u)| ==> FriendAvatars(s, u)[i].id == u.friends[i]
  {
    var shown := if |u.friends| <= FriendLimit then u.friends else u.friends[..FriendLimit];
    if forall i :: 0 <= i < |u.friends| && i < FriendLimit ==> Known(s, u.friends[i]) {
      AllKnownResolved(s, shown);
    }
  }

  /** Ids that all have accounts resolve one-for-one. */
  lemma AllKnownResolved(s: State, ids: seq<string>)
    requires forall i :: 0 <= i < |ids| ==> Known(s, ids[i])
    ensures |UsersByIds(s, ids)| == |ids|
    ensures forall i :: 0 <= i < |ids| ==> UsersByIds(s, ids)[i].id == ids[i]
  {
    assert Filter(ids, KnownIn(s)) == ids by {
      forall i | 0 <= i < |ids|
        ensures KnownIn(s)(ids[i])
      {
        assert KnownIn(s)(ids[i]) == Known(s, ids[i]);
      }
      FilterAll(ids, KnownIn(s));
    }
    UsersByIdsAreKnown(s, ids);
  }
}

=== FILE: wallet.dfy ===
/** The wallet page (src/pages/Wallet.tsx): the Add Funds handler, the
    Deposits and Spent tabs of the transaction history, and the signed
    amount shown for each transaction. Amounts are in cents, shown as
    dollars with two decimals. */
module WalletPage {
  import opened Opt
  import opened Model
  import opened Seqs
  import opened Text

  /** The top-up call the page makes. The application context the page
      reads it from does not provide one (`Missing`): calling it throws,
      and the handler's catch branch runs. */
  datatype TopUp = Missing | Provider(result: TopUpResult)
  datatype TopUpResult = Succeeded | Declined(error: Option<string>)

  /** The toast the handler shows. */
  datatype Toast =
    | InvalidAmount
    | FundsAdded(text: string)
    | TopUpFailed(message: string)
    | PaymentError

  /** `handleAddFunds`: `text` is the amount field and `value` how it reads
      as a number. A field that is empty, not a number or not positive is
      refused before any call. Otherwise the top-up is called; only a
      success clears the field. Returns the field afterwards and the
      toast. */
  function HandleAddFunds(text: string, value: AmountInput, topUp: TopUp): (r: (string, Toast))
    ensures text == [] || !PositiveAmount(value) ==> r == (text, InvalidAmount)
    ensures r.0 == [] <==> text == [] || (PositiveAmount(value) && topUp == Provider(Succeeded))
    ensures r.1.FundsAdded? <==> text != [] && PositiveAmount(value) && topUp == Provider(Succeeded)
    ensures r.1.FundsAdded? ==> r.1.text == text
    ensures text != [] && PositiveAmount(value) && topUp.Missing? ==> r == (text, PaymentError)
    ensures text != [] && PositiveAmount(value) && topUp.Provider? && topUp.result.Declined? ==>
      r.0 == text && r.1 == TopUpFailed(ErrorText(topUp.result.error))
  {
    if text == [] || !PositiveAmount(value) then (text, InvalidAmount)
    else match topUp
      case Missing => (text, PaymentError)
      case Provider(Succeeded) => ([], FundsAdded(text))
      case Provider(Declined(e)) => (text, TopUpFailed(ErrorText(e)))
  }

  /** `result.error || "Failed to add funds"`: an absent or empty error
      falls back to the fixed text. */
  function ErrorText(e: Option<string>): (m: string)
    ensures m != []
    ensures e.Some? && e.value != [] ==> m == e.value
  {
    if e.Some? && e.value != [] then e.value else "Failed to add funds"
  }

  /** As the application is wired, a valid amount always ends in the
      payment-error toast and the field keeps its text. */
  lemma AddFundsNeverSucceeds(text: string, value: AmountInput)
    ensures !HandleAddFunds(text, value, Missing).1.FundsAdded?
    ensures HandleAddFunds(text, value, Missing).0 == text
  {
  }

  function IsDeposit(): WalletTransaction -> bool {
    (tx: WalletTransaction) => tx.kind == Deposit
  }

  /** The Deposits tab. */
  function Deposits(txs: seq<WalletTransaction>): seq<WalletTransaction> {
    Filter(txs, IsDeposit())
  }

  /** The Spent tab: every transaction that is not a deposit. */
  function Spent(txs: seq<WalletTransaction>): seq<WalletTransaction> {
    Filter(txs, Not(IsDeposit()))
  }

  /** Both tabs keep the history's order: each transaction is kept or
      dropped on its own, and the kept ones stay where they were. */
  lemma TabsKeepOrder(a: seq<WalletTransaction>, b: seq<WalletTransaction>, tx: WalletTransaction)
    ensures Deposits(a + b) == Deposits(a) + Deposits(b)
    ensures Spent(a + b) == Spent(a) + Spent(b)
    ensures Deposits([tx]) == (if tx.kind == Deposit then [tx] else [])
    ensures Spent([tx]) == (if tx.kind == Deposit then [] else [tx])
  {
    FilterAppend(a, b, IsDeposit());
    FilterAppend(a, b, Not(IsDeposit()));
    assert IsDeposit()(tx) == (tx.kind == Deposit);
    assert Not(IsDeposit())(tx) == !IsDeposit()(tx);
  }

  /** The two tabs together hold every transaction exactly once. */
  lemma TabsPartitionHistory(txs: seq<WalletTransaction>)
    ensures multiset(Deposits(txs)) + multiset(Spent(txs)) == multiset(txs)
    ensures |Deposits(txs)| + |Spent(txs)| == |txs|
  {
    FilterPartition(txs, IsDeposit());
    FilterPartitionSize(txs, IsDeposit());
  }

  /** A transaction is on the Spent tab exactly when it is not a deposit. */
  lemma SpentIff(txs: seq<WalletTransaction>, tx: WalletTransaction)
    ensures tx in Spent(txs) <==> tx in txs && tx.kind != Deposit
  {
    var p := Not(IsDeposit());
    if tx in txs && tx.kind != Deposit {
      var i :| 0 <= i < |txs| && txs[i] == tx;
      assert p(txs[i]);
    }
    if tx in Spent(txs) {
      assert p(tx);
    }
  }

  /** A transaction is on the Deposits tab exactly when it is a deposit. */
  lemma DepositsIff(txs: seq<WalletTransaction>, tx: WalletTransaction)
    ensures tx in Deposits(txs) <==> tx in txs && tx.kind == Deposit
  {
    var p := IsDeposit();
    if tx in txs && tx.kind == Deposit {
      var i :| 0 <= i < |txs| && txs[i] == tx;
      assert p(txs[i]);
    }
    if tx in Deposits(txs) {
      assert p(tx);
    }
  }

  function Abs(x: int): nat {
    if x < 0 then -x else x
  }

  /** Dollars and cents with two decimals, as `toFixed(2)` shows a cent
      amount divided by 100. */
  function FormatCents(c: nat): (s: string)
    ensures |s| >= 4 && s[|s| - 3] == '.'
  {
    NatToString(c / 100) + "." + [DigitChar(c % 100 / 10), DigitChar(c % 10)]
  }

  /** Reading the dollars and the two decimals back gives the amount. */
  lemma FormatCentsRoundTrip(c: nat)
    ensures var s := FormatCents(c);
      && (forall i :: 0 <= i < |s| - 3 ==> IsDigit(s[i]))
      && IsDigit(s[|s| - 2]) && IsDigit(s[|s| - 1])
      && ParseNat(s[..|s| - 3]) * 100 + DigitValue(s[|s| - 2]) * 10 + DigitValue(s[|s| - 1]) == c
  {
    var s := FormatCents(c);
    var w := NatToString(c / 100);
    assert s[..|s| - 3] == w;
    NatToStringRoundTrip(c / 100);
    DigitRoundTrip(c % 100 / 10);
    DigitRoundTrip(c % 10);
  }

  /** The Amount cell: "+" for a deposit and "-" for anything else, then
      "$" and the magnitude. */
  function AmountLabel(tx: WalletTransaction): (s: string)
    ensures |s| >= 6 && s[1] == '$'
    ensures s[0] == '+' <==> tx.kind == Deposit
    ensures s[0] == '-' <==> tx.kind != Deposit
    ensures s[2..] == FormatCents(Abs(tx.amount))
  {
    (if tx.kind == Deposit then "+" else "-") + "$" + FormatCents(Abs(tx.amount))
  }

  /** The label shows the magnitude, whatever sign is stored: a deposit and
      a withdrawal of the same magnitude differ only in the first
      character. */
  lemma LabelShowsMagnitude(a: WalletTransaction, b: WalletTransaction)
    requires Abs(a.amount) == Abs(b.amount)
    ensures AmountLabel(a)[1..] == AmountLabel(b)[1..]
    ensures AmountLabel(a) == AmountLabel(b) <==> (a.kind == Deposit <==> b.kind == Deposit)
  {
    var la, lb := AmountLabel(a), AmountLabel(b);
    assert la[1..] == lb[1..] by {
      assert la[1..] == [la[1]] + la[2..];
      assert lb[1..] == [lb[1]] + lb[2..];
    }
    if la == lb {
      assert la[0] == lb[0];
    }
    assert la == [la[0]] + la[1..];
    assert lb == [lb[0]] + lb[1..];
  }

  /** What a history tab shows. */
  datatype ListView = Spinner | NoTransactions | Rows(labels: seq<string>)

  /** `TransactionList`: the spinner while loading, a notice for an empty
      list, else one amount label per transaction in order. */
  function TransactionList(txs: seq<WalletTransaction>, loading: bool): (v: ListView)
    ensures loading <==> v.Spinner?
    ensures v.NoTransactions? <==> !loading && txs == []
    ensures v.Rows? ==> |v.labels| == |txs| && forall i :: 0 <= i < |txs| ==> v.labels[i] == AmountLabel(txs[i])
  {
    if loading then Spinner
    else if txs == [] then NoTransactions
    else Rows(seq(|txs|, i requires 0 <= i < |txs| => AmountLabel(txs[i])))
  }
}
